=== FILE: README.md ===
# push_to_talk in Dafny

A model of the push-to-talk dictation tool. While a key chord is held the
tool records microphone audio. When the chord comes again it hands the
recording to a Whisper speech model and types the transcript into the
focused window. The tool exists in two shapes, and both are modelled:

- the single-file program `push_to_talk.py`: recording session, key
  listener, transcription thread, key-chord dialog, log cleanup;
- the packaged application (`main.py`, `gui/`, `audio/`,
  `transcription/`, `config/`, `app_logging/`, `logger.py`,
  `utils/helpers.py`).

As written, the packaged application does not start. `main.py` imports
`save_transcription` from the `audio` package (main.py:27-32), which does
not export it (audio/__init__.py:3-13; the function is in
audio/transcription_saving.py:15), so importing `main.py` raises
ImportError. With that import fixed, `Transcriber(config=self.config)` at
main.py:87 meets a constructor that takes no arguments
(transcription/transcriber.py:14) and raises TypeError, which the
`__main__` block catches before calling `graceful_shutdown`
(main.py:541-549). The `MainApp` members model the methods of
`MainApplication` as if the application had been built.

Three more top-level modules, `gui.py`, `config.py` and `preferences.py`,
belong to an older flat layout. They are modelled as written, as the
behaviour of that layout, but nothing in the repository reaches them: a
package shadows a module of the same name, so `gui` and `config` resolve
to the `gui/` and `config/` packages (main.py:23, main.py:26,
gui/main_gui.py:6, and even gui.py:9 and preferences.py:6), and
`preferences.py` is imported only by `gui.py`. The shipped entry point
`main.py` never runs their code.

Each `with lock:` section, and each callback the GUI runs, is one atomic
step. The exception is the audio callback of push_to_talk.py, which takes
the lock only for its append: its recording test, its append and its cap
check are three steps, so a key press can fall between them.
Everything the program asks of the outside world is a parameter of the
step that asks it. These are the model loader, speech inference, noise
reduction, the input stream, the file system, typing and the Tk timer
queue. A parameter is either a function from the request to its answer
or a boolean saying whether the call returns normally.

Python semantics written out explicitly:

- slice bounds with negative and out-of-range indices (`PySeq`);
- `int(0.5 * x)` truncation toward zero;
- the exact white-space set of `str.strip` (`PyText`);
- `dict.get(k, default)` as `Option.GetOr`;
- `or` on a possibly-zero device index;
- the stable `list.sort` on modification times, with ties kept in listing
  order (`LogFiles`).

Modules, one concept each:

| module | what it models |
|---|---|
| `Audio` | audio blocks, the frame count of the buffer, and the flattened sample array handed to transcription |
| `PttSession` | the recording session of `push_to_talk.py`: start, stop, the audio callback with the duration cap (whole and as its three steps), and an invariant over any interleaving |
| `KeyListener` | the polling loop: one toggle per maximal run of "all keys down" when nothing raises, and the error path that retries while the chord is held |
| `PttTranscribe`, `PttKeys`, `PttLogCleanup` | the transcription thread, the key-chord dialog and the log retention of `push_to_talk.py` |
| `MainApp` | the recorder of `main.py`: start/stop with the timeout timer, the callback, transcription with optional noise reduction, device choice, shutdown |
| `TkTimer`, `GuiTimeout`, `TranscriptionGui` | Tk's `after`/`after_cancel` queue and the two GUIs' recording-timeout timers |
| `GuiModel`, `Helpers`, `Transcriber` | model loading with fallbacks (in the standalone `gui.py`), the retry helper and the cached model loader |
| `AudioStream`, `AudioDevices` | opening the input stream with a fallback device, and input-device enumeration |
| `ConfigFile`, `ConfigSchema`, `LoggingConfig`, `LogCleanupConfig`, `GuiSettingsConfig`, `ModelSupportConfig` | loading and saving the YAML configuration (the standalone `config.py`), the schema defaults and the field validators |
| `ConfigManager`, `Preferences` | `update_preferences` and the preferences dialog of the standalone `preferences.py` |
| `LogFiles`, `LogCleanup`, `Formatters`, `LogLevels`, `LoggerSetup` | log retention, formatter choice, level lookup and `setup_logging` |

## Model

| member | source | states |
|---|---|---|
| PttSession.StartRecording | push_to_talk.py:493-501 | a raising start beep ends the call with the session untouched; otherwise a start while recording changes nothing and a start while idle begins recording on an empty buffer with status Recording |
| PttSession.StartLocked | push_to_talk.py:496-501 | the locked section: a start while recording changes nothing; otherwise recording begins on an empty buffer with status Recording |
| PttSession.StopRecording | push_to_talk.py:503-520 | a raising stop beep ends the call before the lock, so recording and the buffer go on; otherwise a stop while idle changes nothing, and a stop while recording ends it, empties the buffer and starts a job exactly when the buffer held blocks, with their samples flattened in arrival order |
| PttSession.StopLocked | push_to_talk.py:506-520 | the locked section: a stop while idle changes nothing; otherwise recording ends, the buffer is emptied, and a job gets the flattened samples exactly when there were blocks (status Transcribing, else Idle) |
| PttSession.ExceededIffFramesAbove | push_to_talk.py:483-491 | for a positive sample rate, the real-valued duration test is the integer test "frames > cap * samplerate"; a zero rate raises |
| PttSession.ClearIfNeeded | push_to_talk.py:483-491 | the cap check keeps the recording flag; it either empties the buffer or leaves it as it was; a zero sample rate only sets status Error |
| PttSession.ClearIfNeededWithinCap | push_to_talk.py:483-491 | after the cap check the buffer holds at most the cap, whatever it held before |
| PttSession.AudioCallback | push_to_talk.py:580-591 | one callback run without a key press inside it: blocks are ignored while idle; while recording the buffer either gains exactly the new block or is emptied; a zero sample rate keeps the block and sets status Error |
| PttSession.AudioThreadStep | push_to_talk.py:580-591 | the callback as three steps: the unlocked recording test remembers the block only while recording, the locked append adds exactly that block, and the cap check either empties the buffer or keeps it |
| PttSession.UninterruptedCallback | push_to_talk.py:580-591 | while idle the test step changes nothing; while recording the three steps run back to back equal AudioCallback |
| PttSession.StopInsideCallbackLeavesBlock | push_to_talk.py:493-587 | a stop between the recording test and the append leaves the session idle with the block in its buffer, and the next start empties it |
| PttSession.StopBeforeCapCheckExceedsCap | push_to_talk.py:483-587 | a stop between the append and the cap check hands the transcription a job longer than the cap |
| PttSession.StopJobBound | push_to_talk.py:506-520 | under the invariant, a stop while recording with blocks starts a job of at most the cap, or at most the cap plus the last block when the stop falls between an append and its cap check |
| PttSession.AudioCallbackCap | push_to_talk.py:483-491 | the buffer is emptied exactly when the new block takes it strictly past the cap, and the block is appended otherwise |
| PttSession.OverflowClearsAll | push_to_talk.py:487-491 | a block that overflows the cap throws away everything recorded before it, not just the excess |
| PttSession.Toggle | push_to_talk.py:599-603 | a detected chord flips the recording flag and leaves the buffer empty, unless the beep raises, in which case nothing happens |
| PttSession.RaisingBeepKeepsRecording | push_to_talk.py:608-611 | a press whose beep raises only sets status Error: the flag and every buffered block stay |
| PttSession.StepPreservesValid | push_to_talk.py:483-591 | every event, each of the three callback steps included, keeps the invariant: an idle buffer holds at most one block, and none while an append is pending; the buffer is within the cap except between an append and its cap check, when only the last block can take it past |
| PttSession.RunPreservesValid | push_to_talk.py:483-591 | the invariant holds after any interleaving of presses (with or without a raising beep), listener faults, callback steps and finished transcriptions |
| PttSession.FeedAppends | push_to_talk.py:583-587 | below the cap, a sequence of uninterrupted callbacks appends the blocks exactly, in order |
| PttSession.RecordThenStop | push_to_talk.py:493-520 | start, then blocks within the cap, then stop, both beeps returning: the job receives exactly those samples in arrival order (no job if no block arrived) |
| KeyListener.Listen | push_to_talk.py:593-611 | over any trace of polls (not all down; all down, with the outcome of the beep a toggle there would make; raising) the listener produces the per-poll reference events: a fault for every raise, wherever it happens, and a press for every "all down" the outer loop reads; the outer loop reads the first poll, the poll after any poll that is not "all down", and the poll after a press whose beep raised |
| KeyListener.NoFaultsTogglesOncePerRun | push_to_talk.py:597-607 | when no poll and no beep raises, there is one press per maximal run of "all keys down", and every press goes through |
| KeyListener.NoFaultsToggleAtRunStarts | push_to_talk.py:599-607 | when nothing raises, the presses fall exactly at the starts of the maximal runs, position by position |
| KeyListener.RaiseWhileHeldTogglesAgain | push_to_talk.py:599-611 | a raising `is_pressed` while the chord is held skips the wait for release, so the still-held chord toggles a second time |
| KeyListener.RaisingBeepRetriesWhileHeld | push_to_talk.py:599-611 | a press whose beep raises is retried at every poll while the chord stays held |
| KeyListener.ListenerRunParity | push_to_talk.py:599-611 | raising polls and raising beeps leave the flag alone; the flag flips once per press that went through |
| KeyListener.RunStartsComplete | push_to_talk.py:599-605 | every run start is listed |
| KeyListener.RunStartsCountRuns | push_to_talk.py:599-605 | counting run starts position by position agrees with counting runs run by run |
| KeyListener.ListenSession | push_to_talk.py:597-611 | the session ends recording exactly when an odd number of presses went through relative to its start; with nothing raising, exactly when the trace holds an odd number of chord presses |
| PttTranscribe.Transcribe | push_to_talk.py:522-565 | status ends Idle exactly when inference, typing (when there is text), the transcript write and monitoring all succeed; the transcript file is written exactly when inference, typing (when there is text) and the write succeed, with the stripped text; shown text is the stripped transcript and is shown only when non-blank; typing gets it plus one space |
| PttTranscribe.WhitespaceOnlyShowsNothing | push_to_talk.py:531-548 | a blank transcript shows and types nothing but is still written as an empty line |
| PttTranscribe.ShownIsStripped | push_to_talk.py:531-537 | shown text has no surrounding white space |
| PttKeys.Checked | push_to_talk.py:334 | the chosen keys are exactly the ticked available keys |
| PttKeys.CheckedKeepsOrder | push_to_talk.py:334 | the chosen keys keep the offered order, and from distinct boxes each key appears once |
| PttKeys.SaveKeyCombination | push_to_talk.py:332-340 | nothing ticked is rejected; otherwise the chord lists each ticked key exactly once, in the order the boxes are offered |
| PttKeys.KeyCombinationAfter | push_to_talk.py:336-340 | a rejected dialog keeps the current chord; a saved one becomes the chord exactly as selected, before and whatever the file write does |
| PttLogCleanup.CleanupByTime | push_to_talk.py:117-129 | a listing failure propagates; otherwise every regular file older than the retention period whose removal succeeds is removed, and only those; a failed removal does not stop the loop |
| PttLogCleanup.NewestFirst | push_to_talk.py:134-138 | the regular files, newest first, ties in listing order |
| PttLogCleanup.CleanupBySize | push_to_talk.py:131-143 | removes the files past the newest `max_log_files`, newest first, stopping at the first failed removal |
| PttLogCleanup.SizeKeepsNewest | push_to_talk.py:134-139 | the files kept are the newest ones: none removed is newer than one kept |
| PttLogCleanup.SizeZeroRemovesAll | push_to_talk.py:139-141 | a limit of 0 removes every regular file |
| PttLogCleanup.SetupCleanup | push_to_talk.py:108-115 | 'time' and 'size' dispatch to the two cleanups with defaults 7 days and 10 files; other strategies and disabled cleanup remove nothing |
| PttLogCleanup.ZeroLimitDisagrees | app_logging/cleanup.py:49-55 | with a limit of 0 the single-file program removes every log while the packaged cleanup's count strategy removes none |
| LogFiles.Rank | app_logging/cleanup.py:34-35 | every listed entry is tagged with its listing position |
| LogFiles.SortBy | app_logging/cleanup.py:40 | the sort yields an ordered permutation of its input |
| LogFiles.SortedPermutationUnique | logger.py:62 | the stable order is unique: two sorted permutations of the same distinct entries are equal, so the sort is fully determined |
| LogFiles.Filter | app_logging/cleanup.py:34-37 | the kept entries are exactly those satisfying the test |
| LogFiles.FilterSorted | logger.py:47-50 | keeping only some entries of an oldest-first list leaves it oldest first |
| LogFiles.PermutationDistinct | app_logging/cleanup.py:40 | sorting never duplicates an entry: distinct listing positions stay distinct |
| LogFiles.RemoveUntilFailure | app_logging/cleanup.py:52-57 | removals happen in order; the first raise ends the loop, so the removed names are a prefix whose successor failed |
| LogFiles.RemoveAllWhenAllSucceed | app_logging/cleanup.py:52-55 | when every removal succeeds, every selected file is removed |
| LogCleanup.Candidates | app_logging/cleanup.py:34-40 | the candidates are exactly the regular `.log` files, oldest first, each listed once |
| LogCleanup.Selection | logger.py:41-79 | disabled selects nothing; a retention period whose cutoff falls outside the `datetime` range (OverflowError, caught at logger.py:80) selects nothing under every strategy; otherwise 'time' selects exactly the candidates older than the cutoff, oldest first, each once (so the deletion order is pinned by LogFiles.SortedPermutationUnique); 'count' selects the oldest beyond the limit via `[:-max]`; unknown strategies select nothing |
| LogCleanup.CleanupOldLogs | app_logging/cleanup.py:13-57 | a listing failure, disabled cleanup or a cutoff outside the `datetime` range removes nothing; otherwise the selection is removed in order until the first failure |
| LogCleanup.HugeRetentionRemovesNothing | app_logging/cleanup.py:29-57 | for any present-day clock, a retention period of a million days or more overflows the cutoff, so no file is removed, whatever the strategy |
| LogCleanup.CountKeepsNewest | app_logging/cleanup.py:49-55 | when the cutoff is in range and 0 < limit < count, exactly the newest `limit` files survive and none removed is newer than one kept |
| LogCleanup.CountWithinLimitSelectsNothing | logger.py:73-74 | at or under the limit nothing is removed |
| LogCleanup.CountZeroSelectsNothing | app_logging/cleanup.py:50-51 | a limit of 0 removes nothing, because `[:-0]` is empty |
| PySeq.Bound | app_logging/cleanup.py:51 | a slice bound counts from the end when negative and is clamped to the sequence |
| PySeq.PrefixSuffixSplit | push_to_talk.py:139 | `s[:n] + s[n:] == s` for every integer n |
| PySeq.DropLastSlice | app_logging/cleanup.py:51 | `s[:-m]` drops the last m elements for 0 < m <= len, and is empty for m == 0 or m > len |
| PySeq.TruncHalf | main.py:367 | `int(0.5 * x)` is half of x truncated toward zero |
| PyText.Strip | push_to_talk.py:532 | the result is the input minus leading and trailing white space, and neither end is white space |
| PyText.StripEmptyIffAllSpace | push_to_talk.py:532-536 | the stripped text is empty exactly when the input is all white space |
| PyText.StripIdempotent | main.py:373 | stripping twice is stripping once |
| PyText.LowerIdempotent | app_logging/formatters.py:16 | lower-casing twice is lower-casing once |
| PyText.UpperIdempotent | logger.py:141 | upper-casing twice is upper-casing once |
| Audio.SnapshotAppend | main.py:343 | the flattened array of two block lists is the concatenation of their arrays: no sample is lost, duplicated or reordered |
| Audio.TotalFramesAppend | push_to_talk.py:487 | frame counts add up over a split buffer |
| Audio.TotalFramesIsConcatLength | push_to_talk.py:487 | the frame count is the length of the concatenated frame matrix |
| MainApp.StartRecording | main.py:316-327 | a start while recording changes nothing; otherwise it sets the flag, empties the buffer, sets status Recording and starts the timeout timer |
| MainApp.StartArmsNoTimerUnderSchema | gui/transcription_gui.py:164-172 | the schema has no `recording_timeout`, so start never schedules a timer |
| MainApp.StopLocked | main.py:336-349 | the locked stop re-checks the flag; when recording it drops the flag, cancels the timer, hands over the flattened blocks (status Transcribing) or sets Idle, and empties the buffer |
| MainApp.StopRecording | main.py:329-349 | the unlocked check returns early; otherwise the locked section decides on the state it sees |
| MainApp.RacingStopsStartOneJob | main.py:333-337 | two stops that both pass the unlocked check start one transcription, not two |
| MainApp.AudioCallback | main.py:286-314 | while recording, every block is appended (no cap in this version); a raising waveform update sets status Error without losing the block |
| MainApp.FeedKeepsEverything | main.py:296-299 | any sequence of blocks is appended exactly, however long |
| MainApp.AsWrittenEveryBlockSetsError | main.py:296-314 | as written, the waveform call raises on every block, so recording any block sets status Error while every block is still kept |
| MainApp.WaveformFeedKeepsStatus | main.py:296-304 | with a waveform update that returns, recording keeps every block and leaves the status alone |
| MainApp.NoiseProfile | main.py:364-368 | the profile is the first half-second of samples, or all of them if shorter |
| MainApp.Transcribe | main.py:351-406 | the noise profile exists iff reduction is on, and the model gets the reduced or raw audio; shown text is the non-blank stripped transcript; saves and typing follow it; status ends Idle exactly when inference, typing and monitoring succeed |
| MainApp.WhitespaceTranscriptTouchesNoText | main.py:364-393 | whether or not noise reduction is on, a blank transcript of the audio the model is given shows, saves and types nothing; that audio (the reduced one when reduction is on) is still saved when configured, and the call ends Idle exactly when the resource log does not raise |
| MainApp.TranscriptionFinished | main.py:402-406 | the finished thread clears the buffer and sets the status, whatever the recorder is doing |
| MainApp.FinishDuringNextRecordingLosesAudio | main.py:402-405 | a transcription that ends during the next recording wipes that recording's blocks, so its stop starts no job; this holds whether or not the waveform update raises |
| MainApp.DeviceIndex | main.py:256 | a configured nonzero index is used; a missing or zero index falls back to the default |
| MainApp.DeviceZeroOnlyAsDefault | main.py:256 | device 0 is opened only when it is the default |
| MainApp.StartStream | main.py:251-274 | the stream is first tried on the chosen device, then once on the default when that differs |
| MainApp.RunUntilFailure | main.py:502-522 | shutdown steps run in order until one raises; the exit code is 0 exactly when none raised |
| MainApp.GracefulShutdown | main.py:497-522 | `should_exit` is set first; the stream is stopped and closed exactly when it exists and is active; exit 0 exactly when every step attempted succeeds, else 1 |
| MainApp.ShutdownTraces | main.py:501-522 | the exact step sequence for each outcome: stream stopped and closed before the loop quits and the window goes, then exit 0 (the helper's only exit, utils/helpers.py:13); a raising `stream.stop()` skips close, quit and destroy and exits 1 |
| TkTimer.After | gui.py:297 | `after` schedules under a fresh id and leaves every other entry alone |
| TkTimer.Cancel | gui.py:302 | `after_cancel` removes exactly that id, and cancelling an unknown id changes nothing |
| TkTimer.CancelUndoesAfter | gui.py:294-303 | cancelling the id just scheduled restores the queue |
| GuiTimeout.TimeoutDelay | gui.py:296-297 | the delay is `max_recording_duration` seconds in milliseconds, 60 s when absent |
| GuiTimeout.StartTimeoutTimer | gui.py:294-297 | the new timer is remembered, scheduled at the delay, and no earlier entry is dropped |
| GuiTimeout.StopTimeoutTimer | gui.py:299-303 | the remembered timer, if any, is cancelled and forgotten; other entries are untouched |
| GuiTimeout.StopRecordingTimeout | gui.py:305-311 | a timeout while recording requests a stop, sets Idle and forgets the timer; otherwise nothing |
| GuiTimeout.TimeoutFires | gui.py:305-311 | a fired timer leaves the queue |
| GuiTimeout.StopTimeoutIdempotent | gui.py:299-303 | stopping twice is stopping once |
| GuiTimeout.StartThenStopRestoresQueue | gui.py:294-303 | start then stop leaves the queue as it was |
| GuiTimeout.RestartOrphansFirstTimer | gui.py:294-297 | starting twice loses the first id, and a later stop cannot cancel it |
| GuiTimeout.TimeoutFiresOnce | gui.py:305-311 | the remembered timer firing while recording requests exactly one stop |
| TranscriptionGui.NewGui | gui/transcription_gui.py:16-41 | a new GUI is idle with no timer and holds the given model |
| TranscriptionGui.StartTimeoutTimer | gui/transcription_gui.py:164-172 | a positive timeout schedules a timer at that many milliseconds; a missing or non-positive one does nothing |
| TranscriptionGui.StopTimeoutTimer | gui/transcription_gui.py:174-183 | a pending timer is cancelled and forgotten; a raising cancel leaves it remembered |
| TranscriptionGui.SetModel | gui/transcription_gui.py:135-146 | only the model changes |
| TranscriptionGui.StopTimeoutIdempotent | gui/transcription_gui.py:174-183 | stopping twice is stopping once |
| TranscriptionGui.StartThenStopRestoresQueue | gui/transcription_gui.py:164-183 | start then stop leaves the queue as it was |
| GuiModel.FallbackModels | gui.py:218-221 | the fallbacks are the known models other than the requested one, in their fixed order |
| GuiModel.Without | gui.py:220-221 | removal keeps exactly the other names, in order |
| GuiModel.FirstLoadable | gui.py:222-237 | names are tried in order up to the first that loads; if none loads, all were tried |
| GuiModel.LoadModelInThread | gui.py:201-240 | for a given loader: the requested name first, then the fallbacks; the first that loads becomes the model; if none loads the model is unchanged and shutdown is requested |
| GuiModel.AsWrittenEveryLoadFails | gui.py:201-240 | as written, the helper's import and its one-argument call raise on every name, so every candidate is tried, the model stays and shutdown is requested |
| GuiModel.LoadThroughHelper | gui.py:201-240 | through the helper called with all its arguments, a name loads exactly when the loader returns a truthy model; shutdown happens exactly when no candidate does |
| GuiModel.NoNameTriedTwice | gui.py:218-222 | no model name is tried twice |
| GuiModel.ApplyModelPreference | gui.py:160-194 | a failed reload changes nothing; otherwise a model is reloaded exactly when the configured one (default 'base') differs from the current one |
| GuiModel.ApplyTwiceReloadsOnce | gui.py:179-183 | applying the same preferences again reloads nothing |
| Helpers.LoadModelWithRetry | utils/helpers.py:15-32 | one attempt only; a missing model raises ValueError, a loader error is re-raised, and success returns the loader's model |
| Transcriber.DeviceName | transcription/transcriber.py:21 | 'cuda' exactly when CUDA is available, 'cpu' otherwise |
| Transcriber.GetWhisperModel | transcription/transcriber.py:17-39 | a cached name is served without loading; otherwise the loader runs and only a success is cached; no cached entry changes |
| Transcriber.LoadWhisperModel | transcription/transcriber.py:41-52 | same as `get_whisper_model`, with failures passed on |
| Transcriber.SecondCallHitsCache | transcription/transcriber.py:17-31 | after a successful load, a second request returns the same model without loading |
| Transcriber.FailureIsRetried | transcription/transcriber.py:32-39 | a failed load is not cached, so the next request loads again |
| Transcriber.CheckModelAvailability | transcription/transcriber.py:54-57 | true exactly when the name is listed |
| Transcriber.AvailabilityAgreesWithValidator | transcription/transcriber.py:54-57 | a model is available exactly when the `default_model` validator accepts it against the same list, and order in the list does not matter |
| AudioStream.StartAudioStream | audio/streaming.py:13-107 | at most two attempts, requested device first, then the default when it differs; success iff an attempt opens; a GUI warning after a successful fallback; a GUI error and AudioProcessingError when both fail |
| AudioStream.NoDeviceTriedTwice | audio/streaming.py:62-76 | no device is tried twice |
| AudioDevices.InputsFrom | audio/audio_devices.py:15-20 | only devices with input channels are listed, each under its own index and name, in enumeration order |
| AudioDevices.InputsFromComplete | audio/audio_devices.py:17-19 | every device with input channels is listed |
| AudioDevices.GetInputDevices | audio/audio_devices.py:12-26 | a failing query yields no devices; otherwise exactly the input devices, in order |
| AudioDevices.GetInputDevicesOrRaise | preferences.py:15-22 | the dialog's enumeration raises exactly when the query fails, else it gives the same list |
| AudioDevices.ListingsAgree | preferences.py:15-22 | the two enumerations agree whenever the query succeeds |
| AudioDevices.FindByName | config/config_manager.py:37 | the first device with that name, or none when no device has it |
| ConfigFile.FirstMissingFrom | config.py:54-60 | the first required key that is absent, with all earlier ones present |
| ConfigFile.LoadConfig | config.py:17-64 | a missing file and a parse error raise ConfigError; an `open` that fails on a file that exists raises its OSError unwrapped, outside the `try`; a document that is not a mapping, list or string raises TypeError; a document loads exactly when every required key is in it (a key of a mapping, an item of a list, a substring of a string), and it is returned as parsed |
| ConfigFile.KeyNamesTextLoads | config.py:54-64 | a file holding one string that spells out all required keys passes the check and loads as a string |
| ConfigFile.SaveConfig | config.py:66-80 | a save succeeds exactly when the write does, and otherwise raises ConfigError |
| ConfigFile.SaveThenLoad | config.py:17-80 | a loaded document, saved and loaded again, loads the same, given that YAML reads back what it wrote |
| ConfigFile.MissingKeyNeverLoads | config.py:54-60 | a configuration without any one required key never loads |
| ConfigSchema.DefaultsAreValid | config/schema.py:12-32 | the defaults are the listed constants and pass every section validator |
| LoggingConfig.ValidateLogFormat | config/logging_config.py:14-18 | only 'json' and 'plain' are accepted |
| LoggingConfig.ValidateLogLevel | config/logging_config.py:20-25 | only the five upper-case level names are accepted |
| LoggingConfig.Validate | config/logging_config.py:6-25 | a section is valid exactly when its three checked fields are, and each bad field is reported |
| LoggingConfig.DefaultsValid | config/logging_config.py:7-12 | the defaults are valid whatever the unchecked fields hold |
| LoggingConfig.UncheckedFieldsIgnored | config/logging_config.py:6-25 | for every section, `log_dir`, `enable_dynamic_log_level` and `log_to_console` never change the verdict or the fields reported |
| LoggingConfig.LevelsAreCaseSensitive | config/logging_config.py:20-25 | 'info' is rejected where 'INFO' is accepted |
| LogCleanupConfig.ValidateRetentionStrategy | config/log_cleanup_config.py:11-15 | only 'time' and 'count' are accepted |
| LogCleanupConfig.Validate | config/log_cleanup_config.py:5-15 | a section is valid exactly when its strategy is |
| LogCleanupConfig.DefaultsValidSizeRejected | config/log_cleanup_config.py:6-15 | the defaults are valid, and the single-file program's 'size' strategy is rejected |
| LogCleanupConfig.UncheckedFieldsIgnored | config/log_cleanup_config.py:5-15 | for every section, the enabled flag and both counts never change the verdict |
| GuiSettingsConfig.ValidateTheme | config/gui_settings_config.py:9-13 | only 'Default', 'Dark' and 'Light' are accepted |
| GuiSettingsConfig.Validate | config/gui_settings_config.py:5-13 | a section is valid exactly when its theme is |
| GuiSettingsConfig.DefaultsValid | config/gui_settings_config.py:6-13 | the defaults are valid, and theme names are case-sensitive |
| GuiSettingsConfig.UncheckedFieldsIgnored | config/gui_settings_config.py:5-13 | for every section, `always_on_top` never changes the verdict |
| ModelSupportConfig.ValidateDefaultModel | config/model_support_config.py:10-14 | the default model must be among the available ones when those are known |
| ModelSupportConfig.DefaultsValid | config/model_support_config.py:7-14 | 'base' is valid by default, and nothing is valid against an empty list |
| ModelSupportConfig.OnlyListedNamesMatter | config/model_support_config.py:10-14 | the check depends only on which names are listed, not their order or repetition |
| ConfigManager.Assign | config/config_manager.py:27-34 | each of the eight preference fields is stored as given, and every other field, nested ones included, keeps its value |
| ConfigManager.UpdatePreferences | config/config_manager.py:13-49 | an unknown device raises ConfigError before saving; otherwise its index is stored and the save's outcome is returned |
| ConfigManager.UpdateIsAssignThenDevice | config/config_manager.py:27-40 | whatever the device lookup gives, the configuration is Assign's result with only the device index changed, so noise reduction, listener sleep, always-on-top and console logging are stored as given |
| ConfigManager.MissingDeviceKeepsAssignments | config/config_manager.py:27-41 | the assignments made before the device lookup stay in place when it raises |
| Preferences.NormalizeKey | preferences.py:150 | a key normalises to empty exactly when it is all white space, and never holds an upper-case letter |
| Preferences.NormalizeKeyIdempotent | preferences.py:150 | normalising twice is normalising once |
| Preferences.NormalizeAll | preferences.py:150 | each key is normalised in place |
| Preferences.BlankIffEmptyKey | preferences.py:150-153 | the "all fields filled" check fails exactly when some entry is blank |
| Preferences.SaveAfterKeys | preferences.py:155-198 | a bad sleep or an unknown device stops before saving; otherwise the settings and device index are stored and the save's outcome decides |
| Preferences.SavePreferences | preferences.py:143-198 | the model is stored first; a blank key entry stops there; otherwise the normalised keys are stored and the remaining checks follow |
| Preferences.SavedIffAllChecksPass | preferences.py:143-198 | the dialog saves and closes exactly when no key is blank, the sleep parses, the device exists and the write succeeds |
| Preferences.NoKeyEntriesPass | preferences.py:151 | with no key entries the check passes and the chord becomes empty |
| Formatters.GetFormatter | app_logging/formatters.py:6-30 | JSON exactly when the name lower-cases to 'json'; plain otherwise |
| Formatters.FormatterDependsOnLowerOnly | app_logging/formatters.py:16-21 | names equal up to case give the same formatter |
| Formatters.FormatterCaseInsensitive | app_logging/formatters.py:16-30 | 'JSON' and 'Json' give JSON; 'PLAIN' and unknown names give plain |
| LogLevels.LevelAttribute | logger.py:141 | WARN/WARNING and FATAL/CRITICAL alias; a non-attribute name gives the default; any other level is a standard one; `BASIC_FORMAT` and only it gives ValueError, `_STYLES` and only it gives TypeError |
| LogLevels.ValidatedLevelsAscend | logger.py:138-143 | the five names the configuration validator accepts map to levels 10, 20, 30, 40, 50 in order: none raises or falls back to the default |
| LogLevels.LevelNamedCaseInsensitive | logger.py:141 | the lookup ignores case |
| LogLevels.SetLogLevel | logger.py:138-144 | a name that raises changes nothing; otherwise the root and every handler get the same level |
| LogLevels.SetLogLevelLastWins | logger.py:140-143 | the last level set wins |
| LoggerSetup.SetupLogging | logger.py:83-136 | a no-op once initialised; else it adds a file handler at the root's level (JSON iff 'json'), runs one cleanup and sets the flag; an error leaves the flag unset and keeps the partial state |
| LoggerSetup.SecondSetupIsNoOp | logger.py:85-87 | after a successful setup, a second setup changes nothing, so cleanup runs once |
| LoggerSetup.FailedSetupLeavesFileHandler | logger.py:119-127 | a bad console level raises after the file handler is added, and a retry adds a second file handler |
| Wrappers.GetOr | logger.py:44 | a missing key falls back to the default |

## Left out

- MainApp: the members model the methods of `MainApplication` as if the application had been built. The failing import at main.py:27-32 and the failing constructor call at main.py:87 are not modelled, since Python's module loading and constructor signatures are outside this model; as written neither the callback, transcription nor shutdown of `main.py` is reached.
- Threads and locks: each locked section and each GUI callback is one atomic step; interleavings are sequences of steps. The audio callback of push_to_talk.py is three steps (PttSession.AudioThreadStep). Its cap check `clear_buffer_if_needed` is one step: between its sum and its clear only a start or a stop can touch the buffer, and both empty it.
- MainApp.AudioCallback: the unlocked `is_recording` test at main.py:297 and the locked append at main.py:298-299 are one step. A stop between them would leave one block in the idle buffer until the next start (main.py:322) or a finished transcription (main.py:402-405) empties it. That window is not modelled.
- sounddevice, Whisper and torch, noisereduce, pyautogui, psutil, winsound, the keyboard library and YAML parsing are outside code. Each is a parameter that gives an answer or says whether the call raises. In push_to_talk.py a key poll is up, down or raising, and a beep is returning or raising (KeyListener.Poll, PttSession.Event). In main.py every beep handler catches its own errors, so beeps there always return. `yaml.safe_load` is represented by the document it yields (ConfigFile.Doc).
- File I/O (transcript and audio files, the log directory, the configuration file) is a listing and per-call success flags; paths and file contents are not modelled.
- Sample values are abstract integers. Float32 arithmetic, the waveform drawing and the noise-reduction algorithm are not modelled.
- Times are whole seconds. `datetime.fromtimestamp` with local-time and DST effects is taken as plain subtraction of seconds, and the `key_listener_sleep` pause is not modelled. The `datetime` range (years 1 to 9999) and the `timedelta` day limit are modelled in LogCleanup.CutoffInRange, to the second: a cutoff within one second of either end of the range, or a retention period of fractional days, is not modelled exactly.
- Log messages, `sanitize_message`, the `ContextFilter`, message boxes and notifications are left out; notifications are assumed not to raise.
- PyText.Lower, PyText.Upper: only ASCII letters change case. Python's Unicode case mapping (for example the dotless 'ı' upper-casing to 'I') is not modelled.
- LogLevels.LevelNamedCaseInsensitive: states case-insensitivity for the ASCII case mapping only, for the same reason.
- Preferences.NormalizeKey: non-ASCII key names are lower-cased as ASCII only.
- Wrappers.GetOr: an explicit `None` stored under a key is treated like a missing key, so configuration values that are present but null are not modelled.
- GuiModel.LoadModelInThread: the loader is a parameter. As written, the standalone `gui.py` (which `main.py` never reaches) imports `load_model_with_retry` from `main.py`, which raises ImportError, and would then call it with one argument where the helper takes four, so every load raises and every model change made by the preferences ends in shutdown (GuiModel.AsWrittenEveryLoadFails). The contract is stated for any loader, and GuiModel.LoadThroughHelper gives the helper called as intended.
- Preferences.SaveAfterKeys: a non-numeric sleep field raises Tk's own error before the `ValueError` handler sees it; both stop before saving, and both are modelled as one outcome.
- PttKeys.SaveKeyCombination: the dialog's file write and window handling are not modelled; only the chosen chord is.
- Preferences.SavePreferences: a raising save callback after a successful write is not modelled separately from a failed save.
- The Tk widgets, the preferences windows' layout, themes, tooltips and the progress bar are not modelled.
- The crash-report writer in `main.py` is I/O plumbing and is left out.
- `app_logging/setup.py`, `config/load_save.py`, `transcription.py` and `state/state_manager.py` are not part of this model. They are file, handler and state plumbing around the modelled logic.
- The packaged application's audio callback has no duration cap; MainApp.AudioCallback models that as written. The timeout timer is never armed under the shipped schema (MainApp.StartArmsNoTimerUnderSchema), so the packaged application has no recording-length limit at all.
- MainApp.AudioCallback: the waveform outcome stays a parameter. As written it always raises, because TranscriptionGUI has no `update_waveform` (MainApp.WaveformUpdates, MainApp.AsWrittenEveryBlockSetsError).
- ConfigFile.SaveThenLoad: `yaml.dump` followed by `yaml.safe_load` is taken to give back the document that was dumped. The YAML encoding itself is not modelled, so the lemma is idempotence of loading across a save, not a proof of the YAML round trip.
- ConfigFile.LoadConfig: the values inside a document (nested mappings, numbers, booleans) are abstract. Only the shape of the top level is modelled: mapping, list of scalars, string, or another scalar.
- `graceful_shutdown` of utils/helpers.py:9-13 exits with status 0 unconditionally. It has no member of its own; MainApp.ShutdownTraces states the application's shutdown, which ends the same way when every step succeeds.

## Findings

| source | as written | input that shows it | evidently intended | confidence | as-written member | corrected member |
|---|---|---|---|---|---|---|
| gui.py:208 | `load_model_with_retry(model_name)` passes one argument to the helper of utils/helpers.py:15, which takes four, so every call would raise TypeError; as written the import just before it (gui.py:207) already raises ImportError, because main.py does not import (main.py:27-32); the fallbacks at gui.py:226-227 fail the same way and the shutdown callback at gui.py:239 runs | any model change from the preferences of the standalone `gui.py`, for example 'base' to 'small'; no module of the repository imports that file, since `gui` resolves to the `gui/` package, so the shipped entry point never reaches this code | the helper called with all its arguments, so the first candidate Whisper loads becomes the model | high, not executed | GuiModel.AsWrittenEveryLoadFails | GuiModel.LoadThroughHelper |
| main.py:301 | `self.gui.update_waveform(...)` names a method TranscriptionGUI does not define, so it raises AttributeError on every block and the handler at main.py:306-314 sets status Error | the first audio block of any recording, once `MainApplication()` can be built; as written it cannot (main.py:27-32 raises ImportError and main.py:87 TypeError), so this line is not reached | the waveform updated and the status left as Recording | high, not executed | MainApp.AsWrittenEveryBlockSetsError | MainApp.WaveformFeedKeepsStatus |

=== FILE: audio.dfy ===
/** Captured audio as the program holds it: the input stream hands each
    callback a block of frames (`indata`, one row per frame, one column per
    channel) and the recorder keeps a list of such blocks. */
module Audio {

  /** One sample value. The float32 payload is opaque to every decision the
      program makes, so it is kept abstract as an integer. */
  type Sample = int

  /** One row of `indata`: a sample per channel. */
  type Frame = seq<Sample>

  /** One callback's `indata` block, `len(chunk)` frames long. */
  type Chunk = seq<Frame>

  /** `np.concatenate(buffer, axis=0)`: the blocks' frames, block after
      block. */
  function Concat(buffer: seq<Chunk>): seq<Frame> {
    if buffer == [] then [] else Concat(buffer[..|buffer| - 1]) + buffer[|buffer| - 1]
  }

  /** `.flatten()` of a frame matrix: frame after frame, channel after
      channel within each frame. */
  function Flatten(frames: seq<Frame>): seq<Sample> {
    if frames == [] then [] else Flatten(frames[..|frames| - 1]) + frames[|frames| - 1]
  }

  /** The one-dimensional sample array a stop hands to transcription. */
  function Snapshot(buffer: seq<Chunk>): seq<Sample> {
    Flatten(Concat(buffer))
  }

  /** `sum(len(chunk) for chunk in buffer)`. */
  function TotalFrames(buffer: seq<Chunk>): nat {
    if buffer == [] then 0 else TotalFrames(buffer[..|buffer| - 1]) + |buffer[|buffer| - 1]|
  }

  /** The frame count is the length of the concatenated frame matrix. */
  lemma {:induction false} TotalFramesIsConcatLength(buffer: seq<Chunk>)
    ensures TotalFrames(buffer) == |Concat(buffer)|
  {
    if buffer != [] {
      TotalFramesIsConcatLength(buffer[..|buffer| - 1]);
    }
  }

  /** Concatenation distributes over splitting the block list. */
  lemma {:induction false} ConcatAppend(a: seq<Chunk>, b: seq<Chunk>)
    ensures Concat(a + b) == Concat(a) + Concat(b)
    decreases |b|
  {
    if b == [] {
      assert a + b == a;
    } else {
      var b' := b[..|b| - 1];
      assert (a + b)[..|a + b| - 1] == a + b';
      ConcatAppend(a, b');
    }
  }

  /** Flattening distributes over splitting the frame list. */
  lemma {:induction false} FlattenAppend(a: seq<Frame>, b: seq<Frame>)
    ensures Flatten(a + b) == Flatten(a) + Flatten(b)
    decreases |b|
  {
    if b == [] {
      assert a + b == a;
    } else {
      var b' := b[..|b| - 1];
      assert (a + b)[..|a + b| - 1] == a + b';
      FlattenAppend(a, b');
    }
  }

  /** The snapshot of blocks `a` followed by blocks `b` is the snapshot of
      `a` followed by the snapshot of `b`: no sample is lost, duplicated or
      reordered across block boundaries. */
  lemma {:induction false} SnapshotAppend(a: seq<Chunk>, b: seq<Chunk>)
    ensures Snapshot(a + b) == Snapshot(a) + Snapshot(b)
  {
    ConcatAppend(a, b);
    FlattenAppend(Concat(a), Concat(b));
  }

  /** Frame counts add up over a split block list. */
  lemma {:induction false} TotalFramesAppend(a: seq<Chunk>, b: seq<Chunk>)
    ensures TotalFrames(a + b) == TotalFrames(a) + TotalFrames(b)
  {
    ConcatAppend(a, b);
    TotalFramesIsConcatLength(a + b);
    TotalFramesIsConcatLength(a);
    TotalFramesIsConcatLength(b);
  }
}

=== FILE: audio_devices.dfy ===
/** The input-device listings of audio/audio_devices.py and preferences.py:
    the devices `sd.query_devices()` reports that have input channels, with
    their position in the full list. */
module AudioDevices {
  import opened Wrappers

  /** One entry of `sd.query_devices()`. */
  datatype DeviceInfo = DeviceInfo(name: string, maxInputChannels: int)

  /** One returned entry: only the name and the index. */
  datatype InputDevice = InputDevice(name: string, index: nat)

  /** The input devices among `devices[from..]`, indexed by position in
      the whole list, in enumeration order. */
  function InputsFrom(devices: seq<DeviceInfo>, from: nat): (r: seq<InputDevice>)
    requires from <= |devices|
    ensures forall k :: 0 <= k < |r| ==>
              from <= r[k].index < |devices|
              && devices[r[k].index].maxInputChannels > 0
              && devices[r[k].index].name == r[k].name
    ensures forall a, b :: 0 <= a < b < |r| ==> r[a].index < r[b].index
    decreases |devices| - from
  {
    if from == |devices| then []
    else
      var rest := InputsFrom(devices, from + 1);
      if devices[from].maxInputChannels > 0 then [InputDevice(devices[from].name, from)] + rest
      else rest
  }

  /** No device with input channels is left out. */
  lemma {:induction false} InputsFromComplete(devices: seq<DeviceInfo>, from: nat, i: nat)
    requires from <= i < |devices| && devices[i].maxInputChannels > 0
    ensures exists k :: 0 <= k < |InputsFrom(devices, from)| && InputsFrom(devices, from)[k].index == i
    decreases i - from
  {
    var r := InputsFrom(devices, from);
    if i == from {
      assert r[0].index == i;
    } else {
      InputsFromComplete(devices, from + 1, i);
      var rest := InputsFrom(devices, from + 1);
      var k :| 0 <= k < |rest| && rest[k].index == i;
      if devices[from].maxInputChannels > 0 {
        assert r[k + 1] == rest[k];
      } else {
        assert r[k] == rest[k];
      }
    }
  }

  /** `get_input_devices` of audio/audio_devices.py: the query may raise
      (None), and then the error is logged and the list is empty. */
  function GetInputDevices(query: Option<seq<DeviceInfo>>): (r: seq<InputDevice>)
    ensures query.None? ==> r == []
    ensures query.Some? ==> forall k :: 0 <= k < |r| ==>
              r[k].index < |query.value| && query.value[r[k].index].maxInputChannels > 0
              && query.value[r[k].index].name == r[k].name
    ensures query.Some? ==> forall i :: 0 <= i < |query.value| && query.value[i].maxInputChannels > 0 ==>
              exists k :: 0 <= k < |r| && r[k].index == i
    ensures forall a, b :: 0 <= a < b < |r| ==> r[a].index < r[b].index
  {
    match query
    case None => []
    case Some(devices) =>
      var r := InputsFrom(devices, 0);
      assert forall i :: 0 <= i < |devices| && devices[i].maxInputChannels > 0 ==>
               exists k :: 0 <= k < |r| && r[k].index == i by {
        forall i | 0 <= i < |devices| && devices[i].maxInputChannels > 0
          ensures exists k :: 0 <= k < |r| && r[k].index == i
        {
          InputsFromComplete(devices, 0, i);
        }
      }
      r
  }

  /** `get_input_devices` of preferences.py: the same filter, but a
      failing query propagates (Err). */
  function GetInputDevicesOrRaise(query: Option<seq<DeviceInfo>>): (r: Result<seq<InputDevice>, string>)
    ensures r.Ok? <==> query.Some?
    ensures r.Ok? ==> r.value == GetInputDevices(query)
  {
    match query
    case None => Err("query_devices raised")
    case Some(devices) => Ok(InputsFrom(devices, 0))
  }

  /** The position of the first device at or after `from` carrying the
      name, or the length of the list when there is none. */
  function FirstNamed(devices: seq<InputDevice>, name: string, from: nat): (k: nat)
    requires from <= |devices|
    ensures from <= k <= |devices|
    ensures k < |devices| ==> devices[k].name == name
    ensures forall j :: from <= j < k ==> devices[j].name != name
    decreases |devices| - from
  {
    if from == |devices| || devices[from].name == name then from
    else FirstNamed(devices, name, from + 1)
  }

  /** `next(d for d in devices if d['name'] == name)`: the first listed
      device carrying the name, or None. */
  function FindByName(devices: seq<InputDevice>, name: string): (r: Option<InputDevice>)
    ensures r.Some? <==> exists k :: 0 <= k < |devices| && devices[k].name == name
    ensures r.Some? ==>
              exists k :: 0 <= k < |devices| && devices[k] == r.value && devices[k].name == name
                          && forall j :: 0 <= j < k ==> devices[j].name != name
  {
    var k := FirstNamed(devices, name, 0);
    if k < |devices| then Some(devices[k]) else None
  }

  /** The two listings agree whenever the query returns. */
  lemma ListingsAgree(devices: seq<DeviceInfo>)
    ensures GetInputDevicesOrRaise(Some(devices)) == Ok(GetInputDevices(Some(devices)))
  {
  }
}

=== FILE: audio_stream.dfy ===
/** Opening the input stream, in audio/streaming.py: the requested device
    first, then at most one retry on the default input device. Whether a
    device opens is a parameter. */
module AudioStream {
  import opened Wrappers

  /** A device as `sd.InputStream` takes it: an index, or None for the
      host's default choice. */
  type DeviceRef = Option<int>

  /** The user notifications issued through the GUI. */
  datatype Notice = DeviceWarning | StreamError

  /** The raised `AudioProcessingError`. */
  datatype StreamFailure = AudioProcessingError

  /** The device whose stream is returned or the error raised, the devices
      tried in order, and the notifications issued. */
  datatype Opened = Opened(
    result: Result<DeviceRef, StreamFailure>,
    attempts: seq<DeviceRef>,
    notices: seq<Notice>)

  /** `start_audio_stream`: open and start the requested device; on
      failure, retry once on `sd.default.device[0]` when that differs from
      the request (a requested None always differs). A successful retry
      warns through the GUI, if any; otherwise the error is reported
      through the GUI, if any, and AudioProcessingError is raised. The
      failure for a requested default device is raised inside the retry's
      `try`, so it takes the same reporting path. */
  function StartAudioStream(
    requested: DeviceRef, default: int, opens: DeviceRef -> bool, hasGui: bool): (r: Opened)
    ensures 1 <= |r.attempts| <= 2 && r.attempts[0] == requested
    ensures opens(requested) ==> r == Opened(Ok(requested), [requested], [])
    ensures |r.attempts| == 2 <==> !opens(requested) && requested != Some(default)
    ensures |r.attempts| == 2 ==> r.attempts[1] == Some(default)
    ensures r.result.Ok? <==> exists i :: 0 <= i < |r.attempts| && opens(r.attempts[i])
    ensures r.result.Ok? ==> r.result.value == r.attempts[|r.attempts| - 1]
    ensures r.result.Ok? && |r.attempts| == 2 ==> r.notices == (if hasGui then [DeviceWarning] else [])
    ensures r.result.Err? ==> r.notices == (if hasGui then [StreamError] else [])
    ensures !hasGui ==> r.notices == []
  {
    if opens(requested) then Opened(Ok(requested), [requested], [])
    else if requested != Some(default) then
      if opens(Some(default)) then
        Opened(Ok(Some(default)), [requested, Some(default)], if hasGui then [DeviceWarning] else [])
      else
        Opened(Err(AudioProcessingError), [requested, Some(default)], if hasGui then [StreamError] else [])
    else
      Opened(Err(AudioProcessingError), [requested], if hasGui then [StreamError] else [])
  }

  /** No device is tried twice, so a failing default device is never
      retried. */
  lemma NoDeviceTriedTwice(requested: DeviceRef, default: int, opens: DeviceRef -> bool, hasGui: bool)
    ensures var a := StartAudioStream(requested, default, opens, hasGui).attempts;
            forall i, j :: 0 <= i < j < |a| ==> a[i] != a[j]
  {
  }
}

=== FILE: config_file.dfy ===
/** `load_config` and `save_config` of config.py. The parsed YAML document
    is whatever `yaml.safe_load` returns for the file: None, a mapping from
    top-level keys to values the loader passes through untouched, a list,
    a string, or another scalar. */
module ConfigFile {
  import opened Wrappers

  /** The `ConfigError` causes the configuration code raises. */
  datatype ConfigError =
    | FileNotFound
    | ParseError
    | MissingField(field: string)
    | SaveFailed
    | DeviceNotFound(name: string)

  /** What escapes `load_config`: a ConfigError, the OSError of an
      `open` that fails on a file that exists (a permission error, say),
      or the TypeError of testing a key with `in` against a document that
      is not a container (None, a number, a boolean, a date). */
  datatype LoadFailure = Raised(error: ConfigError) | OSErrorRaised | TypeErrorRaised

  /** The value `yaml.safe_load` produces for the file. A list is given by
      its items, a string item as itself and any other item as None, since
      only a string can equal a key; `ScalarDoc` stands for every scalar
      that is not a string. */
  datatype Doc<V> =
    | EmptyDoc
    | MappingDoc(fields: map<string, V>)
    | ListDoc(items: seq<Option<string>>)
    | TextDoc(text: string)
    | ScalarDoc

  /** `sub` occurs in `text` starting at offset `i`. */
  predicate OccursAt(text: string, sub: string, i: int) {
    0 <= i <= |text| - |sub| && text[i..i + |sub|] == sub
  }

  /** `sub` occurs in `text` as a contiguous piece. */
  predicate Contains(text: string, sub: string) {
    exists i | 0 <= i <= |text| - |sub| :: OccursAt(text, sub, i)
  }

  /** The document supports the `in` test of the key check. */
  predicate Testable<V>(d: Doc<V>) {
    d.MappingDoc? || d.ListDoc? || d.TextDoc?
  }

  /** `field in config` for a document that supports it: a key of a
      mapping, an item of a list, a substring of a string. */
  predicate Has<V>(d: Doc<V>, field: string) {
    match d
    case MappingDoc(fields) => field in fields
    case ListDoc(items) => Some(field) in items
    case TextDoc(text) => Contains(text, field)
    case _ => false
  }

  /** The top-level keys that must be present, in the order checked. */
  const RequiredFields: seq<string> := [
    "model_support", "key_combination", "samplerate", "channels", "dtype",
    "gui_settings", "Logging", "enable_noise_reduction", "max_recording_duration",
    "LogCleanup"
  ]

  /** The first of `required[from..]` that `d` lacks, if any. */
  function FirstMissingFrom<V>(required: seq<string>, d: Doc<V>, from: nat): (r: Option<nat>)
    requires from <= |required|
    ensures r.None? ==> forall i :: from <= i < |required| ==> Has(d, required[i])
    ensures r.Some? ==> from <= r.value < |required| && !Has(d, required[r.value])
                        && forall j :: from <= j < r.value ==> Has(d, required[j])
    decreases |required| - from
  {
    if from == |required| then None
    else if !Has(d, required[from]) then Some(from)
    else FirstMissingFrom(required, d, from + 1)
  }

  /** `load_config`: a missing file and a YAML error raise ConfigError; an
      `open` that fails (`openOk` false) raises its OSError unwrapped, since
      it sits outside the `try`; a
      document that is not a container makes the first presence test
      raise TypeError; otherwise the required keys are checked in order and
      the first missing one is named. Values are not checked, extra keys
      pass through, and the document is returned as it was parsed, which
      need not be a mapping. */
  function LoadConfig<V>(fileExists: bool, openOk: bool, parsed: Option<Doc<V>>): (r: Result<Doc<V>, LoadFailure>)
    ensures !fileExists ==> r == Err(Raised(FileNotFound))
    ensures r == Err(OSErrorRaised) <==> fileExists && !openOk
    ensures fileExists && openOk && parsed.None? ==> r == Err(Raised(ParseError))
    ensures fileExists && openOk && parsed.Some? && !Testable(parsed.value) ==> r == Err(TypeErrorRaised)
    ensures r == Err(TypeErrorRaised) ==> fileExists && openOk && parsed.Some? && !Testable(parsed.value)
    ensures r.Ok? <==> fileExists && openOk && parsed.Some? && Testable(parsed.value)
                       && forall f :: f in RequiredFields ==> Has(parsed.value, f)
    ensures r.Ok? ==> r.value == parsed.value
    ensures r.Err? && r.error.Raised? && r.error.error.MissingField? ==>
              fileExists && openOk && parsed.Some? && Testable(parsed.value)
              && exists i :: 0 <= i < |RequiredFields| && RequiredFields[i] == r.error.error.field
                             && !Has(parsed.value, r.error.error.field)
                             && forall j :: 0 <= j < i ==> Has(parsed.value, RequiredFields[j])
  {
    if !fileExists then Err(Raised(FileNotFound))
    else if !openOk then Err(OSErrorRaised)
    else
      match parsed
      case None => Err(Raised(ParseError))
      case Some(d) =>
        if !Testable(d) then Err(TypeErrorRaised)
        else
          match FirstMissingFrom(RequiredFields, d, 0)
          case Some(i) => Err(Raised(MissingField(RequiredFields[i])))
          case None => Ok(d)
  }

  /** The pieces of `parts` written one after the other. */
  function Concat(parts: seq<string>): string {
    if parts == [] then [] else parts[0] + Concat(parts[1..])
  }

  /** Every piece occurs in the concatenation. */
  lemma {:induction false} ConcatContainsParts(parts: seq<string>)
    ensures forall k :: 0 <= k < |parts| ==> Contains(Concat(parts), parts[k])
    decreases |parts|
  {
    if parts != [] {
      var whole := Concat(parts);
      var rest := Concat(parts[1..]);
      assert whole == parts[0] + rest;
      ConcatContainsParts(parts[1..]);
      forall k | 0 <= k < |parts| ensures Contains(whole, parts[k]) {
        var p := parts[k];
        if k == 0 {
          assert whole[0..|p|] == p;
          ContainsAt(whole, p, 0);
        } else {
          assert parts[1..][k - 1] == p;
          assert Contains(rest, p);
          var i :| 0 <= i <= |rest| - |p| && OccursAt(rest, p, i);
          assert rest[i..i + |p|] == p;
          var n := |parts[0]|;
          assert whole == parts[0] + rest;
          assert whole[n + i..n + i + |p|] == rest[i..i + |p|];
          ContainsAt(whole, p, n + i);
        }
      }
    }
  }

  /** An occurrence at a given offset. */
  lemma ContainsAt(text: string, sub: string, i: int)
    requires OccursAt(text, sub, i)
    ensures Contains(text, sub)
  {
  }

  /** A file holding one string that spells out every required key, such
      as the keys written together, passes the check and is returned as a
      string: the presence test on a string is a substring search. */
  lemma KeyNamesTextLoads<V>()
    ensures var t: Doc<V> := TextDoc(Concat(RequiredFields));
            LoadConfig(true, true, Some(t)) == Ok(t)
  {
    ConcatContainsParts(RequiredFields);
  }

  /** `save_config`: the document written, or any failure of opening or
      dumping wrapped in ConfigError. */
  function SaveConfig<V>(config: Doc<V>, writeOk: bool): (r: Result<Doc<V>, ConfigError>)
    ensures r.Ok? <==> writeOk
    ensures r.Ok? ==> r.value == config
    ensures r.Err? ==> r.error == SaveFailed
  {
    if writeOk then Ok(config) else Err(SaveFailed)
  }

  /** Whatever loads, saved and loaded again, loads the same: loading is
      idempotent across a save, when `safe_load` gives back the document
      `safe_dump` wrote. */
  lemma SaveThenLoad<V>(fileExists: bool, openOk: bool, parsed: Option<Doc<V>>)
    requires LoadConfig(fileExists, openOk, parsed).Ok?
    ensures var loaded := LoadConfig(fileExists, openOk, parsed).value;
            && SaveConfig(loaded, true) == Ok(loaded)
            && LoadConfig(true, true, Some(SaveConfig(loaded, true).value)) == Ok(loaded)
  {
  }

  /** Dropping a required key makes loading name that key or an earlier
      missing one, never succeed. */
  lemma MissingKeyNeverLoads<V>(config: map<string, V>, i: nat)
    requires i < |RequiredFields| && RequiredFields[i] !in config
    ensures LoadConfig(true, true, Some(MappingDoc(config))).Err?
  {
  }
}

/** `ConfigSchema` of config/schema.py: the typed configuration and its
    defaults. */
module ConfigSchema {
  import opened Wrappers
  import LoggingConfig
  import LogCleanupConfig
  import GuiSettingsConfig
  import ModelSupportConfig

  datatype Schema = Schema(
    logCleanup: LogCleanupConfig.Settings,
    logging: LoggingConfig.Settings,
    audioDeviceIndex: Option<int>,
    channels: int,
    documentationFile: string,
    dtype: string,
    enableNoiseReduction: bool,
    enableSystemMonitoring: bool,
    guiSettings: GuiSettingsConfig.Settings,
    keyCombination: seq<string>,
    keyListenerSleep: real,
    maxRecordingDuration: int,
    modelSupport: ModelSupportConfig.Settings,
    recordAudio: bool,
    samplerate: int,
    saveAudio: bool,
    saveDirectory: string,
    saveTranscription: bool,
    useFp16: bool,
    noiseReductionAlgorithm: Option<string>)

  /** The defaults; `audio_device_index` defaults to the host's default
      input device as sounddevice reports it when the schema is imported. */
  function Defaults(defaultDevice: Option<int>): Schema {
    Schema(
      LogCleanupConfig.Default, LoggingConfig.Default, defaultDevice, 1, "README.md", "float32",
      true, true, GuiSettingsConfig.Default, ["ctrl", "alt", "space"], 0.1, 60,
      ModelSupportConfig.Default, true, 16000, false, "transcriptions", false, true,
      Some("noisereduce"))
  }

  /** The defaults: 16 kHz mono float32, a 60 second cap and a 0.1 second
      poll, the ctrl+alt+space combination, nothing saved, noise reduction,
      monitoring, fp16 and recording on; and every nested default section
      passes its own validator. */
  lemma DefaultsAreValid(defaultDevice: Option<int>)
    ensures var s := Defaults(defaultDevice);
            && s.samplerate == 16000 && s.channels == 1 && s.dtype == "float32"
            && s.maxRecordingDuration == 60 && s.keyListenerSleep == 0.1
            && s.keyCombination == ["ctrl", "alt", "space"]
            && !s.saveAudio && !s.saveTranscription
            && s.recordAudio && s.useFp16 && s.enableNoiseReduction && s.enableSystemMonitoring
            && s.saveDirectory == "transcriptions" && s.documentationFile == "README.md"
            && LoggingConfig.Validate(s.logging).Ok?
            && LogCleanupConfig.Validate(s.logCleanup).Ok?
            && GuiSettingsConfig.Validate(s.guiSettings).Ok?
            && ModelSupportConfig.ValidateDefaultModel(s.modelSupport.defaultModel,
                 Some(s.modelSupport.availableModels)).Ok?
  {
    LoggingConfig.DefaultsValid(LoggingConfig.Default.logDir, true, false);
    LogCleanupConfig.DefaultsValidSizeRejected(10, 7);
    GuiSettingsConfig.DefaultsValid(true);
    ModelSupportConfig.DefaultsValid("base");
  }
}

=== FILE: config_sections.dfy ===
// The nested sections of the configuration schema, in config/, each a
// pydantic model with defaults and a field validator. A validator either
// returns the value unchanged or raises ValueError; pydantic reports
// every failing field, in declaration order.

/** `LoggingConfig` of config/logging_config.py. */
module LoggingConfig {
  import opened Wrappers

  datatype Settings = Settings(
    consoleLogLevel: string,
    enableDynamicLogLevel: bool,
    logDir: string,
    logFormat: string,
    logLevel: string,
    logToConsole: bool)

  const Default := Settings("INFO", true, "logs/push_to_talk_logs", "json", "DEBUG", false)

  /** The level names the validator accepts, upper case only. */
  const ValidLevels: seq<string> := ["DEBUG", "INFO", "WARNING", "ERROR", "CRITICAL"]

  /** `validate_log_format`: exactly 'json' or 'plain'. */
  function ValidateLogFormat(v: string): (r: Result<string, string>)
    ensures r.Ok? <==> v == "json" || v == "plain"
    ensures r.Ok? ==> r.value == v
  {
    if v == "json" || v == "plain" then Ok(v) else Err("log_format")
  }

  /** `validate_log_levels`, for `console_log_level` and `log_level`. */
  function ValidateLogLevel(v: string): (r: Result<string, string>)
    ensures r.Ok? <==> exists i :: 0 <= i < |ValidLevels| && ValidLevels[i] == v
    ensures r.Ok? ==> r.value == v
  {
    if v in ValidLevels then Ok(v) else Err("log_level")
  }

  /** The whole section: accepted unchanged when every validated field
      passes; otherwise the failing fields, in declaration order.
      `log_dir` and `enable_dynamic_log_level` are not checked. */
  function Validate(c: Settings): (r: Result<Settings, seq<string>>)
    ensures r.Ok? <==> ValidateLogLevel(c.consoleLogLevel).Ok?
                        && ValidateLogFormat(c.logFormat).Ok? && ValidateLogLevel(c.logLevel).Ok?
    ensures r.Ok? ==> r.value == c
    ensures r.Err? ==> (r.error ==
              (if ValidateLogLevel(c.consoleLogLevel).Err? then ["console_log_level"] else [])
              + (if ValidateLogFormat(c.logFormat).Err? then ["log_format"] else [])
              + (if ValidateLogLevel(c.logLevel).Err? then ["log_level"] else []))
  {
    var failed := (if ValidateLogLevel(c.consoleLogLevel).Err? then ["console_log_level"] else [])
                  + (if ValidateLogFormat(c.logFormat).Err? then ["log_format"] else [])
                  + (if ValidateLogLevel(c.logLevel).Err? then ["log_level"] else []);
    if failed == [] then Ok(c) else Err(failed)
  }

  /** The defaults pass their own validators, and the unchecked fields
      never make a section fail. */
  lemma DefaultsValid(logDir: string, dynamic: bool, toConsole: bool)
    ensures Validate(Default) == Ok(Default)
    ensures var c := Default.(logDir := logDir, enableDynamicLogLevel := dynamic, logToConsole := toConsole);
            Validate(c) == Ok(c)
  {
  }

  /** For every section, the unchecked fields never change the verdict:
      whatever `log_dir`, `enable_dynamic_log_level` and `log_to_console`
      hold, the same fields fail, and a valid section stays valid. */
  lemma UncheckedFieldsIgnored(c: Settings, logDir: string, dynamic: bool, toConsole: bool)
    ensures var d := c.(logDir := logDir, enableDynamicLogLevel := dynamic, logToConsole := toConsole);
            && (Validate(d).Ok? <==> Validate(c).Ok?)
            && (Validate(c).Err? ==> Validate(d) == Validate(c))
  {
  }

  /** Level names are compared case-sensitively. */
  lemma LevelsAreCaseSensitive()
    ensures ValidateLogLevel("info").Err? && ValidateLogLevel("INFO").Ok?
    ensures ValidateLogFormat("JSON").Err?
  {
    assert "info" != "DEBUG" && "info" != "INFO" && "info" != "WARNING" && "info" != "ERROR" && "info" != "CRITICAL" by {
      assert "info"[0] != "DEBUG"[0] && "info"[0] != "INFO"[0] && "info"[0] != "WARNING"[0];
      assert "info"[0] != "ERROR"[0] && "info"[0] != "CRITICAL"[0];
    }
  }
}

/** `LogCleanupConfig` of config/log_cleanup_config.py. */
module LogCleanupConfig {
  import opened Wrappers

  datatype Settings = Settings(
    cleanupEnabled: bool,
    maxLogFiles: int,
    retentionDays: int,
    retentionStrategy: string)

  const Default := Settings(true, 10, 7, "time")

  /** `validate_retention_strategy`: exactly 'time' or 'count'. */
  function ValidateRetentionStrategy(v: string): (r: Result<string, string>)
    ensures r.Ok? <==> v == "time" || v == "count"
    ensures r.Ok? ==> r.value == v
  {
    if v == "time" || v == "count" then Ok(v) else Err("retention_strategy")
  }

  /** The whole section; the counts have no range check. */
  function Validate(c: Settings): (r: Result<Settings, seq<string>>)
    ensures r.Ok? <==> ValidateRetentionStrategy(c.retentionStrategy).Ok?
    ensures r.Ok? ==> r.value == c
    ensures r.Err? ==> r.error == ["retention_strategy"]
  {
    if ValidateRetentionStrategy(c.retentionStrategy).Ok? then Ok(c) else Err(["retention_strategy"])
  }

  /** For every section, the verdict depends on the strategy alone:
      `cleanup_enabled` and both counts, whatever their values, never
      change it. */
  lemma UncheckedFieldsIgnored(c: Settings, enabled: bool, maxLogFiles: int, retentionDays: int)
    ensures var d := c.(cleanupEnabled := enabled, maxLogFiles := maxLogFiles, retentionDays := retentionDays);
            && (Validate(d).Ok? <==> Validate(c).Ok?)
            && (Validate(c).Err? ==> Validate(d) == Validate(c))
  {
  }

  /** The defaults pass; any counts pass, negative ones included; the
      'size' strategy that push_to_talk.py dispatches on is rejected. */
  lemma DefaultsValidSizeRejected(maxLogFiles: int, retentionDays: int)
    ensures Validate(Default) == Ok(Default)
    ensures Validate(Default.(maxLogFiles := maxLogFiles, retentionDays := retentionDays)).Ok?
    ensures Validate(Default.(retentionStrategy := "size")).Err?
  {
    assert "size"[0] != "time"[0] && "size"[0] != "count"[0];
  }
}

/** `GUISettingsConfig` of config/gui_settings_config.py. */
module GuiSettingsConfig {
  import opened Wrappers

  datatype Settings = Settings(alwaysOnTop: bool, theme: string)

  const Default := Settings(true, "Default")

  /** `validate_theme`: one of 'Default', 'Dark', 'Light', exactly. */
  function ValidateTheme(v: string): (r: Result<string, string>)
    ensures r.Ok? <==> v == "Default" || v == "Dark" || v == "Light"
    ensures r.Ok? ==> r.value == v
  {
    if v == "Default" || v == "Dark" || v == "Light" then Ok(v) else Err("theme")
  }

  /** The whole section; `always_on_top` is not checked. */
  function Validate(c: Settings): (r: Result<Settings, seq<string>>)
    ensures r.Ok? <==> ValidateTheme(c.theme).Ok?
    ensures r.Ok? ==> r.value == c
  {
    if ValidateTheme(c.theme).Ok? then Ok(c) else Err(["theme"])
  }

  /** For every section, `always_on_top` never changes the verdict. */
  lemma UncheckedFieldsIgnored(c: Settings, onTop: bool)
    ensures Validate(c.(alwaysOnTop := onTop)).Ok? <==> Validate(c).Ok?
    ensures Validate(c).Err? ==> Validate(c.(alwaysOnTop := onTop)) == Validate(c)
  {
  }

  /** The defaults pass, whatever `always_on_top` is; themes are
      case-sensitive. */
  lemma DefaultsValid(onTop: bool)
    ensures Validate(Default.(alwaysOnTop := onTop)).Ok?
    ensures ValidateTheme("dark").Err?
  {
    assert "dark"[0] != "Dark"[0] && "dark"[0] != "Default"[0] && "dark"[0] != "Light"[0];
  }
}

/** `ModelSupportConfig` of config/model_support_config.py. */
module ModelSupportConfig {
  import opened Wrappers

  datatype Settings = Settings(availableModels: seq<string>, defaultModel: string)

  const DefaultModels: seq<string> := ["tiny", "base", "small", "medium", "large"]

  const Default := Settings(DefaultModels, "base")

  /** `validate_default_model`: `available` is the already validated
      `available_models`, absent when that field failed; the membership
      check is made only when it is present. */
  function ValidateDefaultModel(v: string, available: Option<seq<string>>): (r: Result<string, string>)
    ensures r.Ok? <==> available.None? || exists i :: 0 <= i < |available.value| && available.value[i] == v
    ensures r.Ok? ==> r.value == v
  {
    match available
    case None => Ok(v)
    case Some(models) => if v in models then Ok(v) else Err("default_model")
  }

  /** The check depends only on which names the validated list holds,
      not on their order or repetition. */
  lemma OnlyListedNamesMatter(v: string, a: seq<string>, b: seq<string>)
    requires forall n :: n in a <==> n in b
    ensures ValidateDefaultModel(v, Some(a)) == ValidateDefaultModel(v, Some(b))
  {
  }

  /** The default model is among the default models; an empty list
      rejects every model. */
  lemma DefaultsValid(v: string)
    ensures ValidateDefaultModel(Default.defaultModel, Some(Default.availableModels)) == Ok("base")
    ensures ValidateDefaultModel(v, Some([])).Err?
  {
    assert DefaultModels[1] == "base";
  }
}

=== FILE: gui_model.dfy ===
/** Model selection in the Tk GUI of gui.py: the background load with its
    fallback list, and the reload rule applied after preferences are
    saved. The loader is a parameter saying which names load. */
module GuiModel {
  import opened Wrappers
  import opened WhisperModel
  import Helpers

  /** The fallback list, smallest-risk first. */
  const Fallbacks: seq<string> := ["base", "small", "tiny"]

  /** The fallback list with the requested name removed if present. */
  function FallbackModels(requested: string): (r: seq<string>)
    ensures forall n :: n in r <==> n in Fallbacks && n != requested
    ensures RankOrdered(r)
  {
    assert RankOrdered(Fallbacks);
    Without(Fallbacks, requested)
  }

  /** Position in the fallback list. */
  function FallbackRank(n: string): nat {
    if n == "base" then 0 else if n == "small" then 1 else 2
  }

  /** The fallback names are listed in strictly increasing rank. */
  predicate RankOrdered(xs: seq<string>) {
    forall i, j :: 0 <= i < j < |xs| ==> FallbackRank(xs[i]) < FallbackRank(xs[j])
  }

  /** `xs` with every occurrence of `x` removed, order kept. */
  function Without(xs: seq<string>, x: string): (r: seq<string>)
    ensures forall n :: n in r <==> n in xs && n != x
    ensures |r| <= |xs|
    ensures RankOrdered(xs) ==> RankOrdered(r)
  {
    if xs == [] then []
    else if xs[0] == x then Without(xs[1..], x)
    else
      var rest := Without(xs[1..], x);
      assert forall k :: 0 <= k < |rest| ==> rest[k] in xs[1..];
      assert RankOrdered(xs) ==> forall n :: n in xs[1..] ==> FallbackRank(xs[0]) < FallbackRank(n);
      [xs[0]] + rest
  }

  /** The names tried, in order, and the model of the first that loaded. */
  datatype Search = Search(found: Option<Model>, attempts: seq<string>)

  /** Tries `names` in order and stops at the first that loads. */
  function FirstLoadable(names: seq<string>, load: string -> Option<Model>): (r: Search)
    ensures |r.attempts| <= |names| && r.attempts == names[..|r.attempts|]
    ensures forall i :: 0 <= i < |r.attempts| - 1 ==> load(r.attempts[i]).None?
    ensures r.found.Some? ==> |r.attempts| > 0 && r.found == load(r.attempts[|r.attempts| - 1])
    ensures r.found.None? ==> r.attempts == names && forall i :: 0 <= i < |names| ==> load(names[i]).None?
    decreases |names|
  {
    if names == [] then Search(None, [])
    else if load(names[0]).Some? then Search(load(names[0]), [names[0]])
    else
      var rest := FirstLoadable(names[1..], load);
      Search(rest.found, [names[0]] + rest.attempts)
  }

  /** The GUI's model after a background load, the names tried, and
      whether the shutdown callback was called. */
  datatype LoadRun = LoadRun(model: Option<Model>, attempts: seq<string>, shutdown: bool)

  /** `load_model_in_thread`: the requested name first; on failure the
      fallbacks in order; the first model that loads becomes the GUI's
      model; if none loads, the model is left as it was and shutdown is
      requested. */
  function LoadModelInThread(current: Option<Model>, name: string, load: string -> Option<Model>): (r: LoadRun)
    ensures 1 <= |r.attempts| <= 1 + |FallbackModels(name)| && r.attempts[0] == name
    ensures load(name).Some? ==> r == LoadRun(load(name), [name], false)
    ensures r.attempts == ([name] + FallbackModels(name))[..|r.attempts|]
    ensures forall i :: 0 <= i < |r.attempts| - 1 ==> load(r.attempts[i]).None?
    ensures !r.shutdown ==> r.model == load(r.attempts[|r.attempts| - 1]) && r.model.Some?
    ensures r.shutdown <==> forall n :: n in [name] + FallbackModels(name) ==> load(n).None?
    ensures r.shutdown ==> r.model == current && r.attempts == [name] + FallbackModels(name)
  {
    var names := [name] + FallbackModels(name);
    var s := FirstLoadable(names, load);
    if s.found.Some? then LoadRun(s.found, s.attempts, false)
    else LoadRun(current, s.attempts, true)
  }

  /** The loader as gui.py:207-208 and gui.py:226-227 reach it. The
      `from main import load_model_with_retry` raises ImportError, since
      main.py itself does not import (main.py:27-32); and were it to
      import, `load_model_with_retry(name)` passes one argument to the
      helper of utils/helpers.py:15, which takes four, and raises
      TypeError. Either way every call raises before anything is loaded. */
  function OneArgumentLoad(name: string): Option<Model> {
    None
  }

  /** As written, a background load never succeeds: every name is tried,
      the model stays as it was and shutdown is requested, so each model
      change made by the preferences ends the application. */
  lemma AsWrittenEveryLoadFails(current: Option<Model>, name: string)
    ensures var r := LoadModelInThread(current, name, OneArgumentLoad);
            && r.shutdown && r.model == current
            && r.attempts == [name] + FallbackModels(name)
  {
  }

  /** The loader the calls evidently intend: the helper called with all of
      its arguments, its model used when it returns one and any exception
      counted as a failed attempt. */
  function ViaHelper(load: string -> Helpers.LoadAttempt): string -> Option<Model> {
    n => var r := Helpers.LoadModelWithRetry(n, load).result; if r.Ok? then Some(r.value) else None
  }

  /** Through the helper, a name loads exactly when `whisper.load_model`
      returns a truthy model for it: the GUI shuts down only when no
      candidate does, and otherwise takes the model of the first that
      does, the requested name first. */
  lemma LoadThroughHelper(current: Option<Model>, name: string, load: string -> Helpers.LoadAttempt)
    ensures var r := LoadModelInThread(current, name, ViaHelper(load));
            && (r.shutdown <==> forall n :: n in [name] + FallbackModels(name) ==> !Helpers.Truthy(load(n)))
            && (!r.shutdown ==> Helpers.Truthy(load(r.attempts[|r.attempts| - 1]))
                                && r.model == load(r.attempts[|r.attempts| - 1]).model)
            && (Helpers.Truthy(load(name)) ==> r == LoadRun(load(name).model, [name], false))
  {
    forall n ensures ViaHelper(load)(n).Some? <==> Helpers.Truthy(load(n)) {
    }
    forall n | Helpers.Truthy(load(n)) ensures ViaHelper(load)(n) == load(n).model {
    }
  }

  /** No name is tried twice: the requested name is never retried as a
      fallback. */
  lemma NoNameTriedTwice(current: Option<Model>, name: string, load: string -> Option<Model>)
    ensures var a := LoadModelInThread(current, name, load).attempts;
            forall i, j :: 0 <= i < j < |a| ==> a[i] != a[j]
  {
    var names := [name] + FallbackModels(name);
    var fb := FallbackModels(name);
    forall i, j | 0 <= i < j < |names| ensures names[i] != names[j] {
      if i == 0 {
        assert names[j] == fb[j - 1];
        assert fb[j - 1] in fb;
      } else {
        assert names[i] == fb[i - 1] && names[j] == fb[j - 1];
        assert RankOrdered(fb);
      }
    }
  }

  /** The model name the GUI tracks, and the model to load in the
      background if any. */
  datatype Apply = Apply(currentName: string, reload: Option<string>)

  /** The model part of `apply_preferences`: when reloading the
      configuration raises nothing else happens; otherwise the configured
      `default_model` ('base' when absent) is loaded only when it differs
      from the current name, which is updated first. */
  function ApplyModelPreference(currentName: string, reloadOk: bool, configured: Option<string>): (r: Apply)
    ensures !reloadOk ==> r == Apply(currentName, None)
    ensures reloadOk ==> r.currentName == configured.GetOr("base")
    ensures reloadOk ==> (r.reload.Some? <==> configured.GetOr("base") != currentName)
    ensures r.reload.Some? ==> r.reload.value == r.currentName
  {
    if !reloadOk then Apply(currentName, None)
    else
      var wanted := configured.GetOr("base");
      if wanted != currentName then Apply(wanted, Some(wanted)) else Apply(currentName, None)
  }

  /** Applying the same preferences twice loads at most once: the second
      application finds the name already current. */
  lemma ApplyTwiceReloadsOnce(currentName: string, configured: Option<string>)
    ensures var first := ApplyModelPreference(currentName, true, configured);
            ApplyModelPreference(first.currentName, true, configured) == Apply(first.currentName, None)
  {
  }
}

=== FILE: gui_timeout.dfy ===
/** The recording timeout of the Tk GUI in gui.py: the pending timer id,
    the window's `after` queue, and the part of the GUI the timeout
    callback looks at. */
module GuiTimeout {
  import opened Wrappers
  import opened AppStatus
  import opened TkTimer

  /** `is_recording`, the status label, `timeout_timer` and the `after`
      queue; `stopRequests` counts the calls made to
      `stop_recording_callback`, whose own effect belongs to its owner. */
  datatype TimeoutGui = TimeoutGui(
    recording: bool,
    status: Status,
    timer: Option<nat>,
    queue: Queue,
    stopRequests: nat)

  /** The GUI as constructed: not recording, no timer pending. */
  const Initial := TimeoutGui(false, Idle, None, Empty, 0)

  /** The timeout armed: `max_recording_duration` from the configuration
      mapping, 60 seconds when the key is absent, in milliseconds. */
  function TimeoutDelay(maxDuration: Option<int>): (ms: int)
    ensures maxDuration.None? ==> ms == 60000
    ensures maxDuration.Some? ==> ms == maxDuration.value * 1000
  {
    maxDuration.GetOr(60) * 1000
  }

  /** `start_timeout_timer`: schedules the timeout callback under a fresh
      id and remembers that id. A timer already pending is not cancelled:
      its id is forgotten while its callback stays scheduled. */
  function StartTimeoutTimer(g: TimeoutGui, maxDuration: Option<int>): (r: TimeoutGui)
    ensures r.timer == Some(g.queue.nextId)
    ensures g.queue.nextId in r.queue.scheduled && r.queue.scheduled[g.queue.nextId] == TimeoutDelay(maxDuration)
    ensures forall id :: id in g.queue.scheduled ==> id in r.queue.scheduled
    ensures r.recording == g.recording && r.status == g.status && r.stopRequests == g.stopRequests
  {
    g.(timer := Some(g.queue.nextId), queue := After(g.queue, TimeoutDelay(maxDuration)))
  }

  /** `stop_timeout_timer`: cancels the pending timer, if any, and forgets
      it; with none pending it changes nothing. */
  function StopTimeoutTimer(g: TimeoutGui): (r: TimeoutGui)
    ensures r.timer == None
    ensures g.timer.None? ==> r == g
    ensures g.timer.Some? ==> g.timer.value !in r.queue.scheduled
    ensures forall id :: (g.timer.None? || id != g.timer.value) ==>
              (id in r.queue.scheduled <==> id in g.queue.scheduled)
    ensures r.recording == g.recording && r.status == g.status && r.stopRequests == g.stopRequests
  {
    match g.timer
    case None => g
    case Some(id) => g.(timer := None, queue := Cancel(g.queue, id))
  }

  /** `stop_recording_timeout`: does nothing unless recording; otherwise the
      status becomes Idle, the stop callback is called once and the timer is
      stopped. */
  function StopRecordingTimeout(g: TimeoutGui): (r: TimeoutGui)
    ensures !g.recording ==> r == g
    ensures g.recording ==> r.status == Idle && r.stopRequests == g.stopRequests + 1 && r.timer == None
  {
    if !g.recording then g
    else StopTimeoutTimer(g.(status := Idle, stopRequests := g.stopRequests + 1))
  }

  /** The pending timer's delay expires: Tk drops the callback from the
      queue and runs `stop_recording_timeout`. */
  function TimeoutFires(g: TimeoutGui, id: nat): (r: TimeoutGui)
    ensures id !in r.queue.scheduled
  {
    StopRecordingTimeout(g.(queue := Cancel(g.queue, id)))
  }

  /** Stopping twice is stopping once. */
  lemma StopTimeoutIdempotent(g: TimeoutGui)
    ensures StopTimeoutTimer(StopTimeoutTimer(g)) == StopTimeoutTimer(g)
  {
  }

  /** Arming a timer and stopping it again leaves the `after` queue as it
      was, when no timer was pending and the queue hands out fresh ids. */
  lemma StartThenStopRestoresQueue(g: TimeoutGui, maxDuration: Option<int>)
    requires g.timer.None? && Fresh(g.queue)
    ensures var r := StopTimeoutTimer(StartTimeoutTimer(g, maxDuration));
            r.timer.None? && r.queue.scheduled == g.queue.scheduled
  {
    CancelUndoesAfter(g.queue, TimeoutDelay(maxDuration));
  }

  /** Arming twice without stopping in between orphans the first timer:
      stopping afterwards cancels only the second one, so the first
      callback still fires later. */
  lemma RestartOrphansFirstTimer(g: TimeoutGui, d1: Option<int>, d2: Option<int>)
    requires Fresh(g.queue)
    ensures var r := StopTimeoutTimer(StartTimeoutTimer(StartTimeoutTimer(g, d1), d2));
            g.queue.nextId in r.queue.scheduled && r.timer.None?
  {
  }

  /** A timeout that fires while recording stops the recording exactly once
      and leaves nothing of it scheduled; one that fires after the
      recording ended only leaves the queue. */
  lemma TimeoutFiresOnce(g: TimeoutGui)
    requires g.timer.Some?
    ensures var r := TimeoutFires(g, g.timer.value);
            && g.timer.value !in r.queue.scheduled
            && (g.recording ==> r.stopRequests == g.stopRequests + 1 && r.timer.None? && r.status == Idle)
            && (!g.recording ==> r.stopRequests == g.stopRequests && r.timer == g.timer)
  {
  }
}

=== FILE: helpers.dfy ===
/** `load_model_with_retry` of utils/helpers.py: despite its name, one call
    of `whisper.load_model` and a check that the result is truthy. */
module Helpers {
  import opened Wrappers
  import opened WhisperModel

  /** What one `whisper.load_model(name)` call does: it raises, or it
      returns a value that may be falsy (None). */
  datatype LoadAttempt = Raises | Returns(model: Option<Model>)

  /** The exception the helper propagates: the loader's own, re-raised
      unchanged, or the ValueError for a falsy model. */
  datatype LoadError = LoaderRaised | FalsyModel

  /** The result, and the names passed to the loader, in call order. */
  datatype Loaded = Loaded(result: Result<Model, LoadError>, attempts: seq<string>)

  /** The loader returned a model that is not falsy. */
  predicate Truthy(a: LoadAttempt) {
    a.Returns? && a.model.Some?
  }

  /** One attempt; a falsy model raises ValueError; every failure is
      logged and re-raised; success returns the loader's value as is. */
  function LoadModelWithRetry(name: string, load: string -> LoadAttempt): (r: Loaded)
    ensures r.attempts == [name]
    ensures r.result.Ok? <==> Truthy(load(name))
    ensures r.result.Ok? ==> Some(r.result.value) == load(name).model
    ensures load(name).Raises? ==> r.result == Err(LoaderRaised)
    ensures load(name) == Returns(None) ==> r.result == Err(FalsyModel)
  {
    match load(name)
    case Raises => Loaded(Err(LoaderRaised), [name])
    case Returns(m) =>
      match m
      case None => Loaded(Err(FalsyModel), [name])
      case Some(model) => Loaded(Ok(model), [name])
  }
}

=== FILE: key_listener.dfy ===
/** The key listener loop of push_to_talk.py. Each poll evaluates
    `all(keyboard.is_pressed(k) for k in keys)`; the loop is reduced to a
    finite trace of those poll answers, in the order the loop makes them.
    main.py's loop has the same shape but schedules the start or stop on
    the Tk loop, whose beeps catch their own errors, so there every press
    has a beep that returns. */
module KeyListener {
  import PttSession

  /** One poll: not every key is down, every key is down (with whether
      the beep of a toggle made at this poll returns), or `is_pressed`
      raised. */
  datatype Poll = Up | Down(beepOk: bool) | Raises

  /** Whether every key is down, for each poll. */
  function Downs(polls: seq<Poll>): (r: seq<bool>)
    ensures |r| == |polls| && forall i :: 0 <= i < |polls| ==> r[i] == polls[i].Down?
  {
    seq(|polls|, i requires 0 <= i < |polls| => polls[i].Down?)
  }

  /** Poll `i` opens a maximal run of "all keys down" answers. */
  predicate RunStart(polls: seq<bool>, i: int) {
    0 <= i < |polls| && polls[i] && (i == 0 || !polls[i - 1])
  }

  /** The first position at or after `i` whose answer is `false`, or the end
      of the trace. */
  function SkipRun(polls: seq<bool>, i: nat): (j: nat)
    requires i <= |polls|
    ensures i <= j <= |polls|
    ensures forall k :: i <= k < j ==> polls[k]
    ensures j == |polls| || !polls[j]
    decreases |polls| - i
  {
    if i == |polls| || !polls[i] then i else SkipRun(polls, i + 1)
  }

  /** The number of maximal runs of `true` in the trace, counted run by run:
      skip a `false` answer, or count one whole run of `true` answers. */
  function CountRuns(polls: seq<bool>): nat
    decreases |polls|
  {
    if polls == [] then 0
    else if !polls[0] then CountRuns(polls[1..])
    else 1 + CountRuns(polls[SkipRun(polls, 0)..])
  }

  /** The positions at or after `from` at which runs start, in increasing
      order. */
  function RunStarts(polls: seq<bool>, from: nat): (r: seq<nat>)
    requires from <= |polls|
    ensures forall k :: 0 <= k < |r| ==> RunStart(polls, r[k]) && from <= r[k]
    ensures forall a, b :: 0 <= a < b < |r| ==> r[a] < r[b]
    decreases |polls| - from
  {
    if from == |polls| then []
    else if RunStart(polls, from) then [from] + RunStarts(polls, from + 1)
    else RunStarts(polls, from + 1)
  }

  /** Every run start at or after `from` is listed. */
  lemma {:induction false} RunStartsComplete(polls: seq<bool>, from: nat, i: nat)
    requires from <= i && RunStart(polls, i)
    ensures i in RunStarts(polls, from)
    decreases i - from
  {
    if from < i {
      RunStartsComplete(polls, from + 1, i);
    }
  }

  /** Poll `i` is read by the outer loop rather than by the
      wait-for-release loop: the first poll is; after a poll that is not
      "all down" (the inner loop's exit, a plain miss or a raise, all of
      which return to the outer loop) the next one is; after a press the
      outer loop read, whose beep raised, the handler skips the wait, so
      the next one is too. */
  predicate OuterRead(polls: seq<Poll>, i: nat)
    requires i <= |polls|
    decreases i
  {
    i == 0 || !polls[i - 1].Down? || (polls[i - 1] == Down(false) && OuterRead(polls, i - 1))
  }

  /** What poll `i` makes the listener do: a raise goes to the handler
      wherever it happens; "all down" read by the outer loop is a press;
      anything else does nothing. */
  function EventAt(polls: seq<Poll>, i: nat): seq<PttSession.Event>
    requires i < |polls|
  {
    if polls[i] == Raises then [PttSession.ListenerFault]
    else if polls[i].Down? && OuterRead(polls, i) then [PttSession.KeyToggle(polls[i].beepOk)]
    else []
  }

  /** The events of the polls at and after `from`, in order. */
  function ListenerEvents(polls: seq<Poll>, from: nat): seq<PttSession.Event>
    requires from <= |polls|
    decreases |polls| - from
  {
    if from == |polls| then [] else EventAt(polls, from) + ListenerEvents(polls, from + 1)
  }

  /** The outer loop reads one answer; on "all down" it toggles, and when
      the toggle returned the inner loop keeps reading until an answer is
      not "all down" (that answer is consumed by the inner loop's test and
      raises there if it raises); then the outer loop reads again. A raise
      anywhere, the toggle's beep included, lands in the handler, which
      skips the wait and the sleep. The result is the events the session
      sees, in order. */
  method Listen(polls: seq<Poll>) returns (events: seq<PttSession.Event>)
    ensures events == ListenerEvents(polls, 0)
  {
    events := [];
    var i := 0;
    while i < |polls|
      invariant 0 <= i <= |polls|
      invariant i < |polls| ==> OuterRead(polls, i)
      invariant events + ListenerEvents(polls, i) == ListenerEvents(polls, 0)
    {
      ConsumePoll(polls, events, i);
      NextReader(polls, i);
      events := events + EventAt(polls, i);
      i := i + 1;
      if polls[i - 1] == Down(true) {
        while i < |polls| && polls[i].Down?
          invariant 0 < i <= |polls|
          invariant !OuterRead(polls, i)
          invariant events + ListenerEvents(polls, i) == ListenerEvents(polls, 0)
        {
          ConsumePoll(polls, events, i);
          NextReader(polls, i);
          assert events + EventAt(polls, i) == events;
          i := i + 1;
        }
        if i < |polls| {
          ConsumePoll(polls, events, i);
          NextReader(polls, i);
          events := events + EventAt(polls, i);
          i := i + 1;
        }
      }
    }
  }

  /** Reading poll `i` adds its events and moves on. */
  lemma ConsumePoll(polls: seq<Poll>, events: seq<PttSession.Event>, i: nat)
    requires i < |polls|
    requires events + ListenerEvents(polls, i) == ListenerEvents(polls, 0)
    ensures (events + EventAt(polls, i)) + ListenerEvents(polls, i + 1) == ListenerEvents(polls, 0)
  {
    var e, rest := EventAt(polls, i), ListenerEvents(polls, i + 1);
    assert ListenerEvents(polls, i) == e + rest;
    assert events + (e + rest) == (events + e) + rest;
  }

  /** Which loop reads the next poll: a held chord read by the wait loop
      adds nothing and keeps the wait loop reading; a poll that is not "all
      down" hands the next one to the outer loop; so does a press whose
      beep raised; a press that went through starts the wait loop. */
  lemma NextReader(polls: seq<Poll>, i: nat)
    requires i < |polls|
    ensures !OuterRead(polls, i) && polls[i].Down? ==> EventAt(polls, i) == [] && !OuterRead(polls, i + 1)
    ensures !polls[i].Down? ==> OuterRead(polls, i + 1)
    ensures OuterRead(polls, i) && polls[i] == Down(false) ==> OuterRead(polls, i + 1)
    ensures polls[i] == Down(true) ==> !OuterRead(polls, i + 1)
  {
  }

  /** Neither a poll nor a beep raises anywhere in the trace. */
  predicate NoFaults(polls: seq<Poll>) {
    forall k :: 0 <= k < |polls| ==> polls[k] != Raises && polls[k] != Down(false)
  }

  /** With nothing raising, the listener makes one press per maximal run of
      "all down", and every press goes through. */
  lemma NoFaultsTogglesOncePerRun(polls: seq<Poll>)
    requires NoFaults(polls)
    ensures |ListenerEvents(polls, 0)| == CountRuns(Downs(polls))
    ensures forall k :: 0 <= k < |ListenerEvents(polls, 0)| ==>
              ListenerEvents(polls, 0)[k] == PttSession.KeyToggle(true)
  {
    NoFaultsToggleAtRunStarts(polls, 0);
    RunStartsCountRuns(Downs(polls));
  }

  /** With no raising poll and no raising beep, the listener presses
      exactly at the starts of the maximal runs of "all down", once per
      run, and every press toggles. */
  lemma {:induction false} NoFaultsToggleAtRunStarts(polls: seq<Poll>, from: nat)
    requires from <= |polls|
    requires NoFaults(polls)
    ensures |ListenerEvents(polls, from)| == |RunStarts(Downs(polls), from)|
    ensures forall k :: 0 <= k < |ListenerEvents(polls, from)| ==>
              ListenerEvents(polls, from)[k] == PttSession.KeyToggle(true)
    decreases |polls| - from
  {
    if from < |polls| {
      NoFaultsToggleAtRunStarts(polls, from + 1);
      var d := Downs(polls);
      assert OuterRead(polls, from) <==> from == 0 || !d[from - 1];
      assert |EventAt(polls, from)| == 1 <==> RunStart(d, from);
    }
  }

  /** As written, a raising `is_pressed` while the chord is held makes one
      press toggle twice: the handler returns to the outer loop, which
      reads the still-held chord as a new press. */
  lemma RaiseWhileHeldTogglesAgain()
    ensures ListenerEvents([Down(true), Raises, Down(true)], 0)
            == [PttSession.KeyToggle(true), PttSession.ListenerFault, PttSession.KeyToggle(true)]
  {
    var p := [Down(true), Raises, Down(true)];
    assert OuterRead(p, 2);
    assert ListenerEvents(p, 3) == [];
  }

  /** As written, a press whose beep keeps raising is retried on every
      poll while the chord is held, each attempt setting status Error. */
  lemma {:induction false} RaisingBeepRetriesWhileHeld(polls: seq<Poll>, i: nat, j: nat)
    requires i <= j < |polls| && OuterRead(polls, i)
    requires forall k :: i <= k <= j ==> polls[k] == Down(false)
    ensures OuterRead(polls, j) && EventAt(polls, j) == [PttSession.KeyToggle(false)]
    decreases j - i
  {
    if i < j {
      RaisingBeepRetriesWhileHeld(polls, i + 1, j);
    }
  }

  /** One toggle per maximal run: the run starts counted position by position
      are as many as the runs counted run by run. */
  lemma {:induction false} RunStartsCountRuns(polls: seq<bool>)
    ensures |RunStarts(polls, 0)| == CountRuns(polls)
    decreases |polls|
  {
    if polls != [] {
      if !polls[0] {
        ShiftFrom(polls, 1, 0);
        RunStartsCountRuns(polls[1..]);
      } else {
        var j := SkipRun(polls, 0);
        NoRunStartInside(polls, 1, j);
        if j < |polls| {
          ShiftFrom(polls, j, 0);
          RunStartsCountRuns(polls[j..]);
          assert |RunStarts(polls, 0)| == 1 + |RunStarts(polls, j)|;
        } else {
          assert polls[j..] == [];
        }
      }
    }
  }

  /** Inside a run there is no run start. */
  lemma {:induction false} NoRunStartInside(polls: seq<bool>, i: nat, j: nat)
    requires 0 < i <= j <= |polls|
    requires forall k :: 0 <= k < j ==> polls[k]
    ensures RunStarts(polls, i) == RunStarts(polls, j)
    decreases j - i
  {
    if i < j {
      assert !RunStart(polls, i);
      NoRunStartInside(polls, i + 1, j);
    }
  }

  /** Counting from a position whose answer, or whose predecessor's, is
      `false` gives as many run starts as counting that suffix on its own. */
  lemma {:induction false} ShiftFrom(polls: seq<bool>, j: nat, m: nat)
    requires 0 < j <= |polls| && m <= |polls| - j
    requires j == |polls| || !polls[j - 1] || !polls[j]
    ensures |RunStarts(polls, j + m)| == |RunStarts(polls[j..], m)|
    decreases |polls| - j - m
  {
    if j + m < |polls| {
      var t := polls[j..];
      assert RunStart(polls, j + m) <==> RunStart(t, m);
      ShiftFrom(polls, j, m + 1);
    }
  }

  /** The number of presses whose toggle went through. */
  function Toggled(events: seq<PttSession.Event>): nat {
    if events == [] then 0
    else (if events[0] == PttSession.KeyToggle(true) then 1 else 0) + Toggled(events[1..])
  }

  /** Listener events alternate start and stop through the presses that
      went through: a raising beep or a raising poll leaves the recording
      flag alone. */
  lemma {:induction false} ListenerRunParity(
    s: PttSession.Session, events: seq<PttSession.Event>, l: PttSession.Limits)
    requires forall k :: 0 <= k < |events| ==> events[k].KeyToggle? || events[k].ListenerFault?
    ensures PttSession.Run(s, events, l).recording == (s.recording != (Toggled(events) % 2 == 1))
    decreases |events|
  {
    if events != [] {
      ListenerRunParity(PttSession.Step(s, events[0], l), events[1..], l);
    }
  }

  /** Every listener event is a press or a fault. */
  lemma {:induction false} ListenerEventsKinds(polls: seq<Poll>, from: nat)
    requires from <= |polls|
    ensures forall k :: 0 <= k < |ListenerEvents(polls, from)| ==>
              ListenerEvents(polls, from)[k].KeyToggle? || ListenerEvents(polls, from)[k].ListenerFault?
    decreases |polls| - from
  {
    if from < |polls| {
      ListenerEventsKinds(polls, from + 1);
    }
  }

  /** The listener driving the session over a poll trace. The session
      ends recording exactly when it started in the other state and an
      odd number of presses went through; with no raising poll and no
      raising beep that is once per maximal run of "all down". */
  method ListenSession(s: PttSession.Session, polls: seq<Poll>, l: PttSession.Limits)
    returns (r: PttSession.Session, events: seq<PttSession.Event>)
    ensures events == ListenerEvents(polls, 0) && r == PttSession.Run(s, events, l)
    ensures r.recording == (s.recording != (Toggled(events) % 2 == 1))
    ensures NoFaults(polls) ==> r.recording == (s.recording != (CountRuns(Downs(polls)) % 2 == 1))
  {
    events := Listen(polls);
    r := s;
    var k := 0;
    while k < |events|
      invariant 0 <= k <= |events|
      invariant PttSession.Run(r, events[k..], l) == PttSession.Run(s, events, l)
    {
      assert events[k..][1..] == events[k + 1..];
      r := PttSession.Step(r, events[k], l);
      k := k + 1;
    }
    assert events[k..] == [];
    ListenerEventsKinds(polls, 0);
    ListenerRunParity(s, events, l);
    if NoFaults(polls) {
      NoFaultsTogglesOncePerRun(polls);
      AllTogglesCount(events);
    }
  }

  /** When every event is a press that went through, all of them count. */
  lemma {:induction false} AllTogglesCount(events: seq<PttSession.Event>)
    requires forall k :: 0 <= k < |events| ==> events[k] == PttSession.KeyToggle(true)
    ensures Toggled(events) == |events|
    decreases |events|
  {
    if events != [] {
      AllTogglesCount(events[1..]);
    }
  }
}

=== FILE: log_cleanup.dfy ===
/** `cleanup_old_logs`, identical in app_logging/cleanup.py and logger.py:
    the retention policy run once when logging is set up. */
module LogCleanup {
  import opened Wrappers
  import opened LogFiles
  import opened PySeq

  /** The `LogCleanup` section of the configuration; a missing key is None
      and takes the default given to `.get`. */
  datatype Options = Options(
    enabled: Option<bool>,
    strategy: Option<string>,
    days: Option<int>,
    maxFiles: Option<int>)

  /** Seconds per day. */
  const Day: int := 86400

  predicate EndsWith(s: string, suffix: string) {
    |s| >= |suffix| && s[|s| - |suffix|..] == suffix
  }

  /** Only regular files named `*.log` are considered. */
  predicate IsCandidate(r: Ranked) {
    r.entry.isFile && EndsWith(r.entry.name, ".log")
  }

  /** The candidates, oldest first. */
  function Candidates(listing: seq<Entry>): (r: seq<Ranked>)
    ensures Sorted(r, false) && DistinctPos(r)
    ensures forall y :: y in r <==> y in Rank(listing) && IsCandidate(y)
  {
    RankDistinct(listing);
    var c := Filter(Rank(listing), IsCandidate);
    SortByMembers(c, false);
    PermutationDistinct(c, SortBy(c, false));
    SortBy(c, false)
  }

  /** `now - timedelta(days=retention_days)` in seconds. */
  function Cutoff(now: int, days: int): int {
    now - days * Day
  }

  /** The range of Python's `datetime`, 0001-01-01 00:00:00 to
      9999-12-31 23:59:59, in seconds on the scale of `now` and of the
      modification times (seconds since 1970-01-01). */
  const MinTime: int := -62135596800
  const MaxTime: int := 253402300799

  /** The largest number of days a `timedelta` holds. */
  const MaxDeltaDays: int := 999999999

  /** The cutoff can be computed: `timedelta(days=retention_days)` exists
      and subtracting it from `now` stays inside the range of `datetime`.
      Otherwise OverflowError is raised before the directory is listed. */
  predicate CutoffInRange(now: int, days: int) {
    -MaxDeltaDays <= days <= MaxDeltaDays && MinTime <= Cutoff(now, days) <= MaxTime
  }

  /** Which files a run sets out to delete, in the order it deletes them:
      nothing when disabled, and nothing under any strategy when the cutoff
      overflows; under 'time' every candidate modified strictly before the
      cutoff; under 'count', when there are more candidates than
      `max_log_files`, the slice `[:-max_log_files]` of the oldest-first
      list; under any other strategy nothing. */
  function Selection(o: Options, now: int, listing: seq<Entry>): (r: seq<Ranked>)
    ensures !o.enabled.GetOr(true) ==> r == []
    ensures !CutoffInRange(now, o.days.GetOr(7)) ==> r == []
    ensures o.enabled.GetOr(true) && CutoffInRange(now, o.days.GetOr(7)) && o.strategy.GetOr("time") == "time" ==>
              forall y :: y in r <==> y in Rank(listing) && IsCandidate(y)
                                      && y.entry.mtime < Cutoff(now, o.days.GetOr(7))
    ensures o.strategy.GetOr("time") == "time" ==> Sorted(r, false) && DistinctPos(r)
    ensures o.strategy.GetOr("time") != "time" && o.strategy.GetOr("time") != "count" ==> r == []
    ensures o.enabled.GetOr(true) && CutoffInRange(now, o.days.GetOr(7)) && o.strategy.GetOr("time") == "count" ==>
              r == (var c := Candidates(listing);
                    if |c| > o.maxFiles.GetOr(10) then Prefix(c, -o.maxFiles.GetOr(10)) else [])
  {
    if !o.enabled.GetOr(true) then []
    else if !CutoffInRange(now, o.days.GetOr(7)) then []
    else
      var cutoff := Cutoff(now, o.days.GetOr(7));
      var maxFiles := o.maxFiles.GetOr(10);
      var c := Candidates(listing);
      match o.strategy.GetOr("time")
      case "time" =>
        FilterSorted(c, (y: Ranked) => y.entry.mtime < cutoff, false);
        Filter(c, (y: Ranked) => y.entry.mtime < cutoff)
      case "count" => if |c| > maxFiles then Prefix(c, -maxFiles) else []
      case _ => []
  }

  /** `cleanup_old_logs`: the selected files are removed in order; a failing
      removal, like a failing `os.listdir` (None) or an overflowing cutoff,
      raises, is caught and logged, and ends the run. The result is the
      names removed. */
  function CleanupOldLogs(o: Options, now: int, listing: Option<seq<Entry>>, removeOk: string -> bool): (removed: seq<string>)
    ensures listing.None? || !o.enabled.GetOr(true) ==> removed == []
    ensures !CutoffInRange(now, o.days.GetOr(7)) ==> removed == []
    ensures listing.Some? ==>
              var selected := Names(Selection(o, now, listing.value));
              |removed| <= |selected| && removed == selected[..|removed|]
              && (|removed| < |selected| ==> !removeOk(selected[|removed|]))
  {
    match listing
    case None => []
    case Some(l) => RemoveUntilFailure(Names(Selection(o, now, l)), removeOk)
  }

  /** Under 'count' with more candidates than a positive `max_log_files`,
      exactly the oldest `len - max_log_files` are selected and the
      `max_log_files` kept are each at least as new as every selected one. */
  lemma CountKeepsNewest(o: Options, now: int, listing: seq<Entry>)
    requires o.enabled.GetOr(true) && o.strategy.GetOr("time") == "count"
    requires CutoffInRange(now, o.days.GetOr(7))
    requires 0 < o.maxFiles.GetOr(10) < |Candidates(listing)|
    ensures var c := Candidates(listing);
            var m := o.maxFiles.GetOr(10);
            && Selection(o, now, listing) == c[..|c| - m]
            && |c[|c| - m..]| == m
            && forall i, j :: 0 <= i < |c| - m <= j < |c| ==> c[i].entry.mtime <= c[j].entry.mtime
  {
    var c := Candidates(listing);
    DropLastSlice(c, o.maxFiles.GetOr(10));
  }

  /** A retention of a million days or more, which the configuration
      validator accepts, overflows the cutoff for any clock between 1970
      and the year 2603: nothing is removed, under 'count' as much as
      under 'time', whatever the directory holds. */
  lemma HugeRetentionRemovesNothing(o: Options, now: int, listing: Option<seq<Entry>>, removeOk: string -> bool)
    requires 0 <= now <= 20000000000
    requires o.days.GetOr(7) >= 1000000
    ensures !CutoffInRange(now, o.days.GetOr(7))
    ensures CleanupOldLogs(o, now, listing, removeOk) == []
  {
  }

  /** Under 'count' nothing is selected while the candidates number at most
      `max_log_files`. */
  lemma CountWithinLimitSelectsNothing(o: Options, now: int, listing: seq<Entry>)
    requires o.enabled.GetOr(true) && o.strategy.GetOr("time") == "count"
    requires |Candidates(listing)| <= o.maxFiles.GetOr(10)
    ensures Selection(o, now, listing) == []
  {
  }

  /** Under 'count' a `max_log_files` of 0 selects nothing however many
      candidates there are, because `[:-0]` is the empty slice `[:0]`. */
  lemma CountZeroSelectsNothing(o: Options, now: int, listing: seq<Entry>)
    requires o.enabled.GetOr(true) && o.strategy.GetOr("time") == "count"
    requires o.maxFiles == Some(0)
    ensures Selection(o, now, listing) == []
  {
    DropLastSlice(Candidates(listing), 0);
  }
}

/** The retention policy of the single-file program (push_to_talk.py):
    a 'time' and a 'size' strategy over every regular file in the log
    directory, whatever its name. */
module PttLogCleanup {
  import opened Wrappers
  import opened LogFiles
  import opened PySeq
  import LogCleanup

  /** `os.listdir` raised inside `cleanup_logs_by_time`, which does not
      catch it. */
  datatype ListingFailed = ListingFailed

  /** `cleanup_logs_by_time`: every regular file strictly older than
      `retention_days * 86400` seconds is removed, in listing order; a
      failing removal is logged and the loop goes on. The result is the
      names removed. */
  function CleanupByTime(now: int, days: int, listing: Option<seq<Entry>>, removeOk: string -> bool): (r: Result<seq<string>, ListingFailed>)
    ensures listing.None? <==> r.Err?
    ensures r.Ok? ==> forall k :: 0 <= k < |listing.value| ==>
              ((listing.value[k].isFile && now - listing.value[k].mtime > days * 86400 && removeOk(listing.value[k].name))
               ==> listing.value[k].name in r.value)
    ensures r.Ok? ==> forall n :: n in r.value ==>
              exists k :: 0 <= k < |listing.value| && listing.value[k].name == n
                          && listing.value[k].isFile && now - listing.value[k].mtime > days * 86400 && removeOk(n)
  {
    match listing
    case None => Err(ListingFailed)
    case Some(l) =>
      var expired := (y: Ranked) => y.entry.isFile && now - y.entry.mtime > days * 86400 && removeOk(y.entry.name);
      var removed := Filter(Rank(l), expired);
      var names := Names(removed);
      assert forall k :: 0 <= k < |l| && expired(Ranked(l[k], k)) ==> l[k].name in names by {
        forall k | 0 <= k < |l| && expired(Ranked(l[k], k)) ensures l[k].name in names {
          assert Rank(l)[k] == Ranked(l[k], k);
          var m :| 0 <= m < |removed| && removed[m] == Ranked(l[k], k);
          assert names[m] == l[k].name;
        }
      }
      assert forall n :: n in names ==> exists k :: 0 <= k < |l| && l[k].name == n && expired(Ranked(l[k], k)) by {
        forall n | n in names ensures exists k :: 0 <= k < |l| && l[k].name == n && expired(Ranked(l[k], k)) {
          var m :| 0 <= m < |names| && names[m] == n;
          assert removed[m] in Rank(l);
          var k :| 0 <= k < |l| && Rank(l)[k] == removed[m];
          assert l[k].name == n && expired(Ranked(l[k], k));
        }
      }
      Ok(names)
  }

  /** Every regular file, newest first. */
  function NewestFirst(listing: seq<Entry>): (r: seq<Ranked>)
    ensures Sorted(r, true)
    ensures forall y :: y in r <==> y in Rank(listing) && y.entry.isFile
  {
    var c := Filter(Rank(listing), (y: Ranked) => y.entry.isFile);
    SortByMembers(c, true);
    SortBy(c, true)
  }

  /** `cleanup_logs_by_size`: the regular files beyond the first
      `max_log_files` of the newest-first list are removed in that order;
      any failure, of the listing or of a removal, is caught and logged and
      ends the run. The result is the names removed. */
  function CleanupBySize(maxFiles: int, listing: Option<seq<Entry>>, removeOk: string -> bool): (removed: seq<string>)
    ensures listing.None? ==> removed == []
    ensures listing.Some? ==>
              var excess := Names(Suffix(NewestFirst(listing.value), maxFiles));
              |removed| <= |excess| && removed == excess[..|removed|]
              && (|removed| < |excess| ==> !removeOk(excess[|removed|]))
  {
    match listing
    case None => []
    case Some(l) => RemoveUntilFailure(Names(Suffix(NewestFirst(l), maxFiles)), removeOk)
  }

  /** For a non-negative `max_log_files` the files kept are the newest
      `max_log_files` (all of them when there are fewer) and each is at
      least as new as every file selected for removal. */
  lemma SizeKeepsNewest(maxFiles: int, listing: seq<Entry>)
    requires maxFiles >= 0
    ensures var s := NewestFirst(listing);
            var keep := if maxFiles < |s| then maxFiles else |s|;
            && Suffix(s, maxFiles) == s[keep..]
            && forall i, j :: 0 <= i < keep <= j < |s| ==> s[i].entry.mtime >= s[j].entry.mtime
  {
  }

  /** A `max_log_files` of 0 removes every regular file when every removal
      succeeds. */
  lemma SizeZeroRemovesAll(listing: seq<Entry>, removeOk: string -> bool)
    requires forall n :: removeOk(n)
    ensures CleanupBySize(0, Some(listing), removeOk) == Names(NewestFirst(listing))
  {
    var s := NewestFirst(listing);
    assert Suffix(s, 0) == s;
    RemoveAllWhenAllSucceed(Names(s), removeOk);
  }

  /** The cleanup run by the program's logging setup: when enabled, 'time'
      runs the age-based cleanup and 'size' the count-based one; any other
      strategy, including the 'count' that the configuration validator
      accepts, removes nothing. */
  function SetupCleanup(o: LogCleanup.Options, now: int, listing: Option<seq<Entry>>, removeOk: string -> bool): (r: Result<seq<string>, ListingFailed>)
    ensures !o.enabled.GetOr(true) ==> r == Ok([])
    ensures o.strategy.GetOr("time") != "time" ==> r.Ok?
    ensures o.strategy.GetOr("time") != "time" && o.strategy.GetOr("time") != "size" ==> r == Ok([])
    ensures o.enabled.GetOr(true) && o.strategy.GetOr("time") == "size" ==>
              r == Ok(CleanupBySize(o.maxFiles.GetOr(10), listing, removeOk))
    ensures o.enabled.GetOr(true) && o.strategy.GetOr("time") == "time" ==>
              r == CleanupByTime(now, o.days.GetOr(7), listing, removeOk)
  {
    if !o.enabled.GetOr(true) then Ok([])
    else match o.strategy.GetOr("time")
      case "time" => CleanupByTime(now, o.days.GetOr(7), listing, removeOk)
      case "size" => Ok(CleanupBySize(o.maxFiles.GetOr(10), listing, removeOk))
      case _ => Ok([])
  }

  /** The two programs disagree on a limit of zero: the single-file
      program's 'size' strategy removes every regular file, while the
      packaged 'count' strategy removes none. */
  lemma ZeroLimitDisagrees(listing: seq<Entry>, now: int, removeOk: string -> bool)
    requires forall n :: removeOk(n)
    requires exists k :: 0 <= k < |listing| && listing[k].isFile && LogCleanup.EndsWith(listing[k].name, ".log")
    ensures CleanupBySize(0, Some(listing), removeOk) != []
    ensures LogCleanup.CleanupOldLogs(LogCleanup.Options(None, Some("count"), None, Some(0)), now, Some(listing), removeOk) == []
  {
    var k :| 0 <= k < |listing| && listing[k].isFile && LogCleanup.EndsWith(listing[k].name, ".log");
    assert Rank(listing)[k] in NewestFirst(listing);
    SizeZeroRemovesAll(listing, removeOk);
    LogCleanup.CountZeroSelectsNothing(LogCleanup.Options(None, Some("count"), None, Some(0)), now, listing);
  }
}

=== FILE: log_files.dfy ===
/** Log directory listings as the cleanup routines see them, and Python's
    stable sort of such a listing by modification time. */
module LogFiles {

  /** One name returned by `os.listdir`: whether it is a regular file
      (`os.path.isfile`) and its modification time in whole seconds. */
  datatype Entry = Entry(name: string, isFile: bool, mtime: int)

  /** An entry together with its position in the `os.listdir` result, which
      breaks ties between equal modification times in a stable sort. */
  datatype Ranked = Ranked(entry: Entry, pos: nat)

  /** The listing with every entry tagged by its position. */
  function Rank(listing: seq<Entry>): (r: seq<Ranked>)
    ensures |r| == |listing|
    ensures forall i :: 0 <= i < |r| ==> r[i] == Ranked(listing[i], i)
  {
    RankFrom(listing, 0)
  }

  function RankFrom(listing: seq<Entry>, from: nat): (r: seq<Ranked>)
    requires from <= |listing|
    ensures |r| == |listing| - from
    ensures forall i :: 0 <= i < |r| ==> r[i] == Ranked(listing[from + i], from + i)
    decreases |listing| - from
  {
    if from == |listing| then [] else [Ranked(listing[from], from)] + RankFrom(listing, from + 1)
  }

  /** No two ranked entries share a listing position. */
  predicate DistinctPos(s: seq<Ranked>) {
    forall i, j :: 0 <= i < |s| && 0 <= j < |s| && i != j ==> s[i].pos != s[j].pos
  }

  lemma RankDistinct(listing: seq<Entry>)
    ensures DistinctPos(Rank(listing))
  {
  }

  /** `a` may come before `b` in a stable sort by modification time: oldest
      first (`key=getmtime`) or newest first (`reverse=True`, which Python
      keeps stable); equal times keep listing order. */
  predicate InOrder(a: Ranked, b: Ranked, newestFirst: bool) {
    if newestFirst then
      a.entry.mtime > b.entry.mtime || (a.entry.mtime == b.entry.mtime && a.pos <= b.pos)
    else
      a.entry.mtime < b.entry.mtime || (a.entry.mtime == b.entry.mtime && a.pos <= b.pos)
  }

  predicate Sorted(s: seq<Ranked>, newestFirst: bool) {
    forall i, j :: 0 <= i < j < |s| ==> InOrder(s[i], s[j], newestFirst)
  }

  /** `x` placed into a sorted sequence. */
  function Insert(x: Ranked, s: seq<Ranked>, newestFirst: bool): (r: seq<Ranked>)
    requires Sorted(s, newestFirst)
    ensures forall y :: y in r ==> y == x || y in s
    ensures Sorted(r, newestFirst)
    ensures multiset(r) == multiset(s) + multiset{x}
  {
    if s == [] || InOrder(x, s[0], newestFirst) then
      [x] + s
    else
      var rest := Insert(x, s[1..], newestFirst);
      assert s == [s[0]] + s[1..];
      HeadBeforeInserted(x, s, rest, newestFirst);
      [s[0]] + rest
  }

  /** When `x` goes after the head of `s`, the head still comes before
      everything the rest turns into. */
  lemma HeadBeforeInserted(x: Ranked, s: seq<Ranked>, rest: seq<Ranked>, newestFirst: bool)
    requires Sorted(s, newestFirst) && s != [] && !InOrder(x, s[0], newestFirst)
    requires forall y :: y in rest ==> y == x || y in s[1..]
    ensures forall k :: 0 <= k < |rest| ==> InOrder(s[0], rest[k], newestFirst)
  {
    forall k | 0 <= k < |rest| ensures InOrder(s[0], rest[k], newestFirst) {
      if rest[k] != x {
        assert rest[k] in s[1..];
        var m :| 0 <= m < |s[1..]| && s[1..][m] == rest[k];
        assert s[m + 1] == rest[k];
      }
    }
  }

  /** The listing sorted by modification time, ties in listing order. */
  function SortBy(s: seq<Ranked>, newestFirst: bool): (r: seq<Ranked>)
    ensures Sorted(r, newestFirst)
    ensures multiset(r) == multiset(s) && |r| == |s|
  {
    if s == [] then []
    else
      assert s == [s[0]] + s[1..];
      Insert(s[0], SortBy(s[1..], newestFirst), newestFirst)
  }

  /** Sorting keeps exactly the elements it was given. */
  lemma SortByMembers(s: seq<Ranked>, newestFirst: bool)
    ensures forall y :: y in SortBy(s, newestFirst) <==> y in s
  {
    var r := SortBy(s, newestFirst);
    forall y
      ensures y in r <==> y in s
    {
      assert y in r <==> y in multiset(r);
      assert y in s <==> y in multiset(s);
    }
  }

  /** Two sorted orders of the same elements with distinct positions
      start with the same element. */
  lemma SortedHeadsAgree(a: seq<Ranked>, b: seq<Ranked>, newestFirst: bool)
    requires Sorted(a, newestFirst) && Sorted(b, newestFirst)
    requires multiset(a) == multiset(b) && DistinctPos(a) && a != []
    ensures b != [] && a[0] == b[0]
  {
    assert a[0] in multiset(b);
    assert b[0] in multiset(a);
    var i :| 0 <= i < |b| && b[i] == a[0];
    var j :| 0 <= j < |a| && a[j] == b[0];
    assert InOrder(b[0], b[i], newestFirst) || i == 0;
    assert InOrder(a[0], a[j], newestFirst) || j == 0;
    assert a[j].pos == a[0].pos;
  }

  /** The same elements sorted twice come out the same, provided positions
      are distinct: so `SortBy` is the one order Python's stable sort can
      produce. */
  lemma {:induction false} SortedPermutationUnique(a: seq<Ranked>, b: seq<Ranked>, newestFirst: bool)
    requires Sorted(a, newestFirst) && Sorted(b, newestFirst)
    requires multiset(a) == multiset(b) && DistinctPos(a)
    ensures a == b
    decreases |a|
  {
    assert |a| == |multiset(a)| == |b|;
    if a != [] {
      SortedHeadsAgree(a, b, newestFirst);
      assert a == [a[0]] + a[1..];
      assert b == [a[0]] + b[1..];
      assert multiset(a[1..]) == multiset(a) - multiset{a[0]};
      assert multiset(b[1..]) == multiset(b) - multiset{a[0]};
      SortedPermutationUnique(a[1..], b[1..], newestFirst);
    }
  }

  /** The names of ranked entries, in order. */
  function Names(s: seq<Ranked>): (r: seq<string>)
    ensures |r| == |s| && forall i :: 0 <= i < |s| ==> r[i] == s[i].entry.name
  {
    if s == [] then [] else [s[0].entry.name] + Names(s[1..])
  }

  /** The elements satisfying `p`, in order. */
  function Filter(s: seq<Ranked>, p: Ranked -> bool): (r: seq<Ranked>)
    ensures |r| <= |s|
    ensures forall y :: y in r <==> y in s && p(y)
    ensures DistinctPos(s) ==> DistinctPos(r)
  {
    if s == [] then []
    else
      var rest := Filter(s[1..], p);
      assert forall y :: y in s[1..] ==> y in s;
      if p(s[0]) then
        assert DistinctPos(s) ==> forall k :: 0 <= k < |rest| ==> rest[k].pos != s[0].pos by {
          if DistinctPos(s) {
            forall k | 0 <= k < |rest| ensures rest[k].pos != s[0].pos {
              assert rest[k] in s[1..];
              var m :| 0 <= m < |s[1..]| && s[1..][m] == rest[k];
              assert s[m + 1] == rest[k];
            }
          }
        }
        [s[0]] + rest
      else rest
  }

  /** Filtering keeps a sorted order sorted. */
  lemma {:induction false} FilterSorted(s: seq<Ranked>, p: Ranked -> bool, newestFirst: bool)
    requires Sorted(s, newestFirst)
    ensures Sorted(Filter(s, p), newestFirst)
    decreases |s|
  {
    if s != [] {
      var rest := Filter(s[1..], p);
      assert Sorted(s[1..], newestFirst);
      FilterSorted(s[1..], p, newestFirst);
      if p(s[0]) {
        var r := [s[0]] + rest;
        forall i, j | 0 <= i < j < |r| ensures InOrder(r[i], r[j], newestFirst) {
          assert r[j] == rest[j - 1] && rest[j - 1] in s[1..];
          if i > 0 {
            assert r[i] == rest[i - 1];
          } else {
            var m :| 0 <= m < |s[1..]| && s[1..][m] == rest[j - 1];
            assert s[m + 1] == r[j];
          }
        }
      }
    }
  }

  /** With distinct positions no element occurs twice. */
  lemma {:induction false} DistinctPosCount(s: seq<Ranked>, x: Ranked)
    requires DistinctPos(s)
    ensures multiset(s)[x] <= 1
    decreases |s|
  {
    if s != [] {
      assert s == [s[0]] + s[1..];
      assert DistinctPos(s[1..]) by {
        forall i, j | 0 <= i < |s[1..]| && 0 <= j < |s[1..]| && i != j ensures s[1..][i].pos != s[1..][j].pos {
          assert s[1..][i] == s[i + 1] && s[1..][j] == s[j + 1];
        }
      }
      DistinctPosCount(s[1..], x);
      if x == s[0] {
        assert x !in s[1..] by {
          forall k | 0 <= k < |s[1..]| ensures s[1..][k] != x {
            assert s[1..][k] == s[k + 1];
          }
        }
      }
    }
  }

  /** A reordering of entries with distinct positions keeps them distinct. */
  lemma PermutationDistinct(a: seq<Ranked>, b: seq<Ranked>)
    requires multiset(a) == multiset(b) && DistinctPos(a)
    ensures DistinctPos(b)
  {
    forall i, j | 0 <= i < |b| && 0 <= j < |b| && i < j ensures b[i].pos != b[j].pos {
      assert b[i] in multiset(a) && b[j] in multiset(a);
      var p :| 0 <= p < |a| && a[p] == b[i];
      var q :| 0 <= q < |a| && a[q] == b[j];
      if p == q {
        assert b == b[..j] + b[j..];
        assert b[..j][i] == b[i] && b[j..][0] == b[i];
        assert multiset(b)[b[i]] == multiset(b[..j])[b[i]] + multiset(b[j..])[b[i]];
        DistinctPosCount(a, b[i]);
        assert false;
      }
    }
  }

  /** Deleting files one by one in order, where the first failing removal
      raises and ends the loop: the names actually removed. */
  function RemoveUntilFailure(names: seq<string>, removeOk: string -> bool): (r: seq<string>)
    ensures |r| <= |names| && r == names[..|r|]
    ensures forall i :: 0 <= i < |r| ==> removeOk(r[i])
    ensures |r| < |names| ==> !removeOk(names[|r|])
  {
    if names == [] || !removeOk(names[0]) then []
    else [names[0]] + RemoveUntilFailure(names[1..], removeOk)
  }

  /** When every removal succeeds everything selected is removed. */
  lemma {:induction false} RemoveAllWhenAllSucceed(names: seq<string>, removeOk: string -> bool)
    requires forall i :: 0 <= i < |names| ==> removeOk(names[i])
    ensures RemoveUntilFailure(names, removeOk) == names
  {
    var r := RemoveUntilFailure(names, removeOk);
    assert |r| == |names|;
  }
}

=== FILE: logger_setup.dfy ===
// Formatter choice (app_logging/formatters.py), level names, and the
// one-time logging setup of logger.py.

/** `get_formatter` of app_logging/formatters.py. */
module Formatters {
  import opened PyText

  /** The two formats; 'plain' and every unknown name share one layout. */
  datatype Formatter = JsonFormatter | PlainFormatter

  /** `get_formatter`: the JSON formatter when the name lower-cases to
      'json', the plain one otherwise. */
  function GetFormatter(logFormat: string): (r: Formatter)
    ensures r == JsonFormatter <==> Lower(logFormat) == "json"
    ensures r == PlainFormatter <==> Lower(logFormat) != "json"
  {
    if Lower(logFormat) == "json" then JsonFormatter
    else if Lower(logFormat) == "plain" then PlainFormatter
    else PlainFormatter
  }

  /** The choice depends on the lower-cased name only. */
  lemma FormatterDependsOnLowerOnly(a: string, b: string)
    requires Lower(a) == Lower(b)
    ensures GetFormatter(a) == GetFormatter(b)
  {
  }

  /** Any capitalisation of 'json' selects JSON, and so does lowering the
      name first. */
  lemma FormatterCaseInsensitive(logFormat: string)
    ensures GetFormatter(Lower(logFormat)) == GetFormatter(logFormat)
    ensures GetFormatter("JSON") == JsonFormatter && GetFormatter("Json") == JsonFormatter
    ensures GetFormatter("PLAIN") == PlainFormatter && GetFormatter("xml") == PlainFormatter
  {
    LowerIdempotent(logFormat);
    assert Lower("JSON") == "json";
    assert Lower("Json") == "json";
    assert Lower("xml") == "xml";
  }
}

/** `getattr(logging, name.upper(), default)` handed to `setLevel`. */
module LogLevels {
  import opened Wrappers
  import opened PyText
  import LoggingConfig

  const NotSet: int := 0
  const Debug: int := 10
  const Info: int := 20
  const Warning: int := 30
  const Error: int := 40
  const Critical: int := 50

  /** The upper-case attribute names of the logging module. */
  const UpperNames: set<string> :=
    {"CRITICAL", "FATAL", "ERROR", "WARNING", "WARN", "INFO", "DEBUG", "NOTSET", "BASIC_FORMAT", "_STYLES"}

  /** What `setLevel` receives and does with it: a numeric level is set; the
      module's format string `BASIC_FORMAT` is no level name and raises
      ValueError; the style table `_STYLES` is no level at all and raises
      TypeError. */
  datatype Lookup = Level(level: int) | ValueErrorRaised | TypeErrorRaised

  /** The attribute of the logging module with the given upper-case name,
      or `default` when it has none. */
  function LevelAttribute(upperName: string, default: int): (r: Lookup)
    ensures upperName == "WARN" || upperName == "WARNING" ==> r == Level(Warning)
    ensures upperName == "FATAL" || upperName == "CRITICAL" ==> r == Level(Critical)
    ensures upperName == "NOTSET" ==> r == Level(NotSet)
    ensures upperName !in UpperNames ==> r == Level(default)
    ensures r.Level? && r.level != default ==> r.level in {NotSet, Debug, Info, Warning, Error, Critical}
    ensures r == ValueErrorRaised <==> upperName == "BASIC_FORMAT"
    ensures r == TypeErrorRaised <==> upperName == "_STYLES"
  {
    match upperName
    case "CRITICAL" => Level(Critical)
    case "FATAL" => Level(Critical)
    case "ERROR" => Level(Error)
    case "WARNING" => Level(Warning)
    case "WARN" => Level(Warning)
    case "INFO" => Level(Info)
    case "DEBUG" => Level(Debug)
    case "NOTSET" => Level(NotSet)
    case "BASIC_FORMAT" => ValueErrorRaised
    case "_STYLES" => TypeErrorRaised
    case _ => Level(default)
  }

  /** `getattr(logging, name.upper(), default)`. */
  function LevelNamed(name: string, default: int): Lookup {
    LevelAttribute(Upper(name), default)
  }

  /** The five names the configuration validator accepts are exactly the
      five standard levels, in ascending severity: none of them raises or
      falls back to the default. */
  lemma ValidatedLevelsAscend(d: int)
    ensures forall i :: 0 <= i < |LoggingConfig.ValidLevels| ==>
              LevelNamed(LoggingConfig.ValidLevels[i], d) == Level(10 * (i + 1))
  {
    var names := LoggingConfig.ValidLevels;
    forall i | 0 <= i < |names| ensures LevelNamed(names[i], d) == Level(10 * (i + 1)) {
      if i == 0 {
        UpperCaseLevel(names[i], d, Debug);
      } else if i == 1 {
        UpperCaseLevel(names[i], d, Info);
      } else if i == 2 {
        UpperCaseLevel(names[i], d, Warning);
      } else if i == 3 {
        UpperCaseLevel(names[i], d, Error);
      } else {
        UpperCaseLevel(names[i], d, Critical);
      }
    }
  }

  /** A name with no lower-case letter is looked up as written. */
  lemma UpperCaseLevel(name: string, d: int, level: int)
    requires forall i :: 0 <= i < |name| ==> !('a' <= name[i] <= 'z')
    requires LevelAttribute(name, d) == Level(level)
    ensures LevelNamed(name, d) == Level(level)
  {
    UpperOfUpperCase(name);
  }

  /** Level names are case-insensitive: only the upper-cased name counts. */
  lemma LevelNamedCaseInsensitive(name: string, default: int)
    ensures LevelNamed(Upper(name), default) == LevelNamed(name, default)
  {
    UpperIdempotent(name);
  }

  /** The root logger's level and those of its handlers, in order. */
  datatype Loggers = Loggers(root: int, handlers: seq<int>)

  /** `set_log_level`: the named level, DEBUG for an unknown name, is set
      on the root logger and on every handler; a name that raises changes
      nothing, since the root's `setLevel` is the first call. */
  function SetLogLevel(l: Loggers, name: string): (r: Option<Loggers>)
    ensures r.None? <==> !LevelNamed(name, Debug).Level?
    ensures r.Some? ==>
              && r.value.root == LevelNamed(name, Debug).level
              && |r.value.handlers| == |l.handlers|
              && forall i :: 0 <= i < |l.handlers| ==> r.value.handlers[i] == r.value.root
  {
    match LevelNamed(name, Debug)
    case Level(n) => Some(Loggers(n, seq(|l.handlers|, _ => n)))
    case _ => None
  }

  /** Setting a level twice is the same as setting it once, and the second
      setting wins over the first. */
  lemma SetLogLevelLastWins(l: Loggers, a: string, b: string)
    requires SetLogLevel(l, a).Some?
    ensures SetLogLevel(SetLogLevel(l, a).value, b) == SetLogLevel(l, b)
  {
  }
}

/** `setup_logging` of logger.py, guarded by a module-level flag. */
module LoggerSetup {
  import opened Wrappers
  import opened LogLevels
  import LogFiles
  import LogCleanup

  /** The `Logging` section; a missing key is None. */
  datatype LoggingOptions = LoggingOptions(
    logLevel: Option<string>,
    logFormat: Option<string>,
    logToConsole: Option<bool>,
    consoleLogLevel: Option<string>)

  /** A handler on the root logger: its level and whether it formats as
      JSON. The file handler rotates at midnight keeping `max_log_files`
      backups. */
  datatype Handler =
    | FileHandler(level: int, json: bool, backupCount: int)
    | ConsoleHandler(level: int, json: bool)

  /** The flag `_logger_initialized`, the root logger, the log files removed
      by cleanups so far, and how many cleanups ran. */
  datatype State = State(initialized: bool, root: int, handlers: seq<Handler>, removed: seq<string>, cleanups: nat)

  const Fresh := State(false, Warning, [], [], 0)

  /** The environment of one call: the cleanup section, the clock, the log
      directory listing, the removal oracle, and whether creating the
      directory and opening the log file succeed. */
  datatype Env = Env(
    cleanup: LogCleanup.Options,
    now: int,
    listing: Option<seq<LogFiles.Entry>>,
    removeOk: string -> bool,
    fileOk: bool)

  /** `setup_logging`: a no-op once the flag is set. Otherwise the root
      level is set from `log_level` (default 'DEBUG'); the file handler is
      created at that level, JSON exactly when `log_format` is 'json'
      (default 'json'); with `log_to_console` (default off) a console
      handler at `console_log_level` (default 'INFO') follows; then the
      retention policy runs once and the flag is set. An exception from a
      level name or the file system leaves the flag unset and keeps what was
      done before it. */
  function SetupLogging(s: State, o: LoggingOptions, e: Env): (r: Result<State, State>)
    ensures s.initialized ==> r == Ok(s)
    ensures !s.initialized && r.Ok? ==>
              && r.value.initialized
              && r.value.cleanups == s.cleanups + 1
              && r.value.removed == s.removed + LogCleanup.CleanupOldLogs(e.cleanup, e.now, e.listing, e.removeOk)
              && |r.value.handlers| > |s.handlers|
              && r.value.handlers[|s.handlers|] ==
                   FileHandler(r.value.root, o.logFormat.GetOr("json") == "json", e.cleanup.maxFiles.GetOr(10))
    ensures r.Err? ==> !r.error.initialized && r.error.cleanups == s.cleanups && r.error.removed == s.removed
    ensures !s.initialized ==> (r.Ok? <==> e.fileOk && LevelNamed(o.logLevel.GetOr("DEBUG"), Debug).Level?
                                           && (o.logToConsole.GetOr(false) ==> LevelNamed(o.consoleLogLevel.GetOr("INFO"), Info).Level?))
  {
    if s.initialized then Ok(s)
    else match LevelNamed(o.logLevel.GetOr("DEBUG"), Debug)
      case Level(level) =>
        var s1 := s.(root := level);
        if !e.fileOk then Err(s1)
        else
          var json := o.logFormat.GetOr("json") == "json";
          var s2 := s1.(handlers := s1.handlers + [FileHandler(level, json, e.cleanup.maxFiles.GetOr(10))]);
          var console := LevelNamed(o.consoleLogLevel.GetOr("INFO"), Info);
          if o.logToConsole.GetOr(false) && !console.Level? then Err(s2)
          else
            var s3 := if o.logToConsole.GetOr(false) then s2.(handlers := s2.handlers + [ConsoleHandler(console.level, json)]) else s2;
            var removed := LogCleanup.CleanupOldLogs(e.cleanup, e.now, e.listing, e.removeOk);
            Ok(s3.(removed := s3.removed + removed, cleanups := s3.cleanups + 1, initialized := true))
      case _ => Err(s)
  }

  /** Setting up twice is setting up once: the second call adds no handler
      and runs no cleanup, whatever its arguments. */
  lemma SecondSetupIsNoOp(o1: LoggingOptions, e1: Env, o2: LoggingOptions, e2: Env)
    requires SetupLogging(Fresh, o1, e1).Ok?
    ensures var s := SetupLogging(Fresh, o1, e1).value;
            SetupLogging(s, o2, e2) == Ok(s) && s.cleanups == 1
  {
  }

  /** A console level name that raises does so after the file handler was
      attached, so a later call, finding the flag unset, attaches a second
      file handler. */
  lemma FailedSetupLeavesFileHandler(o: LoggingOptions, e: Env)
    requires e.fileOk && LevelNamed(o.logLevel.GetOr("DEBUG"), Debug).Level?
    requires o.logToConsole == Some(true) && !LevelNamed(o.consoleLogLevel.GetOr("INFO"), Info).Level?
    ensures var r := SetupLogging(Fresh, o, e);
            && r.Err? && |r.error.handlers| == 1
            && var again := SetupLogging(r.error, o, e);
               again.Err? && |again.error.handlers| == 2
  {
  }
}

=== FILE: main_app.dfy ===
/** The application object of main.py: recording start and stop around the
    shared buffer, the audio callback, the transcription thread, the choice
    of input device and the shutdown sequence. The GUI is the one of
    gui/transcription_gui.py; each `with lock:` section is one step. */
module MainApp {
  import opened Wrappers
  import opened AppStatus
  import opened Audio
  import opened PySeq
  import opened PyText
  import opened WhisperModel
  import TG = TranscriptionGui
  import AudioStream

  /** The GUI object and the module-level `audio_buffer`. */
  datatype App = App(gui: TG.Gui, buffer: seq<Chunk>)

  /** `ConfigSchema` declares no `recording_timeout`, so reading it raises
      AttributeError. */
  const SchemaTimeout := TG.Missing

  /** The GUI of gui/transcription_gui.py defines no `update_waveform`, so
      the call in the audio callback (main.py:301) always raises. */
  const WaveformUpdates := false

  /** `start_recording`: a no-op while recording; otherwise the flag is
      set, the buffer emptied, the status set to Recording and the timeout
      timer started with the configured setting. */
  function StartRecording(a: App, setting: TG.TimeoutSetting): (r: App)
    ensures a.gui.recording ==> r == a
    ensures !a.gui.recording ==>
              r.gui.recording && r.buffer == [] && r.gui.status == Recording
              && r.gui.model == a.gui.model
              && r.gui == TG.StartTimeoutTimer(a.gui.(recording := true, status := Recording), setting)
  {
    if a.gui.recording then a
    else App(TG.StartTimeoutTimer(a.gui.(recording := true, status := Recording), setting), [])
  }

  /** With the configuration schema as it stands no timer is ever armed
      by a start: the timer and the `after` queue are left alone. */
  lemma StartArmsNoTimerUnderSchema(a: App)
    ensures StartRecording(a, SchemaTimeout).gui.timer == a.gui.timer
    ensures StartRecording(a, SchemaTimeout).gui.queue == a.gui.queue
  {
  }

  /** The app after a stop, and the samples handed to a transcription
      thread if one was started. */
  datatype StopResult = StopResult(app: App, job: Option<seq<Sample>>)

  /** The locked section of `stop_recording`, which re-checks the flag:
      when recording, the flag drops, the status becomes Transcribing, the
      timeout timer is stopped (`cancelOk` says whether `after_cancel`
      returns), the buffered blocks are handed over flattened in arrival
      order or, with none buffered, the status becomes Idle; the buffer
      ends empty. */
  function StopLocked(a: App, cancelOk: bool): (r: StopResult)
    ensures !a.gui.recording ==> r == StopResult(a, None)
    ensures a.gui.recording ==> !r.app.gui.recording && r.app.buffer == []
    ensures a.gui.recording ==> (r.job.Some? <==> a.buffer != [])
    ensures a.gui.recording && a.buffer != [] ==>
              r.job == Some(Snapshot(a.buffer)) && r.app.gui.status == Transcribing
    ensures a.gui.recording && a.buffer == [] ==> r.app.gui.status == Idle
    ensures a.gui.recording && cancelOk ==> r.app.gui.timer.None?
    ensures r.app.gui.model == a.gui.model
  {
    if !a.gui.recording then StopResult(a, None)
    else
      var gui := TG.StopTimeoutTimer(a.gui.(recording := false, status := Transcribing), cancelOk);
      if a.buffer != [] then StopResult(App(gui, []), Some(Snapshot(a.buffer)))
      else StopResult(App(gui.(status := Idle), []), None)
  }

  /** `stop_recording`: the unlocked check reads `seen`; by the time the
      lock is taken the app may have moved on to `atLock`, on which the
      locked section acts. */
  function StopRecording(seen: App, atLock: App, cancelOk: bool): (r: StopResult)
    ensures !seen.gui.recording ==> r == StopResult(atLock, None)
    ensures seen.gui.recording ==> r == StopLocked(atLock, cancelOk)
  {
    if !seen.gui.recording then StopResult(atLock, None) else StopLocked(atLock, cancelOk)
  }

  /** Two stops racing past the unlocked check start one transcription:
      the second finds the flag already down under the lock and does
      nothing. */
  lemma RacingStopsStartOneJob(a: App, ok1: bool, ok2: bool)
    requires a.gui.recording
    ensures var first := StopRecording(a, a, ok1);
            StopRecording(a, first.app, ok2) == StopResult(first.app, None)
  {
  }

  /** `audio_callback`: while recording the block is appended, with no
      duration cap; `waveformOk` says whether the waveform update that
      follows returns, and when it raises the status becomes Error, the
      block already buffered. */
  function AudioCallback(a: App, chunk: Chunk, waveformOk: bool): (r: App)
    ensures !a.gui.recording ==> r == a
    ensures a.gui.recording ==> r.buffer == a.buffer + [chunk]
    ensures a.gui.recording ==> r.gui.status == (if waveformOk then a.gui.status else Error)
    ensures r.gui.recording == a.gui.recording && r.gui.timer == a.gui.timer
  {
    if !a.gui.recording then a
    else
      var appended := a.(buffer := a.buffer + [chunk]);
      if waveformOk then appended else appended.(gui := appended.gui.(status := Error))
  }

  /** The callbacks for a sequence of blocks, in arrival order. */
  function Feed(a: App, chunks: seq<Chunk>, waveformOk: bool): App
    decreases |chunks|
  {
    if chunks == [] then a else Feed(AudioCallback(a, chunks[0], waveformOk), chunks[1..], waveformOk)
  }

  /** As written, every block that arrives while recording is kept but
      sets the status to Error, however many arrive. */
  lemma {:induction false} AsWrittenEveryBlockSetsError(a: App, chunks: seq<Chunk>)
    requires a.gui.recording && chunks != []
    ensures Feed(a, chunks, WaveformUpdates).gui.status == Error
    ensures Feed(a, chunks, WaveformUpdates).buffer == a.buffer + chunks
    decreases |chunks|
  {
    var next := AudioCallback(a, chunks[0], WaveformUpdates);
    if chunks[1..] == [] {
      assert chunks == [chunks[0]];
    } else {
      AsWrittenEveryBlockSetsError(next, chunks[1..]);
    }
    FeedKeepsEverything(a, chunks, WaveformUpdates);
  }

  /** With a GUI whose waveform update returns, recording leaves the
      status alone: the callback only buffers. */
  lemma {:induction false} WaveformFeedKeepsStatus(a: App, chunks: seq<Chunk>)
    requires a.gui.recording
    ensures Feed(a, chunks, true).gui.status == a.gui.status
    ensures Feed(a, chunks, true).buffer == a.buffer + chunks
    decreases |chunks|
  {
    if chunks != [] {
      WaveformFeedKeepsStatus(AudioCallback(a, chunks[0], true), chunks[1..]);
    }
    FeedKeepsEverything(a, chunks, true);
  }

  /** Unlike push_to_talk.py, nothing bounds the buffer: while recording
      every block is kept, in order, however long the recording runs. */
  lemma {:induction false} FeedKeepsEverything(a: App, chunks: seq<Chunk>, waveformOk: bool)
    requires a.gui.recording
    ensures Feed(a, chunks, waveformOk).buffer == a.buffer + chunks
    ensures Feed(a, chunks, waveformOk).gui.recording
    ensures TotalFrames(Feed(a, chunks, waveformOk).buffer) == TotalFrames(a.buffer) + TotalFrames(chunks)
    decreases |chunks|
  {
    if chunks == [] {
      assert a.buffer + chunks == a.buffer;
    } else {
      var next := AudioCallback(a, chunks[0], waveformOk);
      FeedKeepsEverything(next, chunks[1..], waveformOk);
      assert a.buffer + [chunks[0]] + chunks[1..] == a.buffer + chunks;
    }
    TotalFramesAppend(a.buffer, chunks);
  }

  /** The configuration values `transcribe_audio` reads. */
  datatype TranscribeConfig = TranscribeConfig(
    noiseReduction: bool,
    samplerate: int,
    saveTranscription: bool,
    saveAudio: bool,
    monitoring: bool)

  /** What one transcription did: the noise profile computed, the audio
      handed to the model, the text appended to the window, the text and
      audio handed to the background savers, the keystrokes typed and the
      final status. */
  datatype Outcome = Outcome(
    noiseProfile: Option<seq<Sample>>,
    modelInput: Option<seq<Sample>>,
    shown: Option<string>,
    savedText: Option<string>,
    typed: Option<string>,
    savedAudio: Option<seq<Sample>>,
    status: Status)

  /** `audio_data[:int(0.5 * samplerate)]`: the first half-second of
      samples, or all of them when the recording is shorter. */
  function NoiseProfile(audio: seq<Sample>, samplerate: int): (p: seq<Sample>)
    ensures samplerate >= 0 ==> p == audio[..if |audio| < samplerate / 2 then |audio| else samplerate / 2]
    ensures |p| <= |audio| && p == audio[..|p|]
  {
    Prefix(audio, TruncHalf(samplerate))
  }

  /** The audio handed to the model: the recording itself, or with noise
      reduction on, what `reduce` makes of it (None when it raises). */
  function ModelInput(
    audio: seq<Sample>, cfg: TranscribeConfig,
    reduce: (seq<Sample>, seq<Sample>) -> Option<seq<Sample>>): Option<seq<Sample>>
  {
    if cfg.noiseReduction then reduce(audio, NoiseProfile(audio, cfg.samplerate)) else Some(audio)
  }

  /** `transcribe_audio`: the optional noise reduction (`reduce`, None when
      it raises), the model from the GUI (None raises on `.device`),
      inference (`infer`, None when it raises), then for a non-empty
      stripped transcript the append, the optional transcript save and the
      typing (`typingOk`), the optional audio save, and the optional
      resource log (`monitorOk`). The first step that raises ends the
      sequence with status Error. */
  function Transcribe(
    audio: seq<Sample>, cfg: TranscribeConfig, model: Option<Model>,
    reduce: (seq<Sample>, seq<Sample>) -> Option<seq<Sample>>,
    infer: (Model, seq<Sample>) -> Option<string>,
    typingOk: bool, monitorOk: bool): (r: Outcome)
    ensures r.status == Idle || r.status == Error
    ensures r.noiseProfile.Some? <==> cfg.noiseReduction
    ensures cfg.noiseReduction ==> r.noiseProfile == Some(NoiseProfile(audio, cfg.samplerate))
    ensures r.modelInput.Some? ==> model.Some?
    ensures r.modelInput.Some? && !cfg.noiseReduction ==> r.modelInput.value == audio
    ensures r.modelInput.Some? && cfg.noiseReduction ==>
              reduce(audio, NoiseProfile(audio, cfg.samplerate)) == r.modelInput
    ensures r.shown.Some? <==>
              r.modelInput.Some? && infer(model.value, r.modelInput.value).Some?
              && Strip(infer(model.value, r.modelInput.value).value) != []
    ensures r.shown.Some? ==> r.shown.value == Strip(infer(model.value, r.modelInput.value).value)
    ensures r.savedText.Some? <==> r.shown.Some? && cfg.saveTranscription
    ensures r.savedText.Some? ==> r.savedText == r.shown
    ensures r.typed.Some? ==> r.shown.Some? && r.typed.value == r.shown.value + " "
    ensures r.savedAudio.Some? ==> cfg.saveAudio && r.savedAudio == r.modelInput
    ensures r.status == Idle ==> (r.savedAudio.Some? <==> cfg.saveAudio)
    ensures r.status == Idle ==> (r.typed.Some? <==> r.shown.Some?)
    ensures r.status == Idle <==>
              r.modelInput.Some? && infer(model.value, r.modelInput.value).Some?
              && (Strip(infer(model.value, r.modelInput.value).value) == [] || typingOk)
              && (!cfg.monitoring || monitorOk)
  {
    var profile := if cfg.noiseReduction then Some(NoiseProfile(audio, cfg.samplerate)) else None;
    var input := ModelInput(audio, cfg, reduce);
    if input.None? || model.None? then
      Outcome(profile, None, None, None, None, None, Error)
    else
      match infer(model.value, input.value)
      case None => Outcome(profile, input, None, None, None, None, Error)
      case Some(raw) =>
        var text := Strip(raw);
        var shown := if text != [] then Some(text) else None;
        var savedText := if text != [] && cfg.saveTranscription then Some(text) else None;
        if text != [] && !typingOk then
          Outcome(profile, input, shown, savedText, None, None, Error)
        else
          var typed := if text != [] then Some(text + " ") else None;
          var savedAudio := if cfg.saveAudio then input else None;
          var status := if cfg.monitoring && !monitorOk then Error else Idle;
          Outcome(profile, input, shown, savedText, typed, savedAudio, status)
  }

  /** A whitespace-only transcript of the audio the model is given (the
      noise-reduced audio when reduction is on) appends, saves and types
      nothing, while that audio is still saved when configured (before
      the resource log, so even when the log raises), and the call ends
      Idle unless the resource log raises. */
  lemma WhitespaceTranscriptTouchesNoText(
    audio: seq<Sample>, cfg: TranscribeConfig, m: Model,
    reduce: (seq<Sample>, seq<Sample>) -> Option<seq<Sample>>,
    infer: (Model, seq<Sample>) -> Option<string>,
    typingOk: bool, monitorOk: bool)
    requires ModelInput(audio, cfg, reduce).Some?
    requires infer(m, ModelInput(audio, cfg, reduce).value).Some?
    requires AllSpace(infer(m, ModelInput(audio, cfg, reduce).value).value)
    ensures var r := Transcribe(audio, cfg, Some(m), reduce, infer, typingOk, monitorOk);
            && r.modelInput == ModelInput(audio, cfg, reduce)
            && r.shown.None? && r.savedText.None? && r.typed.None?
            && (r.status == Idle <==> !cfg.monitoring || monitorOk)
            && (cfg.saveAudio ==> r.savedAudio == ModelInput(audio, cfg, reduce))
  {
    StripEmptyIffAllSpace(infer(m, ModelInput(audio, cfg, reduce).value).value);
  }

  /** The `finally` of `transcribe_audio`: the status it reached is shown
      and the shared buffer is emptied, whatever the recording flag says
      by then. */
  function TranscriptionFinished(a: App, o: Outcome): (r: App)
    ensures r.buffer == [] && r.gui.status == o.status
    ensures r.gui.recording == a.gui.recording && r.gui.timer == a.gui.timer
  {
    App(a.gui.(status := o.status), [])
  }

  /** A transcription finishing during the next recording discards that
      recording's audio: the blocks fed so far are gone and a stop right
      after hands nothing to transcription. */
  lemma FinishDuringNextRecordingLosesAudio(
    a: App, chunks: seq<Chunk>, o: Outcome, setting: TG.TimeoutSetting, cancelOk: bool, waveformOk: bool)
    requires !a.gui.recording && chunks != []
    ensures var recording := Feed(StartRecording(a, setting), chunks, waveformOk);
            && recording.buffer == chunks
            && StopLocked(TranscriptionFinished(recording, o), cancelOk).job == None
  {
    var started := StartRecording(a, setting);
    FeedKeepsEverything(started, chunks, waveformOk);
    assert started.buffer + chunks == chunks;
  }

  /** `config.audio_device_index or sd.default.device[0]`: a configured
      index is used unless it is missing or 0, both falsy. */
  function DeviceIndex(configured: Option<int>, default: int): (d: int)
    ensures configured.Some? && configured.value != 0 ==> d == configured.value
    ensures configured.None? || configured.value == 0 ==> d == default
  {
    match configured
    case Some(i) => if i != 0 then i else default
    case None => default
  }

  /** Device 0 cannot be selected by configuration: it is opened only when
      it is also the default device. */
  lemma DeviceZeroOnlyAsDefault(configured: Option<int>, default: int)
    ensures DeviceIndex(configured, default) == 0 ==> default == 0
  {
  }

  /** `start_audio_stream` of the application: the device chosen from the
      configuration is always a concrete index, so the stream opener sees
      a request equal to the default device whenever the configuration
      leaves the choice to it. */
  function StartStream(configured: Option<int>, default: int, opens: AudioStream.DeviceRef -> bool, hasGui: bool): (r: AudioStream.Opened)
    ensures 1 <= |r.attempts| && r.attempts[0] == Some(DeviceIndex(configured, default))
    ensures (configured.None? || configured.value == 0) ==>
              r.attempts == [Some(default)] && (r.result.Ok? <==> opens(Some(default)))
    ensures configured.Some? && configured.value != 0 && configured.value != default && !opens(Some(configured.value)) ==>
              r.attempts == [Some(configured.value), Some(default)]
  {
    AudioStream.StartAudioStream(Some(DeviceIndex(configured, default)), default, opens, hasGui)
  }

  /** The observable steps of a shutdown. */
  datatype ShutdownStep = SetExit | StopStream | CloseStream | QuitLoop | DestroyWindow | Exit(code: int)

  /** Steps run in order until one raises: each comes with whether it
      returns. The run lists the steps attempted and ends with `Exit(0)`
      after the last, or `Exit(1)` right after the first that raises. */
  function RunUntilFailure(steps: seq<(ShutdownStep, bool)>): (trace: seq<ShutdownStep>)
    ensures |trace| >= 1 && trace[|trace| - 1].Exit?
    ensures trace[|trace| - 1] == Exit(0) <==> (forall i :: 0 <= i < |steps| ==> steps[i].1)
    ensures trace[|trace| - 1] == Exit(0) || trace[|trace| - 1] == Exit(1)
    ensures |trace| <= |steps| + 1
    ensures forall i :: 0 <= i < |trace| - 1 ==> i < |steps| && trace[i] == steps[i].0
    decreases |steps|
  {
    if steps == [] then [Exit(0)]
    else if !steps[0].1 then [steps[0].0, Exit(1)]
    else [steps[0].0] + RunUntilFailure(steps[1..])
  }

  /** Whether the app holds a stream and, if so, whether it is active,
      and whether each step of the shutdown returns. */
  datatype ShutdownOracles = ShutdownOracles(
    stream: Option<bool>,
    stopOk: bool, closeOk: bool, quitOk: bool, destroyOk: bool)

  /** The steps `graceful_shutdown` attempts after setting `should_exit`,
      each with whether it returns. */
  function ShutdownSteps(o: ShutdownOracles): seq<(ShutdownStep, bool)> {
    var streamSteps := if o.stream == Some(true) then [(StopStream, o.stopOk), (CloseStream, o.closeOk)] else [];
    streamSteps + [(QuitLoop, o.quitOk), (DestroyWindow, o.destroyOk)]
  }

  /** `graceful_shutdown`: `should_exit` is set first; the stream is
      stopped and closed only when it exists and is active; then the main
      loop quits and the window is destroyed, and the process exits with
      0, or with 1 once any step raised. */
  function GracefulShutdown(o: ShutdownOracles): (trace: seq<ShutdownStep>)
    ensures |trace| >= 2 && trace[0] == SetExit
    ensures trace[|trace| - 1] == Exit(0) || trace[|trace| - 1] == Exit(1)
    ensures forall i :: 0 <= i < |trace| - 1 ==> !trace[i].Exit?
    ensures StopStream in trace <==> o.stream == Some(true)
    ensures trace[|trace| - 1] == Exit(0) <==>
              (o.stream == Some(true) ==> o.stopOk && o.closeOk) && o.quitOk && o.destroyOk
  {
    var steps := ShutdownSteps(o);
    var run := RunUntilFailure(steps);
    assert o.stream == Some(true) ==> steps[0].0 == StopStream && run[0] == StopStream;
    assert forall i :: 0 <= i < |steps| ==> steps[i].0 != StopStream || o.stream == Some(true);
    assert (forall i :: 0 <= i < |steps| ==> steps[i].1) <==>
           (if o.stream == Some(true) then steps[0].1 && steps[1].1 && steps[2].1 && steps[3].1
            else steps[0].1 && steps[1].1);
    [SetExit] + run
  }

  /** One step in front of the rest: a returning step is followed by the
      rest of the run, a raising one by the exit with 1. */
  lemma RunCons(step: ShutdownStep, ok: bool, rest: seq<(ShutdownStep, bool)>)
    ensures RunUntilFailure([(step, ok)] + rest) ==
              if ok then [step] + RunUntilFailure(rest) else [step, Exit(1)]
  {
    assert ([(step, ok)] + rest)[1..] == rest;
  }

  /** The shutdown as the steps in front of the loop and window steps. */
  lemma ShutdownUnfolds(o: ShutdownOracles)
    ensures GracefulShutdown(o) ==
              [SetExit] + RunUntilFailure(ShutdownSteps(o))
    ensures o.stream == Some(true) ==>
              ShutdownSteps(o) == [(StopStream, o.stopOk)] + ([(CloseStream, o.closeOk)] + WindowSteps(o))
    ensures o.stream != Some(true) ==> ShutdownSteps(o) == WindowSteps(o)
  {
  }

  /** The last two steps: the main loop quits and the window is destroyed. */
  function WindowSteps(o: ShutdownOracles): seq<(ShutdownStep, bool)> {
    [(QuitLoop, o.quitOk)] + [(DestroyWindow, o.destroyOk)]
  }

  /** The run of the last two steps. */
  lemma WindowRun(o: ShutdownOracles)
    ensures !o.quitOk ==> RunUntilFailure(WindowSteps(o)) == [QuitLoop, Exit(1)]
    ensures o.quitOk && o.destroyOk ==> RunUntilFailure(WindowSteps(o)) == [QuitLoop, DestroyWindow, Exit(0)]
  {
    RunCons(DestroyWindow, o.destroyOk, []);
    assert [(DestroyWindow, o.destroyOk)] + [] == [(DestroyWindow, o.destroyOk)];
    RunCons(QuitLoop, o.quitOk, [(DestroyWindow, o.destroyOk)]);
  }

  /** The run with an active stream: a raising stop exits at once, and
      with every step returning all four steps run before the exit 0. */
  lemma ActiveStreamRun(o: ShutdownOracles)
    requires o.stream == Some(true)
    ensures !o.stopOk ==> RunUntilFailure(ShutdownSteps(o)) == [StopStream, Exit(1)]
    ensures o.stopOk && o.closeOk && o.quitOk && o.destroyOk ==>
              RunUntilFailure(ShutdownSteps(o)) == [StopStream, CloseStream, QuitLoop, DestroyWindow, Exit(0)]
  {
    ShutdownUnfolds(o);
    WindowRun(o);
    var afterStop := [(CloseStream, o.closeOk)] + WindowSteps(o);
    RunCons(StopStream, o.stopOk, afterStop);
    RunCons(CloseStream, o.closeOk, WindowSteps(o));
  }

  /** The run without an active stream: only the loop and the window. */
  lemma IdleStreamRun(o: ShutdownOracles)
    requires o.stream != Some(true)
    ensures !o.quitOk ==> RunUntilFailure(ShutdownSteps(o)) == [QuitLoop, Exit(1)]
    ensures o.quitOk && o.destroyOk ==>
              RunUntilFailure(ShutdownSteps(o)) == [QuitLoop, DestroyWindow, Exit(0)]
  {
    ShutdownUnfolds(o);
    WindowRun(o);
  }

  /** The whole shutdown for each outcome, step by step. With every step
      returning, an active stream is stopped and closed before the loop
      quits and the window goes, and the exit is 0, as in the helper's
      unconditional `exit(0)`; without an active stream only the loop and
      the window are handled. A raising `stream.stop()` ends the sequence
      at once: the stream is not closed, the loop does not quit and the
      window is not destroyed before the exit with 1. */
  lemma ShutdownTraces(o: ShutdownOracles)
    ensures o.stream == Some(true) && o.stopOk && o.closeOk && o.quitOk && o.destroyOk ==>
              GracefulShutdown(o) == [SetExit, StopStream, CloseStream, QuitLoop, DestroyWindow, Exit(0)]
    ensures o.stream != Some(true) && o.quitOk && o.destroyOk ==>
              GracefulShutdown(o) == [SetExit, QuitLoop, DestroyWindow, Exit(0)]
    ensures o.stream == Some(true) && !o.stopOk ==>
              GracefulShutdown(o) == [SetExit, StopStream, Exit(1)]
    ensures o.stream != Some(true) && !o.quitOk ==>
              GracefulShutdown(o) == [SetExit, QuitLoop, Exit(1)]
  {
    ShutdownUnfolds(o);
    if o.stream == Some(true) {
      ActiveStreamRun(o);
    } else {
      IdleStreamRun(o);
    }
  }
}

=== FILE: preferences.dfy ===
// Saving preferences: `ConfigManager.update_preferences` of
// config/config_manager.py, `PreferencesWindow.save_preferences` of
// preferences.py, and `save_key_combination` of push_to_talk.py.

/** `ConfigManager` of config/config_manager.py. */
module ConfigManager {
  import opened Wrappers
  import opened ConfigSchema
  import opened ConfigFile
  import opened AudioDevices

  /** The arguments of `update_preferences`, one per configuration field. */
  datatype Preferences = Preferences(
    model: string,
    noiseReduction: bool,
    keyCombination: seq<string>,
    keyListenerSleep: real,
    alwaysOnTop: bool,
    theme: string,
    logLevel: string,
    logToConsole: bool,
    deviceName: string)

  /** The configuration object afterwards (it is changed in place, so a
      raise does not undo earlier assignments), what the call returned or
      raised, and whether `save_config` ran. */
  datatype Updated = Updated(config: Schema, result: Result<(), ConfigError>, saved: bool)

  /** Every field takes its argument as given, and every other field of
      the configuration, nested ones included, is left as it was. */
  function Assign(c: Schema, p: Preferences): (r: Schema)
    ensures r.modelSupport.defaultModel == p.model && r.enableNoiseReduction == p.noiseReduction
    ensures r.keyCombination == p.keyCombination && r.keyListenerSleep == p.keyListenerSleep
    ensures r.guiSettings.alwaysOnTop == p.alwaysOnTop && r.guiSettings.theme == p.theme
    ensures r.logging.logLevel == p.logLevel && r.logging.logToConsole == p.logToConsole
    ensures r.audioDeviceIndex == c.audioDeviceIndex && r.samplerate == c.samplerate
    ensures r.modelSupport.availableModels == c.modelSupport.availableModels
    ensures r.(modelSupport := c.modelSupport, enableNoiseReduction := c.enableNoiseReduction,
               keyCombination := c.keyCombination, keyListenerSleep := c.keyListenerSleep,
               guiSettings := c.guiSettings, logging := c.logging) == c
    ensures r.modelSupport.(defaultModel := c.modelSupport.defaultModel) == c.modelSupport
    ensures r.guiSettings.(alwaysOnTop := c.guiSettings.alwaysOnTop, theme := c.guiSettings.theme) == c.guiSettings
    ensures r.logging.(logLevel := c.logging.logLevel, logToConsole := c.logging.logToConsole) == c.logging
  {
    c.(modelSupport := c.modelSupport.(defaultModel := p.model),
       enableNoiseReduction := p.noiseReduction,
       keyCombination := p.keyCombination,
       keyListenerSleep := p.keyListenerSleep,
       guiSettings := c.guiSettings.(alwaysOnTop := p.alwaysOnTop, theme := p.theme),
       logging := c.logging.(logLevel := p.logLevel, logToConsole := p.logToConsole))
  }

  /** `update_preferences`: the fields are assigned, then the device index
      becomes that of the first input device with the given name; with no
      such device ConfigError is raised before saving, the assignments
      already made. A save failure is re-raised. */
  function UpdatePreferences(c: Schema, p: Preferences, devices: seq<InputDevice>, saveOk: bool): (r: Updated)
    ensures r.config.modelSupport.defaultModel == p.model && r.config.keyCombination == p.keyCombination
    ensures r.config.logging.logLevel == p.logLevel && r.config.guiSettings.theme == p.theme
    ensures FindByName(devices, p.deviceName).None? ==>
              r.result == Err(DeviceNotFound(p.deviceName)) && !r.saved
              && r.config.audioDeviceIndex == c.audioDeviceIndex
    ensures FindByName(devices, p.deviceName).Some? ==>
              r.saved && r.config.audioDeviceIndex == Some(FindByName(devices, p.deviceName).value.index)
              && (r.result.Ok? <==> saveOk)
    ensures r.result.Err? && r.saved ==> r.result.error == SaveFailed
  {
    var written := Assign(c, p);
    match FindByName(devices, p.deviceName)
    case None => Updated(written, Err(DeviceNotFound(p.deviceName)), false)
    case Some(d) =>
      var updated := written.(audioDeviceIndex := Some(d.index));
      Updated(updated, if saveOk then Ok(()) else Err(SaveFailed), true)
  }

  /** `update_preferences` is `Assign` followed by the device index: apart
      from that index the configuration afterwards is exactly the assigned
      one, so each of the eight arguments lands in its field and nothing
      else changes, whether or not the device is found or the save
      succeeds. */
  lemma UpdateIsAssignThenDevice(c: Schema, p: Preferences, devices: seq<InputDevice>, saveOk: bool)
    ensures var r := UpdatePreferences(c, p, devices, saveOk);
            r.config.(audioDeviceIndex := c.audioDeviceIndex) == Assign(c, p)
    ensures var r := UpdatePreferences(c, p, devices, saveOk).config;
            && r.enableNoiseReduction == p.noiseReduction && r.keyListenerSleep == p.keyListenerSleep
            && r.guiSettings.alwaysOnTop == p.alwaysOnTop && r.logging.logToConsole == p.logToConsole
  {
    var w := Assign(c, p);
    assert w.audioDeviceIndex == c.audioDeviceIndex;
  }

  /** A missing device is not rolled back: the configuration in memory
      already carries the new model, keys and levels, though nothing was
      saved. */
  lemma MissingDeviceKeepsAssignments(c: Schema, p: Preferences, devices: seq<InputDevice>, saveOk: bool)
    requires forall k :: 0 <= k < |devices| ==> devices[k].name != p.deviceName
    ensures var r := UpdatePreferences(c, p, devices, saveOk);
            && r.result.Err? && !r.saved
            && r.config == Assign(c, p)
  {
  }
}

/** `PreferencesWindow.save_preferences` of preferences.py; the widgets are
    replaced by the values they hold. */
module Preferences {
  import opened Wrappers
  import opened PyText
  import opened ConfigSchema
  import opened AudioDevices

  /** `entry.strip().lower()`. */
  function NormalizeKey(k: string): (r: string)
    ensures r == [] <==> AllSpace(k)
    ensures forall i :: 0 <= i < |r| ==> !('A' <= r[i] <= 'Z')
  {
    StripEmptyIffAllSpace(k);
    LowerHasNoUpper(Strip(k));
    Lower(Strip(k))
  }

  /** Lower-casing keeps the ends of a string free of whitespace. */
  lemma LowerKeepsEnds(s: string)
    requires s != [] && !IsSpace(s[0]) && !IsSpace(s[|s| - 1])
    ensures var r := Lower(s); !IsSpace(r[0]) && !IsSpace(r[|r| - 1])
  {
  }

  /** Normalising a normalised key changes nothing. */
  lemma NormalizeKeyIdempotent(k: string)
    ensures NormalizeKey(NormalizeKey(k)) == NormalizeKey(k)
  {
    var s := Strip(k);
    var r := Lower(s);
    if r != [] {
      LowerKeepsEnds(s);
      assert StripLeading(r) == r;
      assert StripTrailing(r) == r;
    }
    assert Strip(r) == r;
    LowerIdempotent(s);
  }

  /** What the dialog holds when Save is pressed: the key entries' text,
      the sleep field (None when converting it raises), and the other
      selections. */
  datatype Form = Form(
    model: string,
    keyEntries: seq<string>,
    sleep: Option<real>,
    alwaysOnTop: bool,
    logLevel: string,
    deviceName: string)

  /** Where `save_preferences` stopped. */
  datatype Stop = EmptyKey | BadSleep | DeviceMissing | SaveError | Saved

  /** The configuration mapping afterwards (changed in place step by
      step), where the call stopped, and whether `save_config` ran; the
      save callback runs and the window closes exactly when it stopped at
      Saved. */
  datatype SaveRun = SaveRun(config: Schema, stop: Stop, saveCalled: bool)

  /** The normalised keys. */
  function NormalizeAll(keys: seq<string>): (r: seq<string>)
    ensures |r| == |keys| && forall i :: 0 <= i < |keys| ==> r[i] == NormalizeKey(keys[i])
  {
    if keys == [] then [] else [NormalizeKey(keys[0])] + NormalizeAll(keys[1..])
  }

  /** Some key normalised to "". */
  predicate AnyEmpty(keys: seq<string>) {
    exists i :: 0 <= i < |keys| && keys[i] == []
  }

  /** A key entry normalises to "" exactly when it holds only whitespace. */
  lemma BlankIffEmptyKey(entries: seq<string>)
    ensures AnyEmpty(NormalizeAll(entries)) <==> exists i :: 0 <= i < |entries| && AllSpace(entries[i])
  {
    var keys := NormalizeAll(entries);
    if AnyEmpty(keys) {
      var i :| 0 <= i < |keys| && keys[i] == [];
      assert AllSpace(entries[i]);
    }
    if exists i :: 0 <= i < |entries| && AllSpace(entries[i]) {
      var i :| 0 <= i < |entries| && AllSpace(entries[i]);
      assert keys[i] == [];
    }
  }

  /** The part of `save_preferences` after the keys were accepted: an
      unconvertible sleep value aborts; the window-on-top flag and log
      level are written; the first input device with the chosen name gives
      the index, or the save aborts; then the configuration is saved. */
  function SaveAfterKeys(c: Schema, f: Form, devices: seq<InputDevice>, saveOk: bool): (r: SaveRun)
    ensures r.stop != EmptyKey && r.config.keyCombination == c.keyCombination
    ensures r.config.modelSupport == c.modelSupport
    ensures r.stop == Saved <==> f.sleep.Some? && FindByName(devices, f.deviceName).Some? && saveOk
    ensures r.saveCalled <==> r.stop == Saved || r.stop == SaveError
    ensures r.saveCalled ==>
              f.sleep.Some? && FindByName(devices, f.deviceName).Some?
              && r.config.keyListenerSleep == f.sleep.value
              && r.config.guiSettings.alwaysOnTop == f.alwaysOnTop && r.config.logging.logLevel == f.logLevel
              && r.config.audioDeviceIndex == Some(FindByName(devices, f.deviceName).value.index)
    ensures !r.saveCalled ==> r.config.audioDeviceIndex == c.audioDeviceIndex
  {
    match f.sleep
    case None => SaveRun(c, BadSleep, false)
    case Some(sleep) =>
      var c1 := c.(keyListenerSleep := sleep,
                   guiSettings := c.guiSettings.(alwaysOnTop := f.alwaysOnTop),
                   logging := c.logging.(logLevel := f.logLevel));
      match FindByName(devices, f.deviceName)
      case None => SaveRun(c1, DeviceMissing, false)
      case Some(d) => SaveRun(c1.(audioDeviceIndex := Some(d.index)), if saveOk then Saved else SaveError, true)
  }

  /** `save_preferences`: the model is written first; any key that
      normalises to "" aborts with only the model written; otherwise the
      normalised keys are written and the rest of the save follows. */
  function SavePreferences(c: Schema, f: Form, devices: seq<InputDevice>, saveOk: bool): (r: SaveRun)
    ensures r.config.modelSupport.defaultModel == f.model
    ensures r.stop == EmptyKey <==> exists i :: 0 <= i < |f.keyEntries| && AllSpace(f.keyEntries[i])
    ensures r.stop == EmptyKey ==> r.config == c.(modelSupport := c.modelSupport.(defaultModel := f.model))
    ensures r.stop != EmptyKey ==>
              r.config.keyCombination == NormalizeAll(f.keyEntries)
              && (forall i :: 0 <= i < |r.config.keyCombination| ==> r.config.keyCombination[i] != [])
              && r == SaveAfterKeys(c.(modelSupport := c.modelSupport.(defaultModel := f.model),
                                       keyCombination := NormalizeAll(f.keyEntries)), f, devices, saveOk)
  {
    var c1 := c.(modelSupport := c.modelSupport.(defaultModel := f.model));
    var keys := NormalizeAll(f.keyEntries);
    BlankIffEmptyKey(f.keyEntries);
    if AnyEmpty(keys) then SaveRun(c1, EmptyKey, false)
    else SaveAfterKeys(c1.(keyCombination := keys), f, devices, saveOk)
  }

  /** The save goes through, calling back and closing the window, exactly
      when no key entry is blank, the sleep value converts, the device is
      listed and writing the file succeeds. */
  lemma SavedIffAllChecksPass(c: Schema, f: Form, devices: seq<InputDevice>, saveOk: bool)
    ensures SavePreferences(c, f, devices, saveOk).stop == Saved <==>
              (forall i :: 0 <= i < |f.keyEntries| ==> !AllSpace(f.keyEntries[i]))
              && f.sleep.Some? && FindByName(devices, f.deviceName).Some? && saveOk
  {
  }

  /** With no key entries at all the key check passes: `all([])` is true. */
  lemma NoKeyEntriesPass(c: Schema, f: Form, devices: seq<InputDevice>, saveOk: bool)
    requires f.keyEntries == []
    ensures SavePreferences(c, f, devices, saveOk).stop != EmptyKey
    ensures SavePreferences(c, f, devices, saveOk).config.keyCombination == []
  {
  }
}

/** `save_key_combination` of push_to_talk.py. */
module PttKeys {
  import opened Wrappers

  /** The check boxes offered, in display order. */
  const AvailableKeys: seq<string> := ["ctrl", "alt", "shift", "space", "cmd"]

  /** The checked keys among `keys`, in order. */
  function Checked(keys: seq<string>, checked: string -> bool): (r: seq<string>)
    ensures forall k :: k in r <==> k in keys && checked(k)
    ensures |r| <= |keys|
  {
    if keys == [] then []
    else if checked(keys[0]) then [keys[0]] + Checked(keys[1..], checked)
    else Checked(keys[1..], checked)
  }

  /** `a` is `b` with some entries left out, the rest in their order. */
  predicate SubsequenceOf(a: seq<string>, b: seq<string>)
    decreases |b|
  {
    a == [] || (b != [] && ((a[0] == b[0] && SubsequenceOf(a[1..], b[1..])) || SubsequenceOf(a, b[1..])))
  }

  /** No entry occurs twice. */
  predicate Distinct(s: seq<string>) {
    forall i, j :: 0 <= i < j < |s| ==> s[i] != s[j]
  }

  /** The selection keeps the offered order and, from distinct keys, holds
      each key at most once. */
  lemma {:induction false} CheckedKeepsOrder(keys: seq<string>, checked: string -> bool)
    ensures SubsequenceOf(Checked(keys, checked), keys)
    ensures Distinct(keys) ==> Distinct(Checked(keys, checked))
    decreases |keys|
  {
    if keys != [] {
      var rest := Checked(keys[1..], checked);
      CheckedKeepsOrder(keys[1..], checked);
      if checked(keys[0]) {
        var r := [keys[0]] + rest;
        assert r[0] == keys[0] && r[1..] == rest;
        if Distinct(keys) {
          assert Distinct(keys[1..]) by {
            forall i, j | 0 <= i < j < |keys[1..]| ensures keys[1..][i] != keys[1..][j] {
              assert keys[1..][i] == keys[i + 1] && keys[1..][j] == keys[j + 1];
            }
          }
          assert keys[0] !in keys[1..] by {
            forall i | 0 <= i < |keys[1..]| ensures keys[1..][i] != keys[0] {
              assert keys[1..][i] == keys[i + 1];
            }
          }
          forall i, j | 0 <= i < j < |r| ensures r[i] != r[j] {
            if i == 0 {
              assert r[j] == rest[j - 1] && rest[j - 1] in rest;
            } else {
              assert r[i] == rest[i - 1] && r[j] == rest[j - 1];
            }
          }
        }
      }
    }
  }

  /** The new `KEY_COMBINATION` (also written to the configuration file)
      or None when nothing is checked, which leaves the combination as it
      was and only warns. A chord that is saved lists each ticked key
      once, in the order the boxes are offered. */
  function SaveKeyCombination(checked: string -> bool): (r: Option<seq<string>>)
    ensures r.None? <==> forall k :: k in AvailableKeys ==> !checked(k)
    ensures r.Some? ==> r.value != [] && forall k :: k in r.value <==> k in AvailableKeys && checked(k)
    ensures r.Some? ==> SubsequenceOf(r.value, AvailableKeys) && Distinct(r.value)
  {
    CheckedKeepsOrder(AvailableKeys, checked);
    var selected := Checked(AvailableKeys, checked);
    if selected == [] then None else Some(selected)
  }

  /** The value of the global `KEY_COMBINATION` after a save: it is set
      before the configuration file is written, so a failing write still
      changes it. The running listener does not see the change, since it
      copied the chord once when it started (push_to_talk.py:595). */
  function KeyCombinationAfter(current: seq<string>, checked: string -> bool): (r: seq<string>)
    ensures SaveKeyCombination(checked).None? ==> r == current
    ensures SaveKeyCombination(checked).Some? ==> r == SaveKeyCombination(checked).value
    ensures r != current ==> r != [] && forall k :: k in r ==> k in AvailableKeys
  {
    match SaveKeyCombination(checked)
    case None => current
    case Some(keys) => keys
  }
}

=== FILE: ptt_session.dfy ===
/** The recording session of the single-file push-to-talk program
    (push_to_talk.py): an `is_recording` flag, the shared buffer of captured
    blocks, the status line, and how far the audio thread has got in its
    current callback. Every `with lock:` section is one step; the audio
    callback is three, since only its append holds the lock. */
module PttSession {
  import opened Audio
  import opened Wrappers
  import opened AppStatus

  /** Where sounddevice's audio thread stands in `audio_callback`
      (push_to_talk.py:580-591): between callbacks, where the next step is
      the unlocked `is_recording` test of a new callback; past that test
      for a block whose locked append comes next; or past the append, with
      the unlocked `clear_buffer_if_needed` next. */
  datatype Callback = Between | Checked(chunk: Chunk) | Appended

  /** `gui.is_recording`, the module-level `audio_buffer`, the status
      label, and the audio thread's position. */
  datatype Session = Session(recording: bool, buffer: seq<Chunk>, status: Status, callback: Callback)

  /** `SAMPLERATE` and `BUFFER_MAX_DURATION` (seconds) from the
      configuration; the program's defaults are 16000 and 120. */
  datatype Limits = Limits(samplerate: int, maxDuration: int)

  const DefaultLimits := Limits(16000, 120)

  /** A freshly built GUI: not recording, empty buffer, status Idle. */
  const Initial := Session(false, [], Idle, Between)

  /** The locked section of `start_recording`: a no-op while recording;
      otherwise recording starts on an emptied buffer with status
      Recording. */
  function StartLocked(s: Session): (r: Session)
    ensures r.recording
    ensures s.recording ==> r == s
    ensures !s.recording ==> r.buffer == [] && r.status == Recording
    ensures r.callback == s.callback
  {
    if s.recording then s else s.(recording := true, buffer := [], status := Recording)
  }

  /** `start_recording`: the start beep comes first, outside any handler,
      so when `winsound.Beep` raises the call ends there with the session
      untouched (None); otherwise the locked section runs. */
  function StartRecording(s: Session, beepOk: bool): (r: Option<Session>)
    ensures r.None? <==> !beepOk
    ensures r.Some? ==> r.value.recording
    ensures r.Some? && s.recording ==> r.value == s
    ensures r.Some? && !s.recording ==> r.value.buffer == [] && r.value.status == Recording
  {
    if !beepOk then None else Some(StartLocked(s))
  }

  /** The session after a stop, and the samples handed to a transcription
      thread if one was started. */
  datatype StopResult = StopResult(session: Session, job: Option<seq<Sample>>)

  /** The locked section of `stop_recording`: a no-op unless recording.
      Otherwise the flag drops, a non-empty buffer is handed to
      transcription as one flattened array in arrival order (status
      Transcribing), an empty one starts nothing (status Idle), and the
      buffer ends empty either way. */
  function StopLocked(s: Session): (r: StopResult)
    ensures !s.recording ==> r == StopResult(s, None)
    ensures s.recording ==> !r.session.recording && r.session.buffer == []
    ensures s.recording ==> (r.job.Some? <==> s.buffer != [])
    ensures s.recording && s.buffer != [] ==>
              r.job == Some(Snapshot(s.buffer)) && r.session.status == Transcribing
    ensures s.recording && s.buffer == [] ==> r.session.status == Idle
    ensures r.session.callback == s.callback
  {
    if !s.recording then
      StopResult(s, None)
    else if s.buffer != [] then
      StopResult(s.(recording := false, buffer := [], status := Transcribing), Some(Snapshot(s.buffer)))
    else
      StopResult(s.(recording := false, buffer := [], status := Idle), None)
  }

  /** `stop_recording`: the stop beep comes first, so a raising
      `winsound.Beep` ends the call before the lock (None): recording goes
      on, the buffer is kept and no job starts. */
  function StopRecording(s: Session, beepOk: bool): (r: Option<StopResult>)
    ensures r.None? <==> !beepOk
    ensures r.Some? && !s.recording ==> r.value == StopResult(s, None)
    ensures r.Some? && s.recording ==>
              !r.value.session.recording && r.value.session.buffer == []
              && (r.value.job.Some? <==> s.buffer != [])
              && (s.buffer != [] ==> r.value.job == Some(Snapshot(s.buffer)))
  {
    if !beepOk then None else Some(StopLocked(s))
  }

  /** How `clear_buffer_if_needed` judges the buffered duration. */
  datatype DurationCheck = Within | Exceeded | DivisionByZero

  /** `total_frames / SAMPLERATE > BUFFER_MAX_DURATION`, with the division
      exact; a zero sample rate raises ZeroDivisionError. */
  function CheckDuration(totalFrames: nat, l: Limits): DurationCheck {
    if l.samplerate == 0 then DivisionByZero
    else if (totalFrames as real) / (l.samplerate as real) > l.maxDuration as real then Exceeded
    else Within
  }

  /** For a positive sample rate the duration test is the integer comparison
      of the frame count with `BUFFER_MAX_DURATION * SAMPLERATE`. */
  lemma ExceededIffFramesAbove(totalFrames: nat, l: Limits)
    requires l.samplerate > 0
    ensures CheckDuration(totalFrames, l) == Exceeded <==> totalFrames > l.maxDuration * l.samplerate
    ensures CheckDuration(totalFrames, l) != DivisionByZero
  {
    var t, sr, d := totalFrames as real, l.samplerate as real, l.maxDuration as real;
    assert (l.maxDuration * l.samplerate) as real == d * sr;
    assert t / sr * sr == t;
    if t / sr > d {
      assert t / sr * sr > d * sr;
    } else {
      assert t / sr * sr <= d * sr;
    }
  }

  /** `clear_buffer_if_needed` with its handler: the whole buffer is
      dropped when it holds strictly more than the allowed duration; a zero
      sample rate raises, and the callback's handler sets status Error. */
  function ClearIfNeeded(s: Session, l: Limits): (r: Session)
    ensures r.recording == s.recording && r.callback == s.callback
    ensures r.buffer == [] || r.buffer == s.buffer
    ensures l.samplerate == 0 ==> r == s.(status := Error)
  {
    match CheckDuration(TotalFrames(s.buffer), l)
    case Within => s
    case Exceeded => s.(buffer := [])
    case DivisionByZero => s.(status := Error)
  }

  /** `audio_callback` run without interruption: while recording the block
      is appended, and the whole buffer is dropped if it now holds strictly
      more than the allowed duration. A zero sample rate makes the check
      raise after the append; the callback catches that and sets status
      Error. When not recording nothing happens. */
  function AudioCallback(s: Session, chunk: Chunk, l: Limits): (r: Session)
    ensures !s.recording ==> r == s
    ensures r.recording == s.recording && r.callback == s.callback
    ensures s.recording ==> r.buffer == [] || r.buffer == s.buffer + [chunk]
    ensures s.recording && l.samplerate == 0 ==> r.buffer == s.buffer + [chunk] && r.status == Error
  {
    if !s.recording then s
    else ClearIfNeeded(s.(buffer := s.buffer + [chunk]), l)
  }

  /** The audio thread's next step. Between callbacks a new one starts
      with `chunk`: it goes on only if `is_recording` holds at that moment
      (push_to_talk.py:582). Past the test, the block is appended under the
      lock whatever the flag is by now (583-585). Past the append, the cap
      is checked against the buffer as it is by now (587), and the
      callback ends. */
  function AudioThreadStep(s: Session, chunk: Chunk, l: Limits): (r: Session)
    ensures r.recording == s.recording
    ensures s.callback == Between ==>
              r.buffer == s.buffer && r.callback == (if s.recording then Checked(chunk) else Between)
    ensures s.callback.Checked? ==> r.buffer == s.buffer + [s.callback.chunk] && r.callback == Appended
    ensures s.callback == Appended ==> r.callback == Between && (r.buffer == [] || r.buffer == s.buffer)
  {
    match s.callback
    case Between => if s.recording then s.(callback := Checked(chunk)) else s
    case Checked(c) => s.(buffer := s.buffer + [c], callback := Appended)
    case Appended => ClearIfNeeded(s.(callback := Between), l)
  }

  /** The duration cap of the callback in integer terms: for a positive
      sample rate the buffer is emptied exactly when the appended block takes
      it strictly past `BUFFER_MAX_DURATION * SAMPLERATE` frames; otherwise
      the block is kept at the end. The status line is untouched. */
  lemma AudioCallbackCap(s: Session, chunk: Chunk, l: Limits)
    requires s.recording && l.samplerate > 0
    ensures var r := AudioCallback(s, chunk, l);
            && r.status == s.status && r.recording
            && (TotalFrames(s.buffer + [chunk]) > l.maxDuration * l.samplerate ==> r.buffer == [])
            && (TotalFrames(s.buffer + [chunk]) <= l.maxDuration * l.samplerate ==> r.buffer == s.buffer + [chunk])
  {
    ExceededIffFramesAbove(TotalFrames(s.buffer + [chunk]), l);
  }

  /** What the key listener does on a detected press: start when not
      recording, stop otherwise; None when the beep raised. */
  function Toggle(s: Session, beepOk: bool): (r: Option<Session>)
    ensures r.None? <==> !beepOk
    ensures r.Some? ==> r.value.recording == !s.recording && r.value.buffer == []
    ensures r.Some? && !s.recording ==> r.value.status == Recording
  {
    if !s.recording then StartRecording(s, beepOk)
    else
      match StopRecording(s, beepOk)
      case None => None
      case Some(stopped) => Some(stopped.session)
  }

  /** The events the session reacts to, each one atomic: a detected press
      with the outcome of its beep, an exception caught by the listener's
      handler, the next step of the audio thread (with the block a new
      callback would receive), a finished transcription. */
  datatype Event =
    | KeyToggle(beepOk: bool)
    | ListenerFault
    | AudioThread(chunk: Chunk)
    | TranscriptionDone(outcome: Status)

  /** One event. An exception in the listener, a raising beep included,
      is caught by its handler, which only sets status Error. A finished
      transcription thread only writes the status line: it does not look
      at the flag or the buffer. */
  function Step(s: Session, e: Event, l: Limits): Session {
    match e
    case KeyToggle(beepOk) =>
      (match Toggle(s, beepOk)
       case None => s.(status := Error)
       case Some(t) => t)
    case ListenerFault => s.(status := Error)
    case AudioThread(c) => AudioThreadStep(s, c, l)
    case TranscriptionDone(st) => s.(status := st)
  }

  function Run(s: Session, events: seq<Event>, l: Limits): Session
    decreases |events|
  {
    if events == [] then s else Run(Step(s, events[0], l), events[1..], l)
  }

  /** The most frames the buffer may hold: `BUFFER_MAX_DURATION *
      SAMPLERATE`. */
  function Cap(l: Limits): int {
    l.maxDuration * l.samplerate
  }

  /** The session invariant, as far as the unlocked parts of the callback
      let it hold. While idle the buffer holds at most one block, the one
      whose callback passed its test before a stop and appended after it;
      and it is still empty while that append is pending. For a positive
      sample rate and a non-negative cap the buffer is within the cap,
      except between an append and the cap check that follows it, when
      everything but the newest block is. */
  ghost predicate Valid(s: Session, l: Limits) {
    && (!s.recording ==> |s.buffer| <= 1)
    && (!s.recording && s.callback.Checked? ==> s.buffer == [])
    && (l.samplerate > 0 && l.maxDuration >= 0 ==>
          if s.callback == Appended then s.buffer == [] || TotalFrames(s.buffer[..|s.buffer| - 1]) <= Cap(l)
          else TotalFrames(s.buffer) <= Cap(l))
  }

  /** The cap check leaves a buffer within the cap. */
  lemma ClearIfNeededWithinCap(s: Session, l: Limits)
    requires l.samplerate > 0 && l.maxDuration >= 0
    ensures TotalFrames(ClearIfNeeded(s, l).buffer) <= Cap(l)
  {
    ExceededIffFramesAbove(TotalFrames(s.buffer), l);
    assert TotalFrames([]) == 0;
  }

  /** Every event keeps the invariant. */
  lemma StepPreservesValid(s: Session, e: Event, l: Limits)
    requires Valid(s, l)
    ensures Valid(Step(s, e, l), l)
  {
    match e
    case AudioThread(c) => {
      match s.callback
      case Between =>
      case Checked(ch) =>
        assert (s.buffer + [ch])[..|s.buffer|] == s.buffer;
      case Appended =>
        if l.samplerate > 0 && l.maxDuration >= 0 {
          ClearIfNeededWithinCap(s.(callback := Between), l);
        }
    }
    case _ =>
  }

  /** The invariant holds after any interleaving of presses (with or
      without a raising beep), listener faults, steps of the audio thread
      and finished transcriptions. */
  lemma {:induction false} RunPreservesValid(s: Session, events: seq<Event>, l: Limits)
    requires Valid(s, l)
    ensures Valid(Run(s, events, l), l)
    decreases |events|
  {
    if events != [] {
      StepPreservesValid(s, events[0], l);
      RunPreservesValid(Step(s, events[0], l), events[1..], l);
    }
  }

  /** Three steps of the audio thread with nothing in between are the
      whole callback; while idle a new callback returns at once. */
  lemma UninterruptedCallback(s: Session, chunk: Chunk, l: Limits)
    requires s.callback == Between
    ensures !s.recording ==> Step(s, AudioThread(chunk), l) == s
    ensures s.recording ==>
              Run(s, [AudioThread(chunk), AudioThread(chunk), AudioThread(chunk)], l) == AudioCallback(s, chunk, l)
  {
    if s.recording {
      var e := [AudioThread(chunk), AudioThread(chunk), AudioThread(chunk)];
      var s1 := Step(s, e[0], l);
      var s2 := Step(s1, e[1], l);
      var s3 := Step(s2, e[2], l);
      assert Run(s2, e[1..][1..], l) == Run(s3, e[1..][1..][1..], l);
      assert e[1..][1..][1..] == [];
      assert s2 == s.(buffer := s.buffer + [chunk], callback := Appended);
    }
  }

  /** A stop that lands between a callback's test and its append leaves
      the block in the buffer of an idle session; it stays there until the
      next start empties the buffer. */
  lemma StopInsideCallbackLeavesBlock(chunk: Chunk, l: Limits)
    ensures var r := Run(Session(true, [], Recording, Between),
                         [AudioThread(chunk), KeyToggle(true), AudioThread(chunk)], l);
            !r.recording && r.buffer == [chunk] && r.callback == Appended
    ensures StartLocked(Session(false, [chunk], Idle, Between)).buffer == []
  {
    var s0 := Session(true, [], Recording, Between);
    var e := [AudioThread(chunk), KeyToggle(true), AudioThread(chunk)];
    var s1 := Step(s0, e[0], l);
    var s2 := Step(s1, e[1], l);
    var s3 := Step(s2, e[2], l);
    assert Run(s2, e[1..][1..], l) == Run(s3, e[1..][1..][1..], l);
    assert e[1..][1..][1..] == [];
    assert s2 == Session(false, [], Idle, Checked(chunk));
  }

  /** A stop that lands between an append and the cap check hands
      transcription a buffer past the cap: one block larger than the cap
      reaches the job whole. */
  lemma StopBeforeCapCheckExceedsCap(chunk: Chunk, l: Limits)
    requires l.samplerate > 0 && l.maxDuration >= 0 && |chunk| > Cap(l)
    ensures var r := Run(Session(true, [], Recording, Between), [AudioThread(chunk), AudioThread(chunk)], l);
            && r.recording && r.callback == Appended
            && StopLocked(r).job == Some(Snapshot([chunk]))
            && TotalFrames([chunk]) > Cap(l)
  {
    var s0 := Session(true, [], Recording, Between);
    var e := [AudioThread(chunk), AudioThread(chunk)];
    var s1 := Step(s0, e[0], l);
    var s2 := Step(s1, e[1], l);
    assert Run(s1, e[1..], l) == Run(s2, e[1..][1..], l);
    assert e[1..][1..] == [];
    assert s2.buffer == [chunk];
    TotalFramesAppend([], [chunk]);
    assert [] + [chunk] == [chunk];
  }

  /** How far past the cap a job can be: a stop in a valid session hands
      transcription at most the cap's worth of frames, plus the newest
      block when the stop lands between its append and the cap check. */
  lemma StopJobBound(s: Session, l: Limits)
    requires Valid(s, l) && s.recording && s.buffer != []
    requires l.samplerate > 0 && l.maxDuration >= 0
    ensures StopLocked(s).job.Some?
    ensures var n := |Concat(s.buffer)|;
            && (s.callback != Appended ==> n <= Cap(l))
            && (s.callback == Appended ==> n <= Cap(l) + |s.buffer[|s.buffer| - 1]|)
  {
    TotalFramesIsConcatLength(s.buffer);
    var k := |s.buffer| - 1;
    assert s.buffer == s.buffer[..k] + [s.buffer[k]];
    TotalFramesAppend(s.buffer[..k], [s.buffer[k]]);
    assert TotalFrames([s.buffer[k]]) == |s.buffer[k]| + TotalFrames([]);
  }

  /** Uninterrupted callbacks for a sequence of blocks, in arrival order. */
  function Feed(s: Session, chunks: seq<Chunk>, l: Limits): Session
    decreases |chunks|
  {
    if chunks == [] then s else Feed(AudioCallback(s, chunks[0], l), chunks[1..], l)
  }

  /** While recording and under the cap, feeding blocks appends exactly
      those blocks, in order, and leaves flag and status alone. */
  lemma {:induction false} FeedAppends(s: Session, chunks: seq<Chunk>, l: Limits)
    requires s.recording && l.samplerate > 0
    requires TotalFrames(s.buffer + chunks) <= l.maxDuration * l.samplerate
    ensures Feed(s, chunks, l) == s.(buffer := s.buffer + chunks)
    decreases |chunks|
  {
    if chunks != [] {
      var next := s.buffer + [chunks[0]];
      assert s.buffer + chunks == next + chunks[1..];
      TotalFramesAppend(next, chunks[1..]);
      var s' := AudioCallback(s, chunks[0], l);
      AudioCallbackCap(s, chunks[0], l);
      assert s' == s.(buffer := next);
      FeedAppends(s', chunks[1..], l);
    }
  }

  /** Toggle semantics: start, blocks arriving within the cap, stop, both
      beeps returning. The stop hands transcription exactly the samples of
      those blocks in arrival order (nothing if no block arrived), and
      leaves the buffer empty. */
  lemma RecordThenStop(s: Session, chunks: seq<Chunk>, l: Limits)
    requires !s.recording && l.samplerate > 0
    requires TotalFrames(chunks) <= l.maxDuration * l.samplerate
    ensures StartRecording(s, true).Some?
    ensures var r := StopRecording(Feed(StartRecording(s, true).value, chunks, l), true);
            && r.Some?
            && r.value.job == (if chunks == [] then None else Some(Snapshot(chunks)))
            && r.value.session.buffer == [] && !r.value.session.recording
            && r.value.session.status == (if chunks == [] then Idle else Transcribing)
  {
    var started := StartLocked(s);
    assert started.buffer + chunks == chunks;
    FeedAppends(started, chunks, l);
  }

  /** A press whose beep raises changes nothing but the status line: a
      recording in progress keeps its flag and every buffered block. */
  lemma RaisingBeepKeepsRecording(s: Session, l: Limits)
    ensures var r := Step(s, KeyToggle(false), l);
            r.recording == s.recording && r.buffer == s.buffer && r.status == Error
            && r.callback == s.callback
  {
  }

  /** A block that takes the buffer strictly past the cap empties the whole
      buffer, whatever was recorded before it. */
  lemma OverflowClearsAll(s: Session, chunk: Chunk, l: Limits)
    requires s.recording && l.samplerate > 0
    requires TotalFrames(s.buffer) + |chunk| > l.maxDuration * l.samplerate
    ensures AudioCallback(s, chunk, l).buffer == []
  {
    TotalFramesAppend(s.buffer, [chunk]);
    assert [chunk][..0] == [];
    AudioCallbackCap(s, chunk, l);
  }
}

=== FILE: ptt_transcribe.dfy ===
/** The transcription thread of push_to_talk.py (`transcribe_audio`): the
    Whisper result is stripped, shown and typed when non-empty, written to a
    transcript file in every case, and the status line ends Idle or Error.
    Inference, typing, the file write and system monitoring are oracles. */
module PttTranscribe {
  import opened Wrappers
  import opened AppStatus
  import opened PyText

  /** What each foreign step does: the raw text Whisper returns (None when
      inference raises), and whether typing, the transcript write and the
      resource log succeed; `monitoring` is `ENABLE_SYSTEM_MONITORING`. */
  datatype Oracles = Oracles(
    inference: Option<string>,
    typingOk: bool,
    writeOk: bool,
    monitoring: bool,
    monitorOk: bool)

  /** The visible effects: the text appended to the window, the keystrokes
      typed, the transcript file's content, and the final status. */
  datatype Outcome = Outcome(
    shown: Option<string>,
    typed: Option<string>,
    saved: Option<string>,
    status: Status)

  /** The steps run in order inside one `try`; the first that raises
      skips the rest and sets status Error. `save_audio` catches its own
      errors and never changes the outcome. */
  function Transcribe(o: Oracles): (r: Outcome)
    ensures r.status == Idle || r.status == Error
    ensures r.status == Idle <==>
              o.inference.Some? && (Strip(o.inference.value) == [] || o.typingOk)
              && o.writeOk && (!o.monitoring || o.monitorOk)
    ensures r.shown.Some? <==> o.inference.Some? && Strip(o.inference.value) != []
    ensures r.shown.Some? ==> r.shown.value == Strip(o.inference.value)
    ensures r.typed.Some? <==> r.shown.Some? && o.typingOk
    ensures r.typed.Some? ==> r.typed.value == r.shown.value + " "
    ensures r.saved.Some? ==> o.inference.Some? && r.saved.value == Strip(o.inference.value)
    ensures r.saved.Some? <==>
              o.inference.Some? && (Strip(o.inference.value) == [] || o.typingOk) && o.writeOk
    ensures r.status == Idle ==> r.saved.Some?
  {
    match o.inference
    case None => Outcome(None, None, None, Error)
    case Some(raw) =>
      var text := Strip(raw);
      if text != [] && !o.typingOk then
        Outcome(Some(text), None, None, Error)
      else
        var shown := if text != [] then Some(text) else None;
        var typed := if text != [] then Some(text + " ") else None;
        if !o.writeOk then Outcome(shown, typed, None, Error)
        else if o.monitoring && !o.monitorOk then Outcome(shown, typed, Some(text), Error)
        else Outcome(shown, typed, Some(text), Idle)
  }

  /** A transcript of whitespace only shows and types nothing, yet an empty
      transcript file is still written; one with any other character is
      shown. */
  lemma WhitespaceOnlyShowsNothing(o: Oracles)
    requires o.inference.Some?
    ensures var r := Transcribe(o);
            && (AllSpace(o.inference.value) <==> r.shown.None?)
            && (AllSpace(o.inference.value) ==> r.typed.None? && (o.writeOk ==> r.saved == Some([])))
  {
    StripEmptyIffAllSpace(o.inference.value);
  }

  /** What is shown carries no surrounding whitespace: stripping it again
      changes nothing. */
  lemma ShownIsStripped(o: Oracles)
    requires Transcribe(o).shown.Some?
    ensures var t := Transcribe(o).shown.value; Strip(t) == t
  {
    StripIdempotent(o.inference.value);
  }
}

=== FILE: pyseq.dfy ===
/** Python's slice bounds on lists and arrays: `s[:n]` and `s[n:]` for any
    integer `n`, and `int()` of a float, which truncates toward zero. */
module PySeq {

  /** Where a slice bound `n` lands in a sequence of length `len`: a
      negative bound counts from the end, and the result is clamped to
      `0..len`. */
  function Bound(n: int, len: nat): (k: nat)
    ensures k <= len
    ensures 0 <= n <= len ==> k == n
    ensures n > len ==> k == len
    ensures n < 0 && len + n >= 0 ==> k == len + n
    ensures len + n < 0 ==> k == 0
  {
    if n < 0 then (if len + n < 0 then 0 else len + n)
    else if n > len then len
    else n
  }

  /** `s[:n]`. */
  function Prefix<T>(s: seq<T>, n: int): (r: seq<T>)
    ensures |r| == Bound(n, |s|) && r == s[..|r|]
  {
    s[..Bound(n, |s|)]
  }

  /** `s[n:]`. */
  function Suffix<T>(s: seq<T>, n: int): (r: seq<T>)
    ensures |r| == |s| - Bound(n, |s|) && r == s[|s| - |r|..]
  {
    s[Bound(n, |s|)..]
  }

  /** `s[:n] + s[n:] == s` for every `n`: the two slices split the
      sequence, losing and duplicating nothing. */
  lemma PrefixSuffixSplit<T>(s: seq<T>, n: int)
    ensures Prefix(s, n) + Suffix(s, n) == s
  {
    var k := Bound(n, |s|);
    assert s[..k] + s[k..] == s;
  }

  /** `s[:-m]` for `m > 0` drops the last `m` elements; `s[:-0]` is `s[:0]`,
      which is empty. */
  lemma DropLastSlice<T>(s: seq<T>, m: int)
    requires m >= 0
    ensures m == 0 ==> Prefix(s, -m) == []
    ensures 0 < m <= |s| ==> Prefix(s, -m) == s[..|s| - m]
    ensures m > |s| ==> Prefix(s, -m) == []
  {
  }

  /** `int(0.5 * x)` for an integer `x`: half of `x`, truncated toward
      zero. */
  function TruncHalf(x: int): (h: int)
    ensures x >= 0 ==> 0 <= h && x - 1 <= 2 * h <= x
    ensures x < 0 ==> h <= 0 && x <= 2 * h <= x + 1
  {
    if x >= 0 then x / 2 else -((-x) / 2)
  }
}

=== FILE: pytext.dfy ===
/** The few Python `str` operations the program applies to user-visible text:
    `strip()` with no argument, and `lower()`/`upper()` as they act on ASCII
    letters. */
module PyText {

  /** Python's `str.isspace` for one code point: the ASCII whitespace and
      separator controls plus the Unicode space separators, line and
      paragraph separators. */
  predicate IsSpace(c: char) {
    var n := c as int;
    || (0x09 <= n <= 0x0D) || (0x1C <= n <= 0x20)
    || n == 0x85 || n == 0xA0 || n == 0x1680
    || (0x2000 <= n <= 0x200A)
    || n == 0x2028 || n == 0x2029 || n == 0x202F || n == 0x205F
    || n == 0x3000
  }

  /** Every character of `s` is whitespace (vacuously true of ""). */
  predicate AllSpace(s: string) {
    forall i :: 0 <= i < |s| ==> IsSpace(s[i])
  }

  /** `s` with its leading whitespace removed. */
  function StripLeading(s: string): (r: string)
    ensures |r| <= |s| && r == s[|s| - |r|..]
    ensures AllSpace(s[..|s| - |r|])
    ensures r == [] || !IsSpace(r[0])
  {
    if |s| > 0 && IsSpace(s[0]) then
      var t := StripLeading(s[1..]);
      assert s[1..][..|s[1..]| - |t|] == s[1..|s| - |t|];
      assert s[..|s| - |t|] == [s[0]] + s[1..|s| - |t|];
      t
    else
      s
  }

  /** `s` with its trailing whitespace removed. */
  function StripTrailing(s: string): (r: string)
    ensures |r| <= |s| && r == s[..|r|]
    ensures AllSpace(s[|r|..])
    ensures r == [] || !IsSpace(r[|r| - 1])
  {
    if |s| > 0 && IsSpace(s[|s| - 1]) then
      var t := StripTrailing(s[..|s| - 1]);
      assert s[..|s| - 1][|t|..] == s[|t|..|s| - 1];
      assert s[|t|..] == s[|t|..|s| - 1] + [s[|s| - 1]];
      assert t == s[..|s| - 1][..|t|] == s[..|t|];
      t
    else
      s
  }

  /** Python's `s.strip()`: the infix of `s` left after removing whitespace
      at both ends. */
  function Strip(s: string): (r: string)
    ensures exists i, j :: 0 <= i <= j <= |s| && r == s[i..j]
                           && AllSpace(s[..i]) && AllSpace(s[j..])
    ensures r == [] || (!IsSpace(r[0]) && !IsSpace(r[|r| - 1]))
  {
    var a := StripLeading(s);
    var r := StripTrailing(a);
    StripInfix(s, a, r);
    r
  }

  /** Where the two halves of `strip()` cut `s`. */
  lemma StripInfix(s: string, a: string, r: string)
    requires |a| <= |s| && a == s[|s| - |a|..] && AllSpace(s[..|s| - |a|])
    requires |r| <= |a| && r == a[..|r|] && AllSpace(a[|r|..])
    ensures var i := |s| - |a|;
            && 0 <= i <= i + |r| <= |s| && r == s[i..i + |r|]
            && AllSpace(s[..i]) && AllSpace(s[i + |r|..])
    ensures r != [] ==> r[0] == a[0]
  {
    var i := |s| - |a|;
    var j := i + |r|;
    assert r == s[i..j] by {
      assert a == s[i..];
      assert r == a[..|r|];
    }
    assert AllSpace(s[j..]) by {
      assert a == s[i..];
      assert s[j..] == a[|r|..];
    }
  }

  /** Stripping yields "" exactly when the text is whitespace only. */
  lemma {:induction false} StripEmptyIffAllSpace(s: string)
    ensures Strip(s) == [] <==> AllSpace(s)
  {
    var a := StripLeading(s);
    var r := StripTrailing(a);
    assert Strip(s) == r;
    if !AllSpace(s) {
      assert s[..|s| - 0] == s;
      assert a != [];
      assert a[|r|..] == a || r != [];
    }
  }

  /** Stripping is idempotent: the result has no whitespace left to remove. */
  lemma {:induction false} StripIdempotent(s: string)
    ensures Strip(Strip(s)) == Strip(s)
  {
    var r := Strip(s);
    var a := StripLeading(r);
    if r != [] {
      assert a == r;
    } else {
      assert a == [];
    }
    var b := StripTrailing(a);
    if a != [] {
      assert b == a;
    }
  }

  /** ASCII lower-casing of one character; other characters are unchanged. */
  function LowerChar(c: char): char {
    if 'A' <= c <= 'Z' then (c as int + 32) as char else c
  }

  /** ASCII upper-casing of one character; other characters are unchanged. */
  function UpperChar(c: char): char {
    if 'a' <= c <= 'z' then (c as int - 32) as char else c
  }

  /** `s.lower()` restricted to ASCII letters. */
  function Lower(s: string): (r: string)
    ensures |r| == |s|
    ensures forall i :: 0 <= i < |s| ==> r[i] == LowerChar(s[i])
  {
    if s == [] then [] else [LowerChar(s[0])] + Lower(s[1..])
  }

  /** `s.upper()` restricted to ASCII letters. */
  function Upper(s: string): (r: string)
    ensures |r| == |s|
    ensures forall i :: 0 <= i < |s| ==> r[i] == UpperChar(s[i])
  {
    if s == [] then [] else [UpperChar(s[0])] + Upper(s[1..])
  }

  /** A string without lower-case ASCII letters is its own upper case. */
  lemma UpperOfUpperCase(s: string)
    requires forall i :: 0 <= i < |s| ==> !('a' <= s[i] <= 'z')
    ensures Upper(s) == s
  {
  }

  /** A lower-cased string contains no upper-case ASCII letter. */
  lemma LowerHasNoUpper(s: string)
    ensures forall i :: 0 <= i < |Lower(s)| ==> !('A' <= Lower(s)[i] <= 'Z')
  {
    forall i | 0 <= i < |Lower(s)|
      ensures !('A' <= Lower(s)[i] <= 'Z')
    {
      assert Lower(s)[i] == LowerChar(s[i]);
    }
  }

  /** A lower-cased string contains no upper-case ASCII letter, so lowering
      again changes nothing. */
  lemma LowerIdempotent(s: string)
    ensures Lower(Lower(s)) == Lower(s)
  {
    var r := Lower(s);
    assert forall i :: 0 <= i < |r| ==> LowerChar(r[i]) == r[i];
  }

  /** An upper-cased string stays the same when upper-cased again. */
  lemma UpperIdempotent(s: string)
    ensures Upper(Upper(s)) == Upper(s)
  {
    var r := Upper(s);
    assert forall i :: 0 <= i < |r| ==> UpperChar(r[i]) == r[i];
  }
}

=== FILE: status.dfy ===
/** The status line every GUI variant shows. */
module AppStatus {

  /** The status texts the recording and transcription paths write. */
  datatype Status = Idle | Recording | Transcribing | Error
}

=== FILE: tk_timer.dfy ===
/** Tk's `after` queue as one window sees it: the callbacks scheduled and
    neither run nor cancelled yet, by the id `after` handed out, with their
    delay in milliseconds. The clock and the callbacks' bodies are not part
    of the queue. */
module TkTimer {

  datatype Queue = Queue(scheduled: map<nat, int>, nextId: nat)

  const Empty := Queue(map[], 0)

  /** Every id still scheduled was handed out earlier, so the next id is
      fresh. */
  predicate Fresh(q: Queue) {
    forall id :: id in q.scheduled ==> id < q.nextId
  }

  /** `root.after(delay, callback)`: schedules one callback under a fresh
      id, `q.nextId`, and leaves every other scheduled callback alone. */
  function After(q: Queue, delay: int): (r: Queue)
    ensures r.nextId > q.nextId
    ensures q.nextId in r.scheduled && r.scheduled[q.nextId] == delay
    ensures forall id :: id != q.nextId ==> (id in r.scheduled <==> id in q.scheduled)
    ensures forall id :: id in q.scheduled && id != q.nextId ==> r.scheduled[id] == q.scheduled[id]
    ensures Fresh(q) ==> Fresh(r) && q.nextId !in q.scheduled
  {
    Queue(q.scheduled[q.nextId := delay], q.nextId + 1)
  }

  /** `root.after_cancel(id)`: the callback will not run; an id that is not
      scheduled any more is ignored. The callback that runs when its delay
      expires leaves the queue the same way. */
  function Cancel(q: Queue, id: nat): (r: Queue)
    ensures id !in r.scheduled && r.nextId == q.nextId
    ensures forall other :: other != id ==> (other in r.scheduled <==> other in q.scheduled)
    ensures forall other :: other in r.scheduled ==> r.scheduled[other] == q.scheduled[other]
    ensures id !in q.scheduled ==> r == q
    ensures Fresh(q) ==> Fresh(r)
  {
    Queue(q.scheduled - {id}, q.nextId)
  }

  /** Cancelling the callback just scheduled gives back the queue as it
      was, apart from the consumed id. */
  lemma CancelUndoesAfter(q: Queue, delay: int)
    requires Fresh(q)
    ensures Cancel(After(q, delay), q.nextId).scheduled == q.scheduled
  {
  }
}

=== FILE: transcriber.dfy ===
/** The `Transcriber` of transcription/transcriber.py: `get_whisper_model`
    is memoised per instance and model name by `lru_cache`, which caches
    returned values but not raised exceptions. */
module Transcriber {
  import opened Wrappers
  import opened WhisperModel
  import ModelSupportConfig

  /** The memo of one instance: the models already returned, by name. */
  datatype Transcriber = Transcriber(cache: map<string, Model>)

  const Fresh := Transcriber(map[])

  /** The torch device a model is placed on. */
  function DeviceName(cudaAvailable: bool): (d: string)
    ensures d == "cuda" <==> cudaAvailable
    ensures d == "cpu" <==> !cudaAvailable
  {
    if cudaAvailable then "cuda" else "cpu"
  }

  /** The instance after a call, its result (None when the load raised and
      the exception propagates), and whether `whisper.load_model` ran. */
  datatype Got = Got(t: Transcriber, model: Option<Model>, loaded: bool)

  /** `get_whisper_model(name)`: a cached name returns its model without
      loading; otherwise `load(name, device)` runs, and only a returned
      model is remembered. */
  function GetWhisperModel(
    t: Transcriber, name: string, cudaAvailable: bool,
    load: (string, string) -> Option<Model>): (r: Got)
    ensures name in t.cache ==> r == Got(t, Some(t.cache[name]), false)
    ensures name !in t.cache ==> r.loaded && r.model == load(name, DeviceName(cudaAvailable))
    ensures name !in t.cache && r.model.Some? ==> r.t.cache == t.cache[name := r.model.value]
    ensures r.model.None? ==> r.t == t
    ensures forall n :: n in t.cache ==> n in r.t.cache && r.t.cache[n] == t.cache[n]
  {
    if name in t.cache then Got(t, Some(t.cache[name]), false)
    else
      match load(name, DeviceName(cudaAvailable))
      case None => Got(t, None, true)
      case Some(m) => Got(Transcriber(t.cache[name := m]), Some(m), true)
  }

  /** `load_whisper_model(name)`: the memoised model, or the same exception
      re-raised. */
  function LoadWhisperModel(
    t: Transcriber, name: string, cudaAvailable: bool,
    load: (string, string) -> Option<Model>): (r: Got)
    ensures name in t.cache ==> r.model == Some(t.cache[name]) && !r.loaded
    ensures name !in t.cache ==> r.model == load(name, DeviceName(cudaAvailable)) && r.loaded
    ensures r.model.None? ==> r.t == t
  {
    GetWhisperModel(t, name, cudaAvailable, load)
  }

  /** A second request for a name that loaded returns the same model and
      loads nothing, whatever the loader would do now. */
  lemma SecondCallHitsCache(
    t: Transcriber, name: string, cuda1: bool, cuda2: bool,
    load1: (string, string) -> Option<Model>, load2: (string, string) -> Option<Model>)
    requires GetWhisperModel(t, name, cuda1, load1).model.Some?
    ensures var first := GetWhisperModel(t, name, cuda1, load1);
            var second := GetWhisperModel(first.t, name, cuda2, load2);
            second.model == first.model && !second.loaded && second.t == first.t
  {
  }

  /** A failed load leaves no trace: the next request loads again. */
  lemma FailureIsRetried(
    t: Transcriber, name: string, cuda: bool,
    load1: (string, string) -> Option<Model>, load2: (string, string) -> Option<Model>)
    requires GetWhisperModel(t, name, cuda, load1).model.None?
    ensures var first := GetWhisperModel(t, name, cuda, load1);
            var second := GetWhisperModel(first.t, name, cuda, load2);
            second.loaded && second.model == load2(name, DeviceName(cuda))
  {
  }

  /** `check_model_availability`: whether the name occurs in Whisper's list
      of available models. */
  function CheckModelAvailability(name: string, available: seq<string>): (b: bool)
    ensures b <==> exists i :: 0 <= i < |available| && available[i] == name
  {
    name in available
  }

  /** The availability check and the configuration's `default_model`
      validator agree: against the same list of names, a model is available
      exactly when it would be accepted as the default; and the answer
      depends on which names are listed, not on their order. */
  lemma AvailabilityAgreesWithValidator(name: string, models: seq<string>, reordered: seq<string>)
    requires forall n :: n in models <==> n in reordered
    ensures CheckModelAvailability(name, models) <==> ModelSupportConfig.ValidateDefaultModel(name, Some(models)).Ok?
    ensures CheckModelAvailability(name, models) == CheckModelAvailability(name, reordered)
  {
  }
}

=== FILE: transcription_gui.dfy ===
/** The GUI object of gui/transcription_gui.py as the application drives
    it: the recording flag, the status line, the timeout timer and the
    current model. Widget construction is left out. */
module TranscriptionGui {
  import opened Wrappers
  import opened AppStatus
  import opened TkTimer
  import opened WhisperModel

  datatype Gui = Gui(
    recording: bool,
    status: Status,
    timer: Option<nat>,
    queue: Queue,
    model: Option<Model>)

  /** What `self.config.recording_timeout` evaluates to: the attribute may
      be missing, which raises AttributeError. */
  datatype TimeoutSetting = Missing | Timeout(seconds: int)

  /** A new GUI: not recording and no timeout timer, holding the model it
      was given. */
  function NewGui(model: Option<Model>): (g: Gui)
    ensures !g.recording && g.timer.None? && g.model == model
    ensures g.queue.scheduled == map[]
  {
    Gui(false, Idle, None, Empty, model)
  }

  /** `start_timeout_timer`: arms a timer that calls the stop callback
      after `recording_timeout` seconds, only for a positive timeout. A
      missing attribute is caught and logged, and nothing is armed. */
  function StartTimeoutTimer(g: Gui, setting: TimeoutSetting): (r: Gui)
    ensures (setting.Timeout? && setting.seconds > 0) ==>
              r.timer == Some(g.queue.nextId)
              && g.queue.nextId in r.queue.scheduled
              && r.queue.scheduled[g.queue.nextId] == setting.seconds * 1000
    ensures !(setting.Timeout? && setting.seconds > 0) ==> r == g
    ensures r.recording == g.recording && r.status == g.status && r.model == g.model
  {
    match setting
    case Timeout(seconds) =>
      if seconds > 0 then g.(timer := Some(g.queue.nextId), queue := After(g.queue, seconds * 1000))
      else g
    case Missing => g
  }

  /** `stop_timeout_timer`: cancels and forgets a pending timer; a no-op
      when none is pending. `cancelOk` says whether `after_cancel`
      returns: when it raises, the error is logged and the id is kept. */
  function StopTimeoutTimer(g: Gui, cancelOk: bool): (r: Gui)
    ensures g.timer.None? ==> r == g
    ensures g.timer.Some? && cancelOk ==> r.timer.None? && g.timer.value !in r.queue.scheduled
    ensures g.timer.Some? && !cancelOk ==> r == g
    ensures r.recording == g.recording && r.status == g.status && r.model == g.model
  {
    match g.timer
    case None => g
    case Some(id) => if cancelOk then g.(timer := None, queue := Cancel(g.queue, id)) else g
  }

  /** `set_model`: the given model replaces the current one and nothing
      else changes. */
  function SetModel(g: Gui, model: Option<Model>): (r: Gui)
    ensures r.model == model
    ensures r.recording == g.recording && r.status == g.status
    ensures r.timer == g.timer && r.queue == g.queue
  {
    g.(model := model)
  }

  /** Stopping a timer that stopped cleanly is a no-op, whatever
      `after_cancel` would do. */
  lemma StopTimeoutIdempotent(g: Gui, ok1: bool, ok2: bool)
    requires g.timer.None? || ok1
    ensures StopTimeoutTimer(StopTimeoutTimer(g, ok1), ok2) == StopTimeoutTimer(g, ok1)
  {
  }

  /** The timeout only ever arms a timer the stop can take back: starting
      from no pending timer, arming and stopping cleanly leaves the queue
      as it was. */
  lemma StartThenStopRestoresQueue(g: Gui, setting: TimeoutSetting)
    requires g.timer.None? && Fresh(g.queue)
    ensures var r := StopTimeoutTimer(StartTimeoutTimer(g, setting), true);
            r.timer.None? && r.queue.scheduled == g.queue.scheduled
  {
    if setting.Timeout? && setting.seconds > 0 {
      CancelUndoesAfter(g.queue, setting.seconds * 1000);
    }
  }
}

=== FILE: whisper_model.dfy ===
/** A loaded Whisper model, identified by the name it was loaded under and
    the torch device it was placed on. Its weights and inference are
    foreign code and stay opaque. */
module WhisperModel {

  datatype Model = Model(name: string, device: string)
}

=== FILE: wrappers.dfy ===
/** Failure-carrying result types used across the model in place of the
    exceptions the program raises and catches. */
module Wrappers {

  /** A value that may be absent, in place of Python's `None`. */
  datatype Option<+T> = None | Some(value: T) {

    /** The carried value, or `default` when absent. */
    function GetOr(default: T): (r: T)
      ensures Some? ==> r == value
      ensures None? ==> r == default
    {
      match this
      case Some(v) => v
      case None => default
    }
  }

  /** Either a value or the error that was raised instead of returning one. */
  datatype Result<+T, +E> = Ok(value: T) | Err(error: E) {

    predicate IsFailure() {
      Err?
    }
  }
}
